=== FILE: README.md ===
# Spchart gantt core, modelled in Dafny

Spchart is a project-management web application for car-wash shop openings.
A project has an open date. Its work is split into seven fixed categories
(連絡系, 販促物備品系, 通信系, プロモーション系, 求人系, 研修系, その他), and each
category is shown as a gantt chart of main tasks with sub-tasks. Tasks come
from two places:

- **template tasks**, read from a spreadsheet and back-scheduled from the
  open date;
- **live tasks**, kept in a database table and pushed to every client by
  realtime events.

This project models the sequential logic of that application and proves
what it promises. The modules are:

- `SheetRoute` (`sheet_route.dfy`): the spreadsheet route turns raw rows into
  template records. It drops the header, collects sub-tasks from columns C–L,
  and reads the period and the distance from the open date with `parseInt`
  and its defaults.
- `SheetHook` (`sheet_hook.dfy`): the sheet hook sorts the records into the
  seven category buckets and back-schedules each one. It keeps the previous
  buckets on any failure.
- `SheetUtils` (`sheet_utils.dfy`): the second converter, with the progress
  derivation and round-robin assignees, and the category filter.
- `Merge` (`merge.dfy`): how the training and promotion charts combine
  template tasks with live ones. `OrderSort` (`order_sort.dfy`) is the
  stable sort by order index they use, as a function and as an in-place
  array method.
- `TaskStore` (`task_store.dfy`): the live task hook over two in-memory
  tables, tasks and sub-tasks, with every store call that can fail.
  - `People` (`people.dfy`) and `Projects` (`projects.dfy`) do the same for
    people and projects.
  - Each also has its realtime event reducer. Lemmas prove that the reducer
    turns the old fetch into the new fetch after every write.
- `GanttView`, `GanttStyle`, `GanttCalendar` and `GanttActions`: the chart.
  - `GanttView` (`gantt_view.dfy`): expand/collapse, hide/show, and the
    flattening into display rows.
  - `GanttStyle` (`gantt_style.dfy`): progress colours and bar position.
  - `GanttCalendar` (`gantt_calendar.dfy`): the date window, the month
    headers, the rokuyo labels and weekends.
  - `GanttActions` (`gantt_actions.dfy`): the chart's store-driving actions,
    including promoting a template (`sheet-`) task into the store.
- `AppPage` (`app_page.dfy`): the page's list handlers for people and
  projects, the open-date settings and the category dispatch.
- Shared building blocks:
  - `Domain` (`domain.dfy`) holds the records and the rounding of
    percentages.
  - `Calendar` (`calendar.dfy`) is the proleptic Gregorian calendar behind
    `Date`.
  - `JsText` (`js_text.dfy`) holds the string functions: `trim`, `parseInt`,
    `String(n)`, `indexOf`.
  - `Lists` (`lists.dfy`) holds `filter`/`map`.
  - `StoreCalls` (`store_calls.dfy`) holds store faults and row ids.

Conventions of the model:

- Dates are whole day numbers, with day 0 being 1 January 1970.
- `Math.round(c / n * 100)` is exact half-up rounding, `(200c + n) / (2n)`.
- A row's id is the decimal rendering of a counter key. The counter order is
  the creation order.
- Failures of the store are a parameter `fault` that names which store call,
  counted from 0, fails and with what thrown value.

Where the project's written description and its code disagree, the model
follows the code:

- spreadsheet rows whose task name is blank are kept, not skipped;
- `addTask` gives a new task no order index;
- `removePersonFromTask` passes `undefined`, which `updateTask` ignores.
  `updateTask` clears an assignee only when handed `null` (or a person with
  an empty id), which its declared type does not admit (see Findings);
- `updateSubTask` writes the sub-task and the parent's progress in separate
  calls, which can fail in between.

## Model

| member | source | states |
|---|---|---|
| SheetRoute.Get | src/app/api/sheets/route.ts:126-149 | The loop over data rows builds exactly the response the specification function `Respond` describes |
| SheetRoute.RespondShape | src/app/api/sheets/route.ts:110-163 | Missing or empty values give the not-found response. Otherwise there is one record per row after the header, in row order, with totalRows = rows, totalTasks = rows − 1 and the header echoed |
| SheetRoute.BuildTask | src/app/api/sheets/route.ts:129-149 | One data row becomes the record the conversion function describes, its sub-tasks built by the column loop |
| SheetRoute.BuildSubTasks | src/app/api/sheets/route.ts:131-140 | The column loop over indices 2..11 yields exactly the sub-tasks of the present, non-blank cells |
| SheetRoute.PushColumn | src/app/api/sheets/route.ts:133-139 | One turn of the loop adds column i's sub-task exactly when its cell exists and is not blank |
| SheetRoute.SubTasksFromColumns | src/app/api/sheets/route.ts:132-140 | Sub-task k comes from the k-th kept column, and its id carries that column's position, so skipped cells leave gaps |
| SheetRoute.SubTasksShape | src/app/api/sheets/route.ts:130-140 | At most ten sub-tasks. Each is open and has a trimmed, non-empty name. Their ids are pairwise distinct |
| SheetRoute.ColumnsWhereSpec | src/app/api/sheets/route.ts:132-134 | The selected columns are exactly those in range that pass the test, strictly increasing |
| SheetRoute.SubTaskIdsDiffer | src/app/api/sheets/route.ts:135 | Sub-tasks from different columns of one row get different ids |
| SheetRoute.TrimIdempotent | src/app/api/sheets/route.ts:136 | Trimming a trimmed name changes nothing |
| SheetRoute.ShortRowKept | src/app/api/sheets/route.ts:143-144 | A row with no cells still yields a record, with empty category and name, no sub-tasks, period 1 and distance 0 |
| SheetRoute.Period | src/app/api/sheets/route.ts:146 | The period is never 0: NaN and 0 are replaced by 1 |
| SheetRoute.PeriodCases | src/app/api/sheets/route.ts:146 | A cell "n" gives n, except that "0" gives 1. A cell "-n" gives −n, so negative periods pass through |
| SheetRoute.FromOpenCases | src/app/api/sheets/route.ts:147 | A missing, empty or non-numeric cell gives 0. A numeral gives its value |
| JsText.Trim | src/app/api/sheets/route.ts:136 | The result is the slice of the input with no white space at either end, and it is empty exactly when the input is all white space |
| JsText.TrimStart | src/app/api/sheets/route.ts:136 | The result is a suffix of the input. What was dropped is all white space, and what remains does not start with white space |
| JsText.TrimEnd | src/app/api/sheets/route.ts:136 | The result is a prefix of the input. What was dropped is all white space, and what remains does not end with white space |
| JsText.TrimEmptyIff | src/app/api/sheets/route.ts:136 | Both trims together give the empty string exactly for all-white-space input |
| JsText.ParseIntOfNatToString | src/app/api/sheets/route.ts:146-147 | `parseInt(String(n))` returns n: the decimal rendering round-trips |
| JsText.ParseIntOfNegative | src/app/api/sheets/route.ts:146-147 | `parseInt("-" + String(n))` returns −n |
| JsText.ParseIntEmpty | src/app/api/sheets/route.ts:146-147 | A string with no leading digit is NaN |
| JsText.DigitRun | src/app/api/sheets/route.ts:146-147 | The counted prefix is the longest one made of digits of the radix |
| JsText.NatToString | src/hooks/use-sheet-tasks.ts:51 | `String(n)` is a non-empty string of decimal digits with no leading zero except for 0 itself |
| JsText.NatToStringValue | src/hooks/use-sheet-tasks.ts:51 | The digits of `String(n)` denote n |
| JsText.NatToStringInjective | src/hooks/use-sheet-tasks.ts:51 | Different numbers render differently |
| JsText.IndexOfFrom | src/hooks/use-realtime-people.ts:24 | The result is the first position at or after `from` where the pattern occurs, or none when it occurs nowhere there |
| JsText.CharIndex | src/hooks/use-sheet-tasks.ts:51 | The position of the first occurrence of a character, or the length when there is none |
| JsText.SplitAtSeparator | src/hooks/use-sheet-tasks.ts:51 | Splitting at a separator absent from both left parts recovers both parts |
| SheetHook.SheetTasksHook.FetchTasks | src/hooks/use-sheet-tasks.ts:12-73 | Without an open date nothing changes. Otherwise loading ends, and tasks and error are the outcome of the response, computed against the previous buckets |
| SheetHook.Categorize | src/hooks/use-sheet-tasks.ts:39-65 | The `forEach` that pushes records into buckets computes the specification function of the sort over all records |
| SheetHook.SortSpec | src/hooks/use-sheet-tasks.ts:28-65 | Sorting fails exactly when some record's category is an inherited object key, with the push error. On success the keys are exactly the seven categories, and each bucket holds that category's records in row order |
| SheetHook.EmptyBuckets | src/hooks/use-sheet-tasks.ts:28-36 | The starting map has exactly the seven category keys |
| SheetHook.FailedStays | src/hooks/use-sheet-tasks.ts:39-65 | Once a push has thrown, later records do not revive the sort |
| SheetHook.CategoriesNotInherited | src/hooks/use-sheet-tasks.ts:41 | No category name is an inherited object key, so real categories never make the sort fail |
| SheetHook.BucketIndices | src/hooks/use-sheet-tasks.ts:39-63 | Each bucket is the template tasks of the records of its category, at strictly increasing record indices |
| SheetHook.TemplateTaskShape | src/hooks/use-sheet-tasks.ts:43-61 | start = open − fromOpen and end − start + 1 = period, so end ≥ start exactly when period ≥ 1. Progress is 0, there is no assignee, and the sub-tasks and name are copied |
| SheetHook.TaskIdInjective | src/hooks/use-sheet-tasks.ts:51 | Two ids `sheet-<category>-<index>` agree only for the same category and index |
| SheetHook.IdsUnique | src/hooks/use-sheet-tasks.ts:51 | Ids are unique across all buckets of a successful sort |
| SheetHook.NoHyphenInCategory | src/hooks/use-sheet-tasks.ts:51 | No category contains a hyphen, which makes the ids parse unambiguously |
| SheetHook.FailureKeepsTasks | src/hooks/use-sheet-tasks.ts:20-72 | An error is recorded exactly when the response is not received or the sort fails. In that case the previous buckets are kept |
| SheetUtils.ConvertedTask | src/lib/sheet-utils.ts:12-42 | Task i has id `sheet-task-i`, the record's name, sub-tasks and display order, and back-scheduled dates. Its progress is the sub-tasks' progress: 0 for none, otherwise the nearest whole percent of completed over all (halves rounded up), so within 0..100, 100 when all are done and 0 when none is |
| SheetUtils.ConvertSheetTasks | src/lib/sheet-utils.ts:12-42 | One task per record, in order |
| SheetUtils.ConvertedFullOnlyWhenDone | src/lib/sheet-utils.ts:28-29 | With fewer than 200 sub-tasks, a converted task shows 100 only when all of them are done |
| SheetUtils.ConvertedIdsDistinct | src/lib/sheet-utils.ts:32 | The converted ids are pairwise distinct |
| SheetUtils.AssigneeOf | src/lib/sheet-utils.ts:37 | With no people there is no assignee. Otherwise task i gets person i mod |people| |
| SheetUtils.RoundRobin | src/lib/sheet-utils.ts:37 | The first |people| tasks get the people in order, and from there the assignees repeat with period |people| |
| SheetUtils.FilterTasksByCategory | src/lib/sheet-utils.ts:44-61 | The filter returns either all tasks or none |
| SheetUtils.FilterKeepsIff | src/lib/sheet-utils.ts:44-61 | The tasks are kept exactly when the category is one of the seven keys of the filter's map |
| SheetUtils.UndottedPromotionFiltered | src/lib/sheet-utils.ts:46-54 | The filter's map spells the promotional category with a middle dot. Spelt without the dot, as the rest of the application spells it, that category is filtered to nothing |
| Domain.PercentIsNearest | src/lib/sheet-utils.ts:28-29 | The rounded percentage is the integer nearest to 100c/n, with ties going up |
| Domain.PercentBounds | src/hooks/use-realtime-tasks.ts:199-200 | Progress lies in 0..100. It is 0 with nothing completed and 100 with everything completed |
| Domain.PercentFullOnlyWhenAllDone | src/hooks/use-realtime-tasks.ts:199-200 | With fewer than 200 sub-tasks, progress reaches 100 only when all are completed |
| Domain.PercentMonotone | src/hooks/use-realtime-tasks.ts:199-200 | Completing one more sub-task never lowers progress |
| Domain.ThreeOfFour | src/hooks/use-realtime-tasks.ts:199-200 | Three of four gives 75, and four of four gives 100 |
| Domain.CategoriesDistinct | src/app/page.tsx:239 | There are seven categories, pairwise distinct |
| Domain.PersonIndex | src/hooks/use-realtime-tasks.ts:33 | The index of the first person with the id, or the length when there is none |
| Domain.FindPerson | src/hooks/use-realtime-tasks.ts:33 | The first person with the id. There is none exactly when no id is given or nobody matches |
| Merge.MergeTraining | src/components/gantt/categories/training.tsx:41-81 | The live list is sorted in place by order index, with missing as 10000. The combined list is the training combination of the bucket, defaulting to empty, and the old live list. Loading is the or of both flags |
| Merge.TrainingSegments | src/components/gantt/categories/training.tsx:49-66 | The combined list is the sorted surviving template tasks followed by the sorted live tasks |
| Merge.TrainingTemplatePart | src/components/gantt/categories/training.tsx:49-57 | The template segment is a permutation of the surviving tasks. Each is from the bucket and shares no live name. The segment is ordered by order index, with missing as 9999, and stable |
| Merge.TrainingLivePart | src/components/gantt/categories/training.tsx:60-66 | The live segment is a permutation of the live tasks, ordered by order index with missing as 10000, and stable |
| Merge.WithoutLiveNamesSpec | src/components/gantt/categories/training.tsx:49-50 | The survivors are the bucket's tasks whose names no live task has: each as often as in the bucket, in bucket order, at strictly increasing bucket positions that include every such task's position |
| Merge.NothingLiveKeepsAll | src/components/gantt/categories/training.tsx:49-50 | With no live names nothing is dropped |
| Merge.TrainingWithoutIndices | src/components/gantt/categories/training.tsx:53-66 | With no order index anywhere, both sides keep their input order |
| Merge.TrainingMissingBucket | src/components/gantt/categories/training.tsx:46 | A missing bucket contributes nothing: the chart shows the sorted live tasks |
| Merge.NoIndexKeepsOrder | src/components/gantt/categories/training.tsx:53-64 | With every key defaulted, the sort keeps the order |
| Merge.PromotionMerge | src/components/gantt/categories/promotion.tsx:62 | The promotion chart's loading flag is the or of both flags |
| Merge.PromotionMergeSpec | src/components/gantt/categories/promotion.tsx:46-53 | The output ends with the live tasks unchanged. Before them come the bucket's tasks whose names no live task has, in bucket order, at strictly increasing bucket positions covering every such task, each as often as in the bucket; the length is their number plus the live count |
| Merge.PromotionMissingBucket | src/components/gantt/categories/promotion.tsx:46 | A missing bucket gives exactly the live tasks |
| OrderSort.SortInPlace | src/components/gantt/categories/training.tsx:60-64 | The in-place sort leaves the array as the stable sort by key of its old contents |
| OrderSort.InsertLast | src/components/gantt/categories/training.tsx:60-64 | One insertion step turns the prefix into the sorted insertion of the next element and leaves the rest alone |
| OrderSort.SortSorted | src/components/gantt/categories/training.tsx:53-64 | The result is ordered by key |
| OrderSort.SortPermutes | src/components/gantt/categories/training.tsx:53-64 | The result holds the same elements, each as often |
| OrderSort.SortStable | src/components/gantt/categories/training.tsx:53-64 | Elements with equal keys keep their relative order |
| OrderSort.SortKeepsSorted | src/components/gantt/categories/training.tsx:53-64 | An ordered list is left as it is |
| OrderSort.InsertPermutes | src/components/gantt/categories/training.tsx:53-64 | Insertion adds exactly the one element |
| OrderSort.InsertSorted | src/components/gantt/categories/training.tsx:53-64 | Insertion into an ordered list keeps it ordered |
| OrderSort.InsertStable | src/components/gantt/categories/training.tsx:53-64 | Insertion puts the element after every element with its key |
| TaskStore.RealtimeTasks.FetchTasks | src/hooks/use-realtime-tasks.ts:13-60 | Without a project nothing happens. On success the tasks are the formatted rows of this project and category. On failure the list is kept and the error is recorded ("Unknown error" for a non-Error) |
| TaskStore.FetchedTask | src/hooks/use-realtime-tasks.ts:26-51 | Each fetched task comes from a row of this project and category. It has that row's id, name, dates and stored progress, and the matching person. Its sub-tasks are that row's own, sorted by order index |
| TaskStore.FetchedAll | src/hooks/use-realtime-tasks.ts:26-28 | Every row of this project and category is fetched, in creation order |
| TaskStore.RealtimeTasks.AddTask | src/hooks/use-realtime-tasks.ts:63-95 | Without a project it is skipped. A failure records "Failed to add task" and rethrows. Success appends a row with progress 0, marked local, in this hook's category, with the assignee id or null |
| TaskStore.RealtimeTasks.UpdateTask | src/hooks/use-realtime-tasks.ts:98-117 | Success writes exactly the update's fields to the rows with this id. Failure throws the fault's value, leaves the tables and records the error |
| TaskStore.UpdateRowsFields | src/hooks/use-realtime-tasks.ts:100-108 | The name is written only when non-empty. Progress is written only when given. The assignee is written only when not undefined. Dates, category and key are never written. Other rows are unchanged |
| TaskStore.UpdateIdempotent | src/hooks/use-realtime-tasks.ts:98-117 | Writing the same update twice is writing it once |
| TaskStore.RealtimeTasks.DeleteTask | src/hooks/use-realtime-tasks.ts:120-129 | The task row goes, and with it its sub-task rows. No progress is recomputed. Failure throws the fault's value, keeps the tables and records "Failed to delete task" |
| TaskStore.DeleteTaskGone | src/hooks/use-realtime-tasks.ts:120-129 | No row with the id and no sub-task of it remain. Every other row stays |
| TaskStore.RealtimeTasks.AddSubTask | src/hooks/use-realtime-tasks.ts:132-165 | It succeeds exactly when neither store call fails and the parent exists. It appends an open sub-task with the next order index under the next key. Failures throw the fault's value, or the store's own error for a missing parent, and record "Failed to add subtask" |
| TaskStore.RealtimeTasks.InsertSubRow | src/hooks/use-realtime-tasks.ts:147-155 | The insert appends the row under the next key and keeps the tables well formed |
| TaskStore.NextOrderIndexAbove | src/hooks/use-realtime-tasks.ts:144 | The new order index is above every existing one, and one past the largest |
| TaskStore.AddedSubTaskShownLast | src/hooks/use-realtime-tasks.ts:132-165 | After an add, the fetched task shows its old sub-tasks followed by the new one |
| TaskStore.SortAppendLargest | src/hooks/use-realtime-tasks.ts:35-41 | A row whose key is above every key of a sorted list is sorted to the end |
| TaskStore.RealtimeTasks.UpdateSubTask | src/hooks/use-realtime-tasks.ts:168-214 | The sub-task row gets the given name and completion. A completion change then recomputes the parent's progress from all its sub-tasks. Failures of each call are reported, with the thrown value: the store's own error for a row that is gone, else the fault's |
| TaskStore.RecomputeOnlyParent | src/hooks/use-realtime-tasks.ts:180-208 | Recomputing changes only the parent's progress, and sets it to the rounded share of its completed sub-tasks |
| TaskStore.WrittenProgressMatchesShown | src/hooks/use-realtime-tasks.ts:199-200 | The progress written from the rows equals the progress of the sub-tasks the fetch shows |
| TaskStore.CompletedSorted | src/hooks/use-realtime-tasks.ts:35-41 | Sorting does not change how many sub-tasks are completed |
| TaskStore.RealtimeTasks.DeleteSubTask | src/hooks/use-realtime-tasks.ts:217-226 | The sub-task row goes and the parent's progress is not recomputed. Failure throws the fault's value and records "Failed to delete subtask" |
| TaskStore.FindTaskRow | src/hooks/use-realtime-tasks.ts:181-185 | The row found has the id. When none is found, no row has it |
| TaskStore.RowIdNotTemplate | src/components/gantt/gantt-chart.tsx:195 | A stored row's id never starts with `sheet-`, so only template tasks are promoted |
| TaskStore.UpdateKeepsTables | src/hooks/use-realtime-tasks.ts:98-117 | An update keeps the tables well formed |
| TaskStore.DeleteKeepsTables | src/hooks/use-realtime-tasks.ts:120-129 | A delete keeps the tables well formed, with no orphan sub-tasks |
| People.RealtimePeople.FetchPeople | src/hooks/use-realtime-people.ts:13-35 | On success the list is the whole table, oldest first. On failure it is kept and the error is recorded |
| People.RealtimePeople.AddPerson | src/hooks/use-realtime-people.ts:38-59 | Success appends a row with the names and bg-blue-600 / text-blue-700. Failure records "Failed to add person" |
| People.RealtimePeople.UpdatePerson | src/hooks/use-realtime-people.ts:62-78 | Only the two names of the row with this id are written |
| People.RealtimePeople.DeletePerson | src/hooks/use-realtime-people.ts:81-90 | The rows with this id go, and every other row stays |
| People.RealtimePeople.OnChange | src/hooks/use-realtime-people.ts:109-131 | An insert appends. An update replaces every person with the id and keeps the length. A delete removes all with the id. The tables are untouched |
| People.InsertEventMatchesFetch | src/hooks/use-realtime-people.ts:109-118 | After an insert, the insert event turns the old fetch into the new one |
| People.UpdateEventMatchesFetch | src/hooks/use-realtime-people.ts:119-128 | After a rename, the update event turns the old fetch into the new one |
| People.DeleteEventMatchesFetch | src/hooks/use-realtime-people.ts:129-131 | After a delete, the delete event turns the old fetch into the new one |
| People.DeleteEventSpec | src/hooks/use-realtime-people.ts:129-131 | A delete event removes every person with the id and keeps every other one |
| People.InsertThenDelete | src/hooks/use-realtime-people.ts:109-131 | An insert event and then a delete event for the new id leave the list as it was |
| People.ReplacedTwice | src/hooks/use-realtime-people.ts:128 | Replacing twice is replacing once, and ids stay in place |
| People.ColorOfShade | src/hooks/use-realtime-people.ts:24 | For `bg-X-600` the derived colour is `bg-X-100 border-X-200 text-X-800` |
| People.BgShade | src/hooks/use-realtime-people.ts:24 | In `bg-X-600` only the first `-600` is replaced, and that is the last one |
| People.AddedPersonColor | src/hooks/use-realtime-people.ts:46-47 | Every added person shows as `bg-blue-100 border-blue-200 text-blue-800` |
| Projects.RealtimeProjects.FetchProjects | src/hooks/use-realtime-projects.ts:13-32 | On success the whole table, newest first, with a null open date as none. On failure the list is kept |
| Projects.RealtimeProjects.AddProject | src/hooks/use-realtime-projects.ts:35-47 | Success stores a row with the name only, so no open date |
| Projects.RealtimeProjects.UpdateProject | src/hooks/use-realtime-projects.ts:50-66 | Success writes the update's fields to the row with this id. Failure records "Failed to update project" |
| Projects.UpdateRowsFields | src/hooks/use-realtime-projects.ts:52-57 | The name is written only when non-empty, and the open date only when given, so it can never be cleared. Other rows are unchanged |
| Projects.RealtimeProjects.DeleteProject | src/hooks/use-realtime-projects.ts:69-78 | The rows with this id go |
| Projects.RealtimeProjects.OnChange | src/hooks/use-realtime-projects.ts:97-115 | An insert prepends. An update replaces every project with the id. A delete removes all with the id |
| Projects.InsertEventMatchesFetch | src/hooks/use-realtime-projects.ts:97-103 | A new row is the newest, so prepending it is what a fetch in descending creation order gives |
| Projects.UpdateEventMatchesFetch | src/hooks/use-realtime-projects.ts:104-112 | After an update, the update event turns the old fetch into the new one |
| Projects.DeleteEventMatchesFetch | src/hooks/use-realtime-projects.ts:113-114 | After a delete, the delete event turns the old fetch into the new one |
| StoreCalls.Message | src/hooks/use-realtime-tasks.ts:56 | An Error contributes its message. Any other thrown value gives the fallback text |
| StoreCalls.RowIdInjective | src/hooks/use-realtime-tasks.ts:26-51 | Different keys give different row ids |
| GanttStyle.ShadeBands | src/components/gantt/gantt-chart.tsx:563-590 | Teal exactly at 100. Blue from 80, except 100. Yellow in 50..79, orange in 20..49, red below 20 |
| GanttStyle.ProgressBarStyle | src/components/gantt/gantt-chart.tsx:563-596 | The gradient stop is clamped to 0..100 and equals the progress inside that range. Both colours come from one band |
| GanttStyle.Clamp | src/components/gantt/gantt-chart.tsx:592 | `Math.max(0, Math.min(100, p))` lies in 0..100 and is p inside the range |
| GanttStyle.OverFullIsBlue | src/components/gantt/gantt-chart.tsx:563-590 | Above 100 the bar is blue with stop 100 |
| GanttStyle.ShadeMonotone | src/components/gantt/gantt-chart.tsx:563-590 | The band rises with progress up to 100 |
| GanttStyle.NameMatchesBar | src/components/gantt/gantt-chart.tsx:614-619 | The name is teal exactly when the bar is in the teal band |
| GanttStyle.FindIndex | src/components/gantt/gantt-chart.tsx:530-531 | The first index of the day in the window, or −1 exactly when it is absent |
| GanttStyle.TaskPosition | src/components/gantt/gantt-chart.tsx:528-544 | A task with its start or end outside the window is placed at 0/0 |
| GanttStyle.PositionInWindow | src/components/gantt/gantt-chart.tsx:528-544 | Inside the window, left = start index / total × 100 and width = (end − start + 1) / total × 100. The bar lies within 0..100 |
| GanttStyle.PositionOutside | src/components/gantt/gantt-chart.tsx:528-544 | A task starting before the window or ending after it is not drawn |
| GanttStyle.ReversedTaskWidth | src/components/gantt/gantt-chart.tsx:538 | A task ending before it starts gets a width of zero or less |
| GanttView.ChartView.HandleTaskBarClick | src/components/gantt/gantt-chart.tsx:170-179 | Toggles exactly that id in the expanded set. Tasks and hidden tasks are unchanged |
| GanttView.Toggle | src/components/gantt/gantt-chart.tsx:170-179 | The clicked id flips membership, and every other id keeps it |
| GanttView.ToggleTwice | src/components/gantt/gantt-chart.tsx:170-179 | Two clicks on the same bar cancel |
| GanttView.ToggleCommutes | src/components/gantt/gantt-chart.tsx:170-179 | Clicks on different bars commute |
| GanttView.ChartView.constructor | src/components/gantt/gantt-chart.tsx:89-109 | The chart opens on the given tasks with nothing hidden or expanded |
| GanttView.ChartView.SetInitialTasks | src/components/gantt/gantt-chart.tsx:105-107 | New tasks from the parent replace the shown ones. Hidden and expanded tasks stay |
| GanttView.ChartView.GetDisplayTasks | src/components/gantt/gantt-chart.tsx:640-668 | The loop's rows are exactly the specification function's display rows |
| GanttView.DisplayRowCount | src/components/gantt/gantt-chart.tsx:640-668 | There is one row per task, plus, for each expanded task, its sub-tasks and an add row |
| GanttView.MainRowsAreTasks | src/components/gantt/gantt-chart.tsx:640-668 | The main rows are the tasks, each once and in order, whatever is expanded |
| GanttView.SubRowAt | src/components/gantt/gantt-chart.tsx:653-660 | Sub-row k of a task shows its k-th sub-task |
| GanttView.NothingExpanded | src/components/gantt/gantt-chart.tsx:640-668 | With nothing expanded there is exactly one main row per task |
| GanttView.ChartView.HideMainTask | src/components/gantt/gantt-chart.tsx:673-693 | An unknown id changes nothing. Otherwise the task moves to the end of the hidden list, leaves the shown list and is folded |
| GanttView.ChartView.ShowTask | src/components/gantt/gantt-chart.tsx:696-711 | An unknown id changes nothing. Otherwise the task is appended to the shown list, not put back where it was, and leaves the hidden list |
| GanttView.HideThenShow | src/components/gantt/gantt-chart.tsx:673-711 | Showing a task just hidden finds it last and restores the hidden list |
| GanttView.HiddenGone | src/components/gantt/gantt-chart.tsx:673-693 | Hiding removes every task with the id and keeps the others in order |
| GanttCalendar.DateWindow | src/components/gantt/gantt-chart.tsx:133-144 | The window runs day by day from the window start through open + 30. An unset open date means 1 April 2024 |
| GanttCalendar.BuildDateRange | src/components/gantt/gantt-chart.tsx:141-144 | The loop yields one entry per day from start through end |
| GanttCalendar.WindowHoldsOpenDate | src/components/gantt/gantt-chart.tsx:133-144 | The window holds at least 31 days including the open date, ends at open + 30 and starts on a first of the month |
| GanttCalendar.WindowStartMonth | src/components/gantt/gantt-chart.tsx:134-136 | The window starts on the first of a month three or four months before the open date's month, never after the open date |
| GanttCalendar.DefaultWindow | src/components/gantt/gantt-chart.tsx:133-140 | With the default open date the window runs from 1 December 2023 to 1 May 2024 |
| GanttCalendar.OverflowWindow | src/components/gantt/gantt-chart.tsx:134-136 | Month overflow: an open date of 31 October 2024 starts the window on 1 July |
| GanttCalendar.WindowEndIsOpenPlus30 | src/components/gantt/gantt-chart.tsx:138-139 | The window ends 30 days after the open date |
| GanttCalendar.GenerateMonthHeaders | src/components/gantt/gantt-chart.tsx:454-480 | The headers run-length encode the month keys of the window. Spans sum to its length, each start is the sum of earlier spans, and adjacent keys differ |
| GanttCalendar.GroupRuns | src/components/gantt/gantt-chart.tsx:455-477 | The counter loop groups any key list into maximal runs |
| GanttCalendar.Close | src/components/gantt/gantt-chart.tsx:463-469 | Pushing the open header covers exactly its span of keys |
| GanttCalendar.MonthKeyIdentifiesMonth | src/components/gantt/gantt-chart.tsx:461 | Two days share a header key exactly when they are in the same month of the same year |
| GanttCalendar.DateKeyIdentifiesMonth | src/components/gantt/gantt-chart.tsx:461 | Two dates share a key exactly when year and month agree |
| GanttCalendar.YearStringInjective | src/components/gantt/gantt-chart.tsx:461 | Different years render differently |
| GanttCalendar.Pad2Injective | src/components/gantt/gantt-chart.tsx:461 | Different months render differently after padding |
| GanttCalendar.JsRem6 | src/components/gantt/gantt-chart.tsx:525 | JavaScript's `% 6` takes the sign of the dividend |
| GanttCalendar.RokuyoFrom1900 | src/components/gantt/gantt-chart.tsx:518-526 | From 1900 on every day has the label at the day total modulo 6 |
| GanttCalendar.RokuyoBefore1900 | src/components/gantt/gantt-chart.tsx:518-526 | Before 1900 the total is negative. Only totals divisible by 6 get a label, and it is 大安 |
| GanttCalendar.RokuyoNextDay | src/components/gantt/gantt-chart.tsx:518-526 | Within a month the label moves one step along the six-day cycle |
| GanttCalendar.RokuyoExample | src/components/gantt/gantt-chart.tsx:518-526 | 1 April 2024 is labelled 仏滅 |
| GanttCalendar.WeekendsOfWeek | src/components/gantt/gantt-chart.tsx:626-629 | Of the seven days from a Monday, exactly the sixth and seventh are weekend days |
| GanttCalendar.DefaultOpenDateIsMonday | src/components/gantt/gantt-chart.tsx:626-629 | The default open date is a Monday, and its sixth day is shaded |
| Calendar.CivilFromDays | src/components/gantt/gantt-chart.tsx:133-144 | The date read from a day number is valid and denotes that day |
| Calendar.CivilRoundTrip | src/components/gantt/gantt-chart.tsx:133-144 | Reading back the date of a valid date's day number gives that date |
| Calendar.DaysFromCivilInjective | src/components/gantt/gantt-chart.tsx:133-144 | Two valid dates with the same day number are equal |
| Calendar.MakeDayOfValid | src/components/gantt/gantt-chart.tsx:135 | On an in-range month and day, the constructor's day is the ordinary day number |
| GanttActions.ToggleSubTaskCompletion | src/components/gantt/gantt-chart.tsx:308-376 | A `sheet-` task is promoted: the task is stored, then every sub-task is stored in order with the completed ones marked, then progress is written. A live task has the chosen sub-task flipped, with each store call's failure followed as in ToggleStoredSubTask |
| GanttActions.ToggleStoredSubTask | src/components/gantt/gantt-chart.tsx:347-366 | The stored sub-task's completion flips and the store recomputes the parent's progress, then the chart's own progress is written over it. A failing `updateSubTask` (fault or missing row) records its error, leaves the tasks table and skips `updateTask`; a failing `updateTask` records its error over the recomputed table |
| GanttActions.FlipOnlyChosen | src/components/gantt/gantt-chart.tsx:317-318 | Only the chosen sub-task's completion changes. Ids, names and order stay |
| GanttActions.FlipTwice | src/components/gantt/gantt-chart.tsx:317-318 | Toggling twice changes nothing |
| GanttActions.FlipAbsent | src/components/gantt/gantt-chart.tsx:317-318 | With no such sub-task, toggling changes nothing |
| GanttActions.FlipCount | src/components/gantt/gantt-chart.tsx:317-322 | Toggling changes the completed count by exactly one |
| GanttActions.AssignPersonToTask | src/components/gantt/gantt-chart.tsx:188-241 | A `sheet-` task is promoted with the assignee, its sub-tasks and its progress. A live task gets the assignee written when the person is known; a failing write leaves the table and records the error |
| GanttActions.PromoteTemplateTask | src/components/gantt/gantt-chart.tsx:195-225 | Without a project nothing is stored. Otherwise the task is added with its name and dates, its sub-tasks are added in order, and its progress is written |
| GanttActions.MigrateSubTask | src/components/gantt/gantt-chart.tsx:214-219 | After sub-task i, the stored rows are those for the first i + 1 sub-tasks |
| GanttActions.AddMigrated | src/components/gantt/gantt-chart.tsx:215 | Each re-added sub-task gets the next key and order index, and is open |
| GanttActions.CompleteMigrated | src/components/gantt/gantt-chart.tsx:216-218 | A completed sub-task is then marked completed in the store |
| GanttActions.PromotedShown | src/components/gantt/gantt-chart.tsx:213-220 | A later fetch shows exactly the promoted sub-task rows |
| GanttActions.PromotedSubTasks | src/components/gantt/gantt-chart.tsx:213-220 | Promoted sub-task i keeps its name and completion under the i-th new key |
| GanttActions.PromotedSorted | src/components/gantt/gantt-chart.tsx:213-220 | The promoted rows are already in order-index order, so a fetch keeps their order |
| GanttActions.PromotedProgress | src/components/gantt/gantt-chart.tsx:199-202 | The progress the store would recompute equals the progress the promotion wrote |
| GanttActions.PromotedNextOrder | src/components/gantt/gantt-chart.tsx:213-220 | After promotion the next sub-task would get order index |subs| |
| GanttActions.PromotedOwn | src/components/gantt/gantt-chart.tsx:213-220 | The promoted task's own sub-task rows are exactly those the promotion wrote |
| GanttActions.RemovePersonFromTask | src/components/gantt/gantt-chart.tsx:244-252 | As written, the call leaves every table unchanged; a failing call only records its error |
| GanttActions.RemovedPersonStays | src/components/gantt/gantt-chart.tsx:244-252 | As written, an assignee survives the removal |
| GanttActions.ClearPersonFromTask | src/components/gantt/gantt-chart.tsx:244-252 | The intended removal writes "no assignee" to the task with the id; a failing call leaves the table and records the error |
| GanttActions.ClearedPersonGone | src/components/gantt/gantt-chart.tsx:244-252 | After the intended removal the task has no assignee, and every other row is as it was |
| GanttActions.AddMainTask | src/components/gantt/gantt-chart.tsx:261-289 | With a blank name or a missing date nothing happens. Otherwise the task is stored with the trimmed name and the dates, and the form is reset |
| GanttActions.DeleteMainTask | src/components/gantt/gantt-chart.tsx:292-305 | The task and its sub-tasks are deleted and it is folded, with the error kept. When the store throws, the tables and the fold are kept and the error is recorded. The chart defines this handler but never calls it; its menu hides tasks instead |
| GanttActions.AddSubTaskFromForm | src/components/gantt/gantt-chart.tsx:379-395 | A blank name does nothing. Otherwise the sub-task is added with the trimmed name under the next key when the parent exists and no call fails, and the input is cleared. Otherwise the tables and the key counter stay, the input is kept and the thrown error is recorded |
| GanttActions.TemplateTaskHasNoRow | src/components/gantt/gantt-chart.tsx:379-395 | A template task has no stored row, so adding a sub-task to it is refused |
| GanttActions.UpdateSubTaskName | src/components/gantt/gantt-chart.tsx:416-433 | A blank name does nothing. Otherwise the trimmed name is written, and the editor closes exactly when the store call succeeds; on failure the rows stay and the error is recorded |
| GanttActions.FindTask | src/components/gantt/gantt-chart.tsx:192 | The first task with the id, or none when no task has it |
| AppPage.ProjectManagementApp.constructor | src/app/page.tsx:434-445 | The page starts with empty lists, no selection, dialogs closed and empty forms |
| AppPage.ProjectManagementApp.HandleAddPerson | src/app/page.tsx:454-469 | With both names non-empty (untrimmed), a blue person with id `now` is appended and the form is reset. Otherwise nothing changes |
| AppPage.AddPersonAppends | src/app/page.tsx:454-469 | The new list is the old one plus a person with the id, the names and the fixed blue fields |
| AppPage.PageColorMatchesStore | src/app/page.tsx:461 | The page's fixed colour string is the one the store derives from bg-blue-600 |
| AppPage.ProjectManagementApp.OpenEditPerson | src/app/page.tsx:514-518 | The edit dialog opens on the person, with their names in the form |
| AppPage.ProjectManagementApp.HandleEditPerson | src/app/page.tsx:471-484 | With an edited person and both names filled in, only that id's names change, and the dialog closes. Otherwise nothing changes |
| AppPage.RenamedOnlyNames | src/app/page.tsx:473-479 | Renaming keeps ids and colours and changes the names of exactly the matching id |
| AppPage.RenameAbsent | src/app/page.tsx:473-479 | Renaming an absent id changes nothing |
| AppPage.RenameTwice | src/app/page.tsx:473-479 | Saving the same edit twice is saving it once |
| AppPage.ProjectManagementApp.HandleAddProject | src/app/page.tsx:486-496 | With a name, a project with id `now` and no open date is appended. Otherwise nothing changes |
| AppPage.ProjectManagementApp.OpenDeleteProject | src/app/page.tsx:520-523 | It asks for confirmation before deleting the project |
| AppPage.ProjectManagementApp.HandleDeleteProject | src/app/page.tsx:498-504 | With a project to delete, every project with its id is removed. Otherwise nothing changes |
| AppPage.DeleteProjectRemovesId | src/app/page.tsx:500 | No project with the id remains, and every other one does |
| AppPage.DeleteAbsentProject | src/app/page.tsx:500 | Deleting an absent id changes nothing |
| AppPage.ProjectManagementApp.HandleUpdateProject | src/app/page.tsx:506-512 | The project is replaced by id and selected. A refetch happens exactly when it has an open date |
| AppPage.ReplacedSpec | src/app/page.tsx:507 | The list keeps its length and ids. Matching entries become the update, and others stay |
| AppPage.ReplaceAbsent | src/app/page.tsx:507 | Updating an absent project changes nothing |
| AppPage.ProjectDetailView.constructor | src/app/page.tsx:233-237 | The view opens on the category menu, with settings closed |
| AppPage.ProjectDetailView.HandleUpdateOpenDate | src/app/page.tsx:241-250 | An empty input does nothing. Otherwise the project with the new open date goes through the page's update, which refetches, and settings close; every other page field is unchanged |
| AppPage.ScreenFor | src/app/page.tsx:253 | A chart is shown exactly when a non-empty category is selected |
| AppPage.DispatchSpec | src/app/page.tsx:239-277 | The seven categories go to seven different charts, each to its own. Any other string falls back to the その他 chart |

## Left out

- Network and database clients are not modelled. This covers the Supabase
  client, the realtime channel subscriptions, Google authentication, the
  `sheets.values.get` call and the two diagnostic routes. The store is an
  in-memory table; a failing call is the `fault` parameter.
- JavaScript `Date` objects, time zones, ISO strings and `updated_at`
  stamps are not modelled. Dates are day numbers in a proleptic Gregorian
  calendar.
- The parsing of the date field in `handleUpdateOpenDate` is not modelled.
  The day is a parameter, so an invalid date cannot arise. The ISO
  formatting of the field's initial text is not modelled either; it is a
  constructor parameter.
- `Date.now()` ids: the current time is the parameter `now`.
- The page's refetch after an update is counted in `refetches`, not
  performed.
- `Math.round` of a float: progress is exact half-up rounding. The bar
  position is exact real division, with no float rounding.
- Async interleaving is not modelled: refetches racing with realtime
  events, and the concurrent `Promise.all` refresh. Each handler runs to
  completion.
- GanttActions.ToggleSubTaskCompletion: on a `sheet-` task, only the
  fault-free run of the call sequence is modelled. A failure part-way
  through the promotion is left out.
- GanttActions.AssignPersonToTask: on a `sheet-` task, only the fault-free
  run of the call sequence is modelled.
- JsText.ParseInt: the parsed number is an exact unbounded integer.
  JavaScript's `parseInt` returns a double, which rounds beyond 2^53.
- JsText.NatToString: never switches to exponent form, which `String(n)`
  does from 1e21.
- SheetRoute.Period and SheetRoute.FromOpen: any size is accepted and the
  day arithmetic is exact, where a huge offset gives an Invalid Date.
- GanttActions.PromotedShown: states the fetched sub-tasks as one sequence.
  Their per-index meaning is in GanttActions.PromotedSubTasks.
- The chart's `deleteSubTask` has no row of its own: it only forwards to
  the hook's `deleteSubTask`, which is modelled (TaskStore.RealtimeTasks.DeleteSubTask).
- TaskStore.FetchedTask: a task's sub-task rows are taken in creation order
  and then stably sorted by order index. The embedded `subtasks (*)` select
  fixes no order, so sub-tasks with equal order indices may come back in
  any order, which the model does not capture.
- TaskStore.RealtimeTasks.DeleteTask: assumes the database removes the
  sub-tasks of a deleted task by a foreign-key cascade.
- The five category wrappers (communication, marketing, network,
  recruitment, others) are not modelled: each only binds a category name
  to the live-task hook.
- JSX, styling, dialogs, context menus, scroll synchronisation and timers.
- The text of errors that are not `Error` objects: any non-Error thrown
  value gives the fallback message.

## Findings

| source | as written | input that shows it | evidently intended | confidence | as-written member | corrected member |
|---|---|---|---|---|---|---|
| src/components/gantt/gantt-chart.tsx:244-252 | `removePersonFromTask` calls `updateTask` with `assignedPerson: undefined`. `updateTask` (src/hooks/use-realtime-tasks.ts:106-108) writes the assignee only when it is not undefined, so the store is left unchanged | a call of `removePersonFromTask(taskId)` on a stored task with an assignee; the function is defined but the chart's markup never calls it, so the defect is latent | the assignee is cleared (`assigned_person_id` set to null) | not executed | GanttActions.RemovePersonFromTask, GanttActions.RemovedPersonStays | GanttActions.ClearPersonFromTask, GanttActions.ClearedPersonGone |

=== FILE: app_page.dfy ===
/**
 * The top-level page: the lists of people and projects it keeps in its own
 * component state, the handlers of its add, edit and delete dialogs, and the
 * project detail view that sets a project's open date and picks the chart of
 * a category.
 *
 * `Date.now()` ids are a caller-supplied `now`; the sheet tasks' `refetch` is
 * counted, not performed.
 */
module AppPage {
  import opened JsText
  import opened Domain
  import opened Lists
  import People
  import Projects

  /** The name fields of the add/edit person dialog. */
  datatype NameForm = NameForm(firstName: string, lastName: string)

  const EmptyNameForm: NameForm := NameForm("", "")

  /** The legacy combined colour classes every person added on the page gets. */
  const PageColor: string := "bg-blue-100" + " border-blue-200" + " text-blue-800"

  /** The person `handleAddPerson` creates from the dialog's fields. */
  function NewPerson(id: string, form: NameForm): Person {
    Person(id, form.firstName, form.lastName, PageColor, People.DefaultBgColor, People.DefaultTextColor)
  }

  /** The project `handleAddProject` creates: a name and no open date. */
  function NewProject(id: string, name: string): Project {
    Project(id, name, None)
  }

  /** `people.map(person => person.id === id ? { ...person, firstName, lastName } : person)`. */
  function Renamed(people: seq<Person>, id: string, form: NameForm): (r: seq<Person>)
    ensures |r| == |people|
  {
    seq(|people|, i requires 0 <= i < |people| =>
      if people[i].id == id then people[i].(firstName := form.firstName, lastName := form.lastName) else people[i])
  }

  // ---------------------------------------------------------------------------
  // The page's own state

  class ProjectManagementApp {
    var projects: seq<Project>
    var selectedProject: Option<Project>
    var people: seq<Person>
    var isAddPersonOpen: bool
    var isEditPersonOpen: bool
    var isAddProjectOpen: bool
    var isDeleteProjectOpen: bool
    var projectToDelete: Option<Project>
    var editingPerson: Option<Person>
    var newPersonForm: NameForm
    var newProjectName: string
    /** How often the sheet tasks were asked to refetch. */
    var refetches: nat

    /** The initial state: empty lists, no selection, every dialog closed, empty forms. */
    constructor ()
      ensures projects == [] && selectedProject == None && people == []
      ensures !isAddPersonOpen && !isEditPersonOpen && !isAddProjectOpen && !isDeleteProjectOpen
      ensures projectToDelete == None && editingPerson == None
      ensures newPersonForm == EmptyNameForm && newProjectName == "" && refetches == 0
    {
      projects := [];
      selectedProject := None;
      people := [];
      isAddPersonOpen := false;
      isEditPersonOpen := false;
      isAddProjectOpen := false;
      isDeleteProjectOpen := false;
      projectToDelete := None;
      editingPerson := None;
      newPersonForm := EmptyNameForm;
      newProjectName := "";
      refetches := 0;
    }

    /**
     * With both names filled in (not trimmed), appends a blue person with id
     * `now`, clears the form and closes the dialog; otherwise does nothing.
     */
    method HandleAddPerson(now: nat)
      modifies this
      ensures var filled := old(newPersonForm.firstName) != "" && old(newPersonForm.lastName) != "";
              if filled then
                people == old(people) + [NewPerson(NatToString(now), old(newPersonForm))] &&
                newPersonForm == EmptyNameForm && !isAddPersonOpen
              else
                people == old(people) && newPersonForm == old(newPersonForm) && isAddPersonOpen == old(isAddPersonOpen)
      ensures projects == old(projects) && selectedProject == old(selectedProject)
      ensures isEditPersonOpen == old(isEditPersonOpen) && editingPerson == old(editingPerson)
      ensures isAddProjectOpen == old(isAddProjectOpen) && isDeleteProjectOpen == old(isDeleteProjectOpen)
      ensures projectToDelete == old(projectToDelete) && newProjectName == old(newProjectName)
      ensures refetches == old(refetches)
    {
      if newPersonForm.firstName != "" && newPersonForm.lastName != "" {
        var newPerson := NewPerson(NatToString(now), newPersonForm);
        people := people + [newPerson];
        newPersonForm := EmptyNameForm;
        isAddPersonOpen := false;
      }
    }

    /** Opens the edit dialog for `person`, with its names in the form. */
    method OpenEditPerson(person: Person)
      modifies this
      ensures editingPerson == Some(person) && newPersonForm == NameForm(person.firstName, person.lastName)
      ensures isEditPersonOpen
      ensures people == old(people) && projects == old(projects) && selectedProject == old(selectedProject)
      ensures isAddPersonOpen == old(isAddPersonOpen) && isAddProjectOpen == old(isAddProjectOpen)
      ensures isDeleteProjectOpen == old(isDeleteProjectOpen) && projectToDelete == old(projectToDelete)
      ensures newProjectName == old(newProjectName) && refetches == old(refetches)
    {
      editingPerson := Some(person);
      newPersonForm := NameForm(person.firstName, person.lastName);
      isEditPersonOpen := true;
    }

    /**
     * With a person being edited and both names filled in, renames every
     * person with that id, clears the form and the selection and closes the
     * dialog; otherwise does nothing.
     */
    method HandleEditPerson()
      modifies this
      ensures var go := old(editingPerson).Some? && old(newPersonForm.firstName) != "" && old(newPersonForm.lastName) != "";
              if go then
                people == Renamed(old(people), old(editingPerson).value.id, old(newPersonForm)) &&
                newPersonForm == EmptyNameForm && editingPerson == None && !isEditPersonOpen
              else
                people == old(people) && newPersonForm == old(newPersonForm) &&
                editingPerson == old(editingPerson) && isEditPersonOpen == old(isEditPersonOpen)
      ensures projects == old(projects) && selectedProject == old(selectedProject)
      ensures isAddPersonOpen == old(isAddPersonOpen) && isAddProjectOpen == old(isAddProjectOpen)
      ensures isDeleteProjectOpen == old(isDeleteProjectOpen) && projectToDelete == old(projectToDelete)
      ensures newProjectName == old(newProjectName) && refetches == old(refetches)
    {
      if editingPerson.Some? && newPersonForm.firstName != "" && newPersonForm.lastName != "" {
        people := Renamed(people, editingPerson.value.id, newPersonForm);
        newPersonForm := EmptyNameForm;
        editingPerson := None;
        isEditPersonOpen := false;
      }
    }

    /** With a name filled in, appends a project with id `now` and no open date; otherwise does nothing. */
    method HandleAddProject(now: nat)
      modifies this
      ensures if old(newProjectName) != "" then
                projects == old(projects) + [NewProject(NatToString(now), old(newProjectName))] &&
                newProjectName == "" && !isAddProjectOpen
              else
                projects == old(projects) && newProjectName == old(newProjectName) && isAddProjectOpen == old(isAddProjectOpen)
      ensures people == old(people) && selectedProject == old(selectedProject)
      ensures isAddPersonOpen == old(isAddPersonOpen) && isEditPersonOpen == old(isEditPersonOpen)
      ensures isDeleteProjectOpen == old(isDeleteProjectOpen) && projectToDelete == old(projectToDelete)
      ensures editingPerson == old(editingPerson) && newPersonForm == old(newPersonForm)
      ensures refetches == old(refetches)
    {
      if newProjectName != "" {
        var newProject := NewProject(NatToString(now), newProjectName);
        projects := projects + [newProject];
        newProjectName := "";
        isAddProjectOpen := false;
      }
    }

    /** Asks for confirmation before deleting `project`. */
    method OpenDeleteProject(project: Project)
      modifies this
      ensures projectToDelete == Some(project) && isDeleteProjectOpen
      ensures projects == old(projects) && selectedProject == old(selectedProject) && people == old(people)
      ensures isAddPersonOpen == old(isAddPersonOpen) && isEditPersonOpen == old(isEditPersonOpen)
      ensures isAddProjectOpen == old(isAddProjectOpen) && editingPerson == old(editingPerson)
      ensures newPersonForm == old(newPersonForm) && newProjectName == old(newProjectName)
      ensures refetches == old(refetches)
    {
      projectToDelete := Some(project);
      isDeleteProjectOpen := true;
    }

    /**
     * With a project awaiting deletion, removes every project with its id,
     * forgets it and closes the dialog; otherwise does nothing.
     */
    method HandleDeleteProject()
      modifies this
      ensures if old(projectToDelete).Some? then
                projects == Filter(old(projects), Projects.NotProject(old(projectToDelete).value.id)) &&
                projectToDelete == None && !isDeleteProjectOpen
              else
                projects == old(projects) && projectToDelete == old(projectToDelete) &&
                isDeleteProjectOpen == old(isDeleteProjectOpen)
      ensures people == old(people) && selectedProject == old(selectedProject)
      ensures isAddPersonOpen == old(isAddPersonOpen) && isEditPersonOpen == old(isEditPersonOpen)
      ensures isAddProjectOpen == old(isAddProjectOpen) && editingPerson == old(editingPerson)
      ensures newPersonForm == old(newPersonForm) && newProjectName == old(newProjectName)
      ensures refetches == old(refetches)
    {
      if projectToDelete.Some? {
        projects := Filter(projects, Projects.NotProject(projectToDelete.value.id));
        projectToDelete := None;
        isDeleteProjectOpen := false;
      }
    }

    /**
     * Replaces every project with the updated one's id by it, selects the
     * updated project, and asks the sheet tasks to refetch exactly when it
     * has an open date.
     */
    method HandleUpdateProject(updated: Project)
      modifies this
      ensures projects == Projects.Replaced(old(projects), updated)
      ensures selectedProject == Some(updated)
      ensures refetches == old(refetches) + (if updated.openDate.Some? then 1 else 0)
      ensures people == old(people)
      ensures isAddPersonOpen == old(isAddPersonOpen) && isEditPersonOpen == old(isEditPersonOpen)
      ensures isAddProjectOpen == old(isAddProjectOpen) && isDeleteProjectOpen == old(isDeleteProjectOpen)
      ensures projectToDelete == old(projectToDelete) && editingPerson == old(editingPerson)
      ensures newPersonForm == old(newPersonForm) && newProjectName == old(newProjectName)
    {
      projects := Projects.Replaced(projects, updated);
      selectedProject := Some(updated);
      if updated.openDate.Some? {
        refetches := refetches + 1;
      }
    }
  }

  // ---------------------------------------------------------------------------
  // What the list handlers promise

  /**
   * Adding a person keeps everyone there was and adds one person at the end,
   * with the dialog's names and the blue colours.
   */
  lemma AddPersonAppends(people: seq<Person>, id: string, form: NameForm)
    ensures var r := people + [NewPerson(id, form)];
            |r| == |people| + 1 && r[..|people|] == people &&
            r[|people|].id == id && r[|people|].firstName == form.firstName && r[|people|].lastName == form.lastName &&
            r[|people|].bgColor == "bg-blue-600" && r[|people|].textColor == "text-blue-700"
  {
    var r := people + [NewPerson(id, form)];
    assert r[..|people|] == people;
  }

  /**
   * The combined colour classes the page writes are the ones the people
   * store derives from the same background colour, so a person added on the
   * page looks as it would after a fetch.
   */
  lemma PageColorMatchesStore()
    ensures People.ColorOf(People.DefaultBgColor) == PageColor
  {
    People.AddedPersonColor(People.PersonRow(0, "", "", People.DefaultBgColor, People.DefaultTextColor));
  }

  /**
   * Editing changes only names: every person keeps their id, colours and
   * place; each person with the edited id gets the form's names, and every
   * other person is left exactly as they were.
   */
  lemma RenamedOnlyNames(people: seq<Person>, id: string, form: NameForm)
    ensures var r := Renamed(people, id, form);
            |r| == |people| &&
            forall i :: 0 <= i < |people| ==>
              r[i].id == people[i].id && r[i].color == people[i].color &&
              r[i].bgColor == people[i].bgColor && r[i].textColor == people[i].textColor &&
              (people[i].id == id ==> r[i].firstName == form.firstName && r[i].lastName == form.lastName) &&
              (people[i].id != id ==> r[i] == people[i])
  {
  }

  /** Editing someone who is not in the list changes nothing. */
  lemma RenameAbsent(people: seq<Person>, id: string, form: NameForm)
    requires forall i :: 0 <= i < |people| ==> people[i].id != id
    ensures Renamed(people, id, form) == people
  {
  }

  /** Saving the same edit twice is the same as saving it once. */
  lemma RenameTwice(people: seq<Person>, id: string, form: NameForm)
    ensures Renamed(Renamed(people, id, form), id, form) == Renamed(people, id, form)
  {
  }

  /**
   * Deleting a project removes every project with its id and keeps every
   * other project, in order.
   */
  lemma DeleteProjectRemovesId(projects: seq<Project>, id: string)
    ensures var r := Filter(projects, Projects.NotProject(id));
            |r| <= |projects| &&
            (forall p :: p in r ==> p.id != id) &&
            (forall p :: p in projects && p.id != id ==> p in r)
  {
    FilterSpec(projects, Projects.NotProject(id));
  }

  /** Deleting an id no project has leaves the list as it was. */
  lemma DeleteAbsentProject(projects: seq<Project>, id: string)
    requires forall i :: 0 <= i < |projects| ==> projects[i].id != id
    ensures Filter(projects, Projects.NotProject(id)) == projects
  {
    FilterAll(projects, Projects.NotProject(id));
  }

  /**
   * Updating a project puts the updated project in place of every project
   * with its id and leaves every other project where and as it was.
   */
  lemma ReplacedSpec(projects: seq<Project>, updated: Project)
    ensures var r := Projects.Replaced(projects, updated);
            |r| == |projects| &&
            (forall i :: 0 <= i < |projects| ==> r[i].id == projects[i].id) &&
            (forall i :: 0 <= i < |projects| && projects[i].id == updated.id ==> r[i] == updated) &&
            (forall i :: 0 <= i < |projects| && projects[i].id != updated.id ==> r[i] == projects[i])
  {
  }

  /** Updating a project no one has changes nothing in the list. */
  lemma ReplaceAbsent(projects: seq<Project>, updated: Project)
    requires forall i :: 0 <= i < |projects| ==> projects[i].id != updated.id
    ensures Projects.Replaced(projects, updated) == projects
  {
  }

  // ---------------------------------------------------------------------------
  // The project detail view

  /** The chart components a category can open. */
  datatype Chart =
    | CommunicationChart | PromotionChart | NetworkChart | MarketingChart
    | RecruitmentChart | TrainingChart | OthersChart

  /** The `switch` on the selected category; an unknown name opens the "other" chart. */
  function ChartFor(category: string): Chart {
    if category == Communication then CommunicationChart
    else if category == Promotion then PromotionChart
    else if category == Network then NetworkChart
    else if category == Marketing then MarketingChart
    else if category == Recruitment then RecruitmentChart
    else if category == Training then TrainingChart
    else OthersChart
  }

  /** What the detail view shows: the category menu, or the chart of the selected category. */
  datatype Screen = CategoryMenu | ChartScreen(chart: Chart)

  /** `if (selectedCategory)`: a selected, non-empty category shows its chart. */
  function ScreenFor(selectedCategory: Option<string>): (s: Screen)
    ensures s.ChartScreen? <==> selectedCategory.Some? && selectedCategory.value != ""
  {
    if selectedCategory.Some? && selectedCategory.value != "" then ChartScreen(ChartFor(selectedCategory.value))
    else CategoryMenu
  }

  /**
   * The seven listed categories open seven different charts, the i-th the
   * i-th in the list's order, and every name outside the list opens the
   * "other" chart, as the last listed category does.
   */
  lemma DispatchSpec(category: string)
    ensures |Categories| == 7
    ensures forall i, j :: 0 <= i < j < |Categories| ==> ChartFor(Categories[i]) != ChartFor(Categories[j])
    ensures ChartFor(Categories[0]) == CommunicationChart && ChartFor(Categories[1]) == PromotionChart
    ensures ChartFor(Categories[2]) == NetworkChart && ChartFor(Categories[3]) == MarketingChart
    ensures ChartFor(Categories[4]) == RecruitmentChart && ChartFor(Categories[5]) == TrainingChart
    ensures ChartFor(Categories[6]) == OthersChart
    ensures category !in Categories ==> ChartFor(category) == OthersChart
    ensures ChartFor(category) == OthersChart <==> category == Others || category !in Categories
  {
    CategoriesDistinct();
  }

  class ProjectDetailView {
    var selectedCategory: Option<string>
    var isSettingsOpen: bool
    /** The date field of the settings dialog, as typed. */
    var openDateInput: string

    /** The view opens on the category menu, settings closed, with the given date field. */
    constructor (initialInput: string)
      ensures selectedCategory == None && !isSettingsOpen && openDateInput == initialInput
    {
      selectedCategory := None;
      isSettingsOpen := false;
      openDateInput := initialInput;
    }

    /**
     * With the date field filled in, hands the page the shown project with
     * the open date `day` (the day the field names), which selects it,
     * replaces it in the list and always asks for a refetch, then closes the
     * settings dialog. With the field empty nothing happens.
     */
    method HandleUpdateOpenDate(app: ProjectManagementApp, day: int)
      requires app.selectedProject.Some?
      modifies this, app
      ensures selectedCategory == old(selectedCategory) && openDateInput == old(openDateInput)
      ensures var updated := old(app.selectedProject).value.(openDate := Some(day));
              if old(openDateInput) != "" then
                app.projects == Projects.Replaced(old(app.projects), updated) &&
                app.selectedProject == Some(updated) &&
                app.refetches == old(app.refetches) + 1 &&
                !isSettingsOpen
              else
                app.projects == old(app.projects) && app.selectedProject == old(app.selectedProject) &&
                app.refetches == old(app.refetches) && isSettingsOpen == old(isSettingsOpen)
      ensures app.people == old(app.people)
      ensures app.isAddPersonOpen == old(app.isAddPersonOpen) && app.isEditPersonOpen == old(app.isEditPersonOpen)
      ensures app.isAddProjectOpen == old(app.isAddProjectOpen) && app.isDeleteProjectOpen == old(app.isDeleteProjectOpen)
      ensures app.projectToDelete == old(app.projectToDelete) && app.editingPerson == old(app.editingPerson)
      ensures app.newPersonForm == old(app.newPersonForm) && app.newProjectName == old(app.newProjectName)
    {
      if openDateInput != "" {
        var updatedProject := app.selectedProject.value.(openDate := Some(day));
        app.HandleUpdateProject(updatedProject);
        isSettingsOpen := false;
      }
    }
  }
}

=== FILE: calendar.dfy ===
/**
 * The proleptic Gregorian calendar over whole day numbers (day 0 is
 * Thursday 1 January 1970), and the parts of the JavaScript `Date` object the
 * chart relies on: reading the year, month and day of a date, `MakeDay`
 * (section 21.4.1.28 of ECMA-262), which is what `setMonth`/`setDate` use and
 * which lets months and days overflow into the next ones, and `getDay`.
 *
 * Months are numbered absolutely (`12 * year + month - 1`); the first day of
 * each month is found by walking month by month from January 1970, and the
 * usual closed formula is proved equal to that walk.
 */
module Calendar {

  datatype Date = Date(year: int, month: int, day: int)

  predicate IsLeapYear(y: int) {
    y % 4 == 0 && (y % 100 != 0 || y % 400 == 0)
  }

  function DaysInYear(y: int): int {
    if IsLeapYear(y) then 366 else 365
  }

  function DaysInMonth(y: int, m: int): (n: int)
    requires 1 <= m <= 12
    ensures 28 <= n <= 31
  {
    if m == 2 then (if IsLeapYear(y) then 29 else 28)
    else if m == 4 || m == 6 || m == 9 || m == 11 then 30
    else 31
  }

  predicate ValidDate(d: Date) {
    1 <= d.month <= 12 && 1 <= d.day <= DaysInMonth(d.year, d.month)
  }

  // ---------------------------------------------------------------------------
  // Absolute month indices

  /** Months counted from January of year 0: `12 * year + month - 1`. */
  function MonthIndex(d: Date): int {
    12 * d.year + d.month - 1
  }

  /** The first day of month `k`, as a date. */
  function MonthOfIndex(k: int): (d: Date)
    ensures ValidDate(d) && d.day == 1 && MonthIndex(d) == k
  {
    Date(k / 12, k % 12 + 1, 1)
  }

  function DaysInMonthIndex(k: int): (n: int)
    ensures 28 <= n <= 31
  {
    DaysInMonth(k / 12, k % 12 + 1)
  }

  const EpochMonth: int := 12 * 1970

  /** The day number of the first day of month `k`. */
  function MonthStart(k: int): int
    decreases if k >= EpochMonth then k - EpochMonth else EpochMonth - k
  {
    if k == EpochMonth then 0
    else if k > EpochMonth then MonthStart(k - 1) + DaysInMonthIndex(k - 1)
    else MonthStart(k + 1) - DaysInMonthIndex(k)
  }

  lemma MonthStartStep(k: int)
    ensures MonthStart(k + 1) == MonthStart(k) + DaysInMonthIndex(k)
  {
  }

  lemma {:induction false} MonthStartMonotone(i: int, j: int)
    requires i < j
    ensures MonthStart(i) + DaysInMonthIndex(i) <= MonthStart(j)
    decreases j - i
  {
    MonthStartStep(i);
    if i + 1 < j {
      MonthStartMonotone(i + 1, j);
    }
  }

  /** The day number of a calendar date. */
  function DaysFromCivil(d: Date): int
    requires 1 <= d.month <= 12
  {
    MonthStart(MonthIndex(d)) + d.day - 1
  }

  lemma MonthIndexOfDate(d: Date)
    requires 1 <= d.month <= 12
    ensures MonthIndex(d) / 12 == d.year && MonthIndex(d) % 12 + 1 == d.month
    ensures DaysInMonthIndex(MonthIndex(d)) == DaysInMonth(d.year, d.month)
  {
  }

  /** The month containing day `n`, searching from month `k`. */
  function FindMonth(n: int, k: int): (r: int)
    ensures MonthStart(r) <= n < MonthStart(r) + DaysInMonthIndex(r)
    decreases if n >= MonthStart(k) then 0 else 1,
              if n >= MonthStart(k) then n - MonthStart(k) else MonthStart(k) - n
  {
    MonthStartStep(k);
    MonthStartStep(k - 1);
    if n < MonthStart(k) then FindMonth(n, k - 1)
    else if n >= MonthStart(k + 1) then FindMonth(n, k + 1)
    else k
  }

  /** The calendar date of day `n` (`getFullYear`, `getMonth() + 1`, `getDate()`). */
  function CivilFromDays(n: int): (d: Date)
    ensures ValidDate(d)
    ensures DaysFromCivil(d) == n
  {
    var k := FindMonth(n, EpochMonth);
    var d := Date(k / 12, k % 12 + 1, n - MonthStart(k) + 1);
    assert MonthIndex(d) == k;
    d
  }

  /** Two valid dates with the same day number are the same date. */
  lemma DaysFromCivilInjective(a: Date, b: Date)
    requires ValidDate(a) && ValidDate(b)
    requires DaysFromCivil(a) == DaysFromCivil(b)
    ensures a == b
  {
    var i, j := MonthIndex(a), MonthIndex(b);
    MonthIndexOfDate(a);
    MonthIndexOfDate(b);
    if i < j {
      MonthStartMonotone(i, j);
    } else if j < i {
      MonthStartMonotone(j, i);
    }
  }

  /** Reading back the date of a valid date's day number gives that date. */
  lemma CivilRoundTrip(d: Date)
    requires ValidDate(d)
    ensures CivilFromDays(DaysFromCivil(d)) == d
  {
    DaysFromCivilInjective(CivilFromDays(DaysFromCivil(d)), d);
  }

  /** A day `r` days into month `k` (within its length) is day `r + 1` of that month. */
  lemma DayInMonth(k: int, r: int)
    requires 0 <= r < DaysInMonthIndex(k)
    ensures CivilFromDays(MonthStart(k) + r) == Date(k / 12, k % 12 + 1, r + 1)
  {
    var d := Date(k / 12, k % 12 + 1, r + 1);
    assert MonthIndex(d) == k;
    CivilRoundTrip(d);
  }

  /**
   * `MakeDay(year, month, date)` of ECMA-262 with a 0-based `month` and a
   * `date` that may each run past the end of the year or month.
   */
  function MakeDay(year: int, month0: int, date: int): int {
    MonthStart(12 * year + month0) + date - 1
  }

  /** On an in-range month and day MakeDay is the ordinary day number. */
  lemma MakeDayOfValid(d: Date)
    requires ValidDate(d)
    ensures MakeDay(d.year, d.month - 1, d.day) == DaysFromCivil(d)
  {
  }

  // ---------------------------------------------------------------------------
  // The closed formula

  /** Number of leap years among 1..y (for y >= 0), extended to all integers by floor division. */
  function LeapsThrough(y: int): int {
    y / 4 - y / 100 + y / 400
  }

  /** Day number of 1 January of year `y`. */
  function YearStart(y: int): int {
    365 * (y - 1970) + LeapsThrough(y - 1) - LeapsThrough(1969)
  }

  /** Days of year `y` before the first of month `m`. */
  function DaysBeforeMonth(y: int, m: int): int
    requires 1 <= m <= 12
  {
    (if m == 1 then 0 else if m == 2 then 31 else if m == 3 then 59
     else if m == 4 then 90 else if m == 5 then 120 else if m == 6 then 151
     else if m == 7 then 181 else if m == 8 then 212 else if m == 9 then 243
     else if m == 10 then 273 else if m == 11 then 304 else 334)
    + (if m > 2 && IsLeapYear(y) then 1 else 0)
  }

  function ClosedMonthStart(k: int): int {
    YearStart(k / 12) + DaysBeforeMonth(k / 12, k % 12 + 1)
  }

  lemma YearStep(y: int)
    ensures YearStart(y + 1) == YearStart(y) + DaysInYear(y)
  {
    LeapStep(y);
  }

  /** `LeapsThrough` counts `y` itself exactly when `y` is a leap year. */
  lemma LeapStep(y: int)
    ensures LeapsThrough(y) - LeapsThrough(y - 1) == if IsLeapYear(y) then 1 else 0
  {
    FloorStep4(y);
    FloorStep100(y);
    FloorStep400(y);
    DivisorChain(y);
  }

  lemma DivisorChain(y: int)
    ensures y % 400 == 0 ==> y % 100 == 0
    ensures y % 100 == 0 ==> y % 4 == 0
  {
    if y % 400 == 0 { MultipleOf100(y, 4 * (y / 400)); }
    if y % 100 == 0 { MultipleOf4(y, 25 * (y / 100)); }
  }

  lemma MultipleOf100(y: int, t: int)
    requires y == 100 * t
    ensures y % 100 == 0
  {
  }

  lemma MultipleOf4(y: int, t: int)
    requires y == 4 * t
    ensures y % 4 == 0
  {
  }

  lemma FloorStep4(y: int)
    ensures y / 4 - (y - 1) / 4 == if y % 4 == 0 then 1 else 0
  {
  }

  lemma FloorStep100(y: int)
    ensures y / 100 - (y - 1) / 100 == if y % 100 == 0 then 1 else 0
  {
  }

  lemma FloorStep400(y: int)
    ensures y / 400 - (y - 1) / 400 == if y % 400 == 0 then 1 else 0
  {
  }

  lemma ClosedStep(k: int)
    ensures ClosedMonthStart(k + 1) == ClosedMonthStart(k) + DaysInMonthIndex(k)
  {
    var y, m := k / 12, k % 12 + 1;
    if m == 12 {
      assert (k + 1) / 12 == y + 1 && (k + 1) % 12 == 0;
      YearStep(y);
    } else {
      assert (k + 1) / 12 == y && (k + 1) % 12 + 1 == m + 1;
    }
  }

  lemma ClosedBase()
    ensures MonthStart(EpochMonth) == ClosedMonthStart(EpochMonth)
  {
    assert EpochMonth / 12 == 1970 && EpochMonth % 12 == 0;
  }

  /** The walk and the formula advance by the same number of days from month `k` to `k + 1`. */
  lemma ClosedAgreeStep(k: int)
    ensures MonthStart(k) == ClosedMonthStart(k) <==> MonthStart(k + 1) == ClosedMonthStart(k + 1)
  {
    ClosedStep(k);
    MonthStartStep(k);
  }

  lemma {:induction false} ClosedFormUp(k: int)
    requires k >= EpochMonth
    ensures MonthStart(k) == ClosedMonthStart(k)
    decreases k - EpochMonth
  {
    if k == EpochMonth {
      ClosedBase();
    } else {
      ClosedFormUp(k - 1);
      ClosedAgreeStep(k - 1);
    }
  }

  lemma {:induction false} ClosedFormDown(k: int)
    requires k <= EpochMonth
    ensures MonthStart(k) == ClosedMonthStart(k)
    decreases EpochMonth - k
  {
    if k == EpochMonth {
      ClosedBase();
    } else {
      ClosedFormDown(k + 1);
      ClosedAgreeStep(k);
    }
  }

  /** The month-by-month walk agrees with `365 (y - 1970) + leap days + days before the month`. */
  lemma MonthStartClosedForm(k: int)
    ensures MonthStart(k) == ClosedMonthStart(k)
  {
    if k >= EpochMonth { ClosedFormUp(k); } else { ClosedFormDown(k); }
  }

  // ---------------------------------------------------------------------------
  // Weekdays

  /** `getDay()`: 0 is Sunday, 6 is Saturday. */
  function DayOfWeek(n: int): (w: int)
    ensures 0 <= w < 7
  {
    (n + 4) % 7
  }
}

=== FILE: domain.dfy ===
/**
 * The records the application passes around (people, projects, tasks and
 * their sub-tasks), the fixed category taxonomy, and the progress derivation
 * `Math.round(completed / total * 100)` shared by every place that computes it.
 *
 * Dates are whole day numbers (day 0 is 1 January 1970).
 */
module Domain {
  import opened JsText

  datatype Person = Person(
    id: string, firstName: string, lastName: string,
    color: string, bgColor: string, textColor: string)

  datatype Project = Project(id: string, name: string, openDate: Option<int>)

  datatype SubTask = SubTask(id: string, name: string, completed: bool)

  datatype Task = Task(
    id: string, name: string, startDate: int, endDate: int, progress: int,
    assignedPerson: Option<Person>, subTasks: seq<SubTask>, orderIndex: Option<int>)

  /** The seven category names, in the order the project page lists them. */
  const Categories: seq<string> :=
    ["連絡系", "販促物備品系", "通信系", "プロモーション系", "求人系", "研修系", "その他"]

  const Communication: string := "連絡系"
  const Promotion: string := "販促物備品系"
  const Network: string := "通信系"
  const Marketing: string := "プロモーション系"
  const Recruitment: string := "求人系"
  const Training: string := "研修系"
  const Others: string := "その他"

  lemma CategoriesDistinct()
    ensures |Categories| == 7
    ensures forall i, j :: 0 <= i < j < |Categories| ==> Categories[i] != Categories[j]
  {
  }

  /**
   * `Math.round(c / n * 100)` for `n > 0`, taken as exact rational arithmetic
   * rounded half up; 0 when there is nothing to count.
   */
  function Percent(c: nat, n: nat): nat {
    if n == 0 then 0 else (200 * c + n) / (2 * n)
  }

  function CompletedCount(subs: seq<SubTask>): (k: nat)
    ensures k <= |subs|
  {
    if subs == [] then 0
    else CompletedCount(subs[..|subs| - 1]) + (if subs[|subs| - 1].completed then 1 else 0)
  }

  /** The progress a task with these sub-tasks is given. */
  function SubTaskProgress(subs: seq<SubTask>): nat {
    Percent(CompletedCount(subs), |subs|)
  }

  /** The rounded percentage is the nearest integer to `100 c / n`, ties going up. */
  lemma PercentIsNearest(c: nat, n: nat)
    requires n > 0
    ensures 2 * n * Percent(c, n) <= 200 * c + n < 2 * n * (Percent(c, n) + 1)
  {
    var p := Percent(c, n);
    assert p == (200 * c + n) / (2 * n);
    assert 200 * c + n == (2 * n) * p + (200 * c + n) % (2 * n);
  }

  lemma LtMulCancel(d: nat, a: int, b: int)
    requires d > 0 && d * a < d * b
    ensures a < b
  {
  }

  /** With no more completed sub-tasks than sub-tasks, progress lies in 0..100 and is 100 when all are done. */
  lemma PercentBounds(c: nat, n: nat)
    requires c <= n
    ensures Percent(c, n) <= 100
    ensures n > 0 && c == n ==> Percent(c, n) == 100
    ensures c == 0 ==> Percent(c, n) == 0
  {
    if n > 0 {
      var p, d := Percent(c, n), 2 * n;
      PercentIsNearest(c, n);
      LtMulCancel(d, p, 101);
      if c == n { LtMulCancel(d, 99, p); }
      if c == 0 { LtMulCancel(d, p, 1); }
    }
  }

  /** Fewer than 200 sub-tasks: progress reaches 100 only when every one is completed. */
  lemma PercentFullOnlyWhenAllDone(c: nat, n: nat)
    requires c < n < 200
    ensures Percent(c, n) < 100
  {
    PercentIsNearest(c, n);
    LtMulCancel(2 * n, Percent(c, n), 100);
  }

  /** One more completed sub-task never lowers the progress. */
  lemma PercentMonotone(c: nat, n: nat)
    requires n > 0
    ensures Percent(c, n) <= Percent(c + 1, n)
  {
    PercentIsNearest(c, n);
    PercentIsNearest(c + 1, n);
    LtMulCancel(2 * n, Percent(c, n), Percent(c + 1, n) + 1);
  }

  /** Four sub-tasks with three completed give 75; completing the fourth gives 100. */
  lemma ThreeOfFour()
    ensures Percent(3, 4) == 75 && Percent(4, 4) == 100
  {
  }

  /** Index of the first person with this id, or `|people|` when there is none. */
  function PersonIndex(people: seq<Person>, id: string): (k: nat)
    ensures k <= |people|
    ensures forall j :: 0 <= j < k ==> people[j].id != id
    ensures k < |people| ==> people[k].id == id
  {
    if people == [] || people[0].id == id then 0
    else PersonIndex(people[1..], id) + 1
  }

  /** The people entry with the given id (`people.find(p => p.id === id)`); `None` when there is no id or no match. */
  function FindPerson(people: seq<Person>, id: Option<string>): (r: Option<Person>)
    ensures r.Some? <==> id.Some? && exists i :: 0 <= i < |people| && people[i].id == id.value
    ensures r.Some? ==> r.value in people && r.value.id == id.value
    ensures r.Some? ==> exists i :: (0 <= i < |people| && people[i] == r.value &&
              forall j :: 0 <= j < i ==> people[j].id != id.value)
  {
    if id.None? then None
    else
      var k := PersonIndex(people, id.value);
      if k < |people| then Some(people[k]) else None
  }
}

=== FILE: gantt_actions.dfy ===
/**
 * The chart's actions that drive the live-task store: the promotion of a
 * template task (id `sheet-…`) into a stored task when a person is assigned
 * to it or one of its sub-tasks is toggled, the toggle and the assignment on
 * stored tasks, and the form actions that forward one call to the store.
 *
 * The promotion, which chains a store call per sub-task, is followed on the
 * path where no call fails for outside reasons; the failures the store's
 * own state causes (a sub-task row that is gone) are followed. Every other
 * action takes a `Fault` for each store call it makes.
 */
module GanttActions {
  import opened JsText
  import opened Domain
  import opened Lists
  import opened OrderSort
  import opened StoreCalls
  import opened TaskStore
  import GanttView

  // ---------------------------------------------------------------------------
  // Looking things up in the chart's task list

  /** `tasks.find(t => t.id === id)`. */
  function FindTask(tasks: seq<Task>, id: string): (r: Option<Task>)
    ensures r.Some? ==> exists i :: 0 <= i < |tasks| && tasks[i] == r.value && r.value.id == id &&
                                   forall j :: 0 <= j < i ==> tasks[j].id != id
    ensures r.None? ==> forall i :: 0 <= i < |tasks| ==> tasks[i].id != id
  {
    var k := GanttView.TaskIndex(tasks, id);
    if k < |tasks| then Some(tasks[k]) else None
  }

  /** The position of the first sub-task with this id, or `|subs|` when there is none. */
  function SubTaskIndex(subs: seq<SubTask>, id: string): (k: nat)
    ensures k <= |subs|
    ensures forall j :: 0 <= j < k ==> subs[j].id != id
    ensures k < |subs| ==> subs[k].id == id
  {
    if subs == [] then 0
    else if subs[0].id == id then 0
    else SubTaskIndex(subs[1..], id) + 1
  }

  /** `subTasks.find(st => st.id === id)`. */
  function FindSubTask(subs: seq<SubTask>, id: string): (r: Option<SubTask>)
    ensures r.Some? ==> exists i :: 0 <= i < |subs| && subs[i] == r.value && r.value.id == id &&
                                   forall j :: 0 <= j < i ==> subs[j].id != id
    ensures r.None? ==> forall i :: 0 <= i < |subs| ==> subs[i].id != id
  {
    var k := SubTaskIndex(subs, id);
    if k < |subs| then Some(subs[k]) else None
  }

  /** `task.assignedPerson?.id`. */
  function AssigneeIdOf(t: Task): Option<string> {
    if t.assignedPerson.Some? then Some(t.assignedPerson.value.id) else None
  }

  // ---------------------------------------------------------------------------
  // Toggling a sub-task in the chart's copy

  /** `subTasks.map(st => st.id === id ? { ...st, completed: !st.completed } : st)`. */
  function Flip(subs: seq<SubTask>, id: string): (r: seq<SubTask>)
    ensures |r| == |subs|
  {
    seq(|subs|, i requires 0 <= i < |subs| =>
      if subs[i].id == id then subs[i].(completed := !subs[i].completed) else subs[i])
  }

  /** Toggling changes only the completion of the sub-tasks with that id; ids, names and order stay. */
  lemma FlipOnlyChosen(subs: seq<SubTask>, id: string, i: nat)
    requires i < |subs|
    ensures Flip(subs, id)[i].id == subs[i].id && Flip(subs, id)[i].name == subs[i].name
    ensures Flip(subs, id)[i].completed != subs[i].completed <==> subs[i].id == id
  {
  }

  /** Toggling the same sub-task twice changes nothing. */
  lemma FlipTwice(subs: seq<SubTask>, id: string)
    ensures Flip(Flip(subs, id), id) == subs
  {
  }

  /** With no sub-task of that id, toggling changes nothing. */
  lemma FlipAbsent(subs: seq<SubTask>, id: string)
    requires forall i :: 0 <= i < |subs| ==> subs[i].id != id
    ensures Flip(subs, id) == subs
  {
  }

  /**
   * With distinct ids, toggling sub-task `k` adds one completed sub-task
   * when it was open and removes one when it was completed.
   */
  lemma {:induction false} FlipCount(subs: seq<SubTask>, id: string, k: nat)
    requires forall i, j :: 0 <= i < j < |subs| ==> subs[i].id != subs[j].id
    requires k < |subs| && subs[k].id == id
    ensures CompletedCount(Flip(subs, id)) == if subs[k].completed then CompletedCount(subs) - 1
                                              else CompletedCount(subs) + 1
  {
    var init := subs[..|subs| - 1];
    assert Flip(subs, id)[..|subs| - 1] == Flip(init, id);
    if k == |subs| - 1 {
      FlipAbsent(init, id);
    } else {
      FlipCount(init, id, k);
    }
  }

  // ---------------------------------------------------------------------------
  // Promotion

  /**
   * The sub-task rows a promotion writes for the task with key `parent`: the
   * `i`-th takes key `first + i`, the `i`-th name and completion, and order
   * index `i`.
   */
  function PromotedRows(first: nat, parent: nat, subs: seq<SubTask>): (r: seq<SubTaskRow>)
    ensures |r| == |subs|
  {
    seq(|subs|, i requires 0 <= i < |subs| => SubTaskRow(first + i, parent, subs[i].name, subs[i].completed, i))
  }

  /**
   * The promotion of a template task: `addTask` with its name and dates,
   * then for each sub-task in order `addSubTask` and, for a completed one,
   * `updateSubTask` with `completed: true`, then `updateTask` with the
   * progress. Without a project `addTask` resolves to nothing and nothing
   * else happens.
   */
  method PromoteTemplateTask(store: RealtimeTasks, template: Task, subTasks: seq<SubTask>,
                             assignedPersonId: Option<string>, progress: int)
      returns (newTask: Outcome<TaskRow>)
    requires store.Valid()
    modifies store
    ensures store.Valid()
    ensures store.tasks == old(store.tasks) && store.loading == old(store.loading) && store.error == old(store.error)
    ensures store.projectId.None? ==>
              newTask.Skipped? && store.taskRows == old(store.taskRows) && store.subRows == old(store.subRows) &&
              store.nextKey == old(store.nextKey)
    ensures store.projectId.Some? ==>
              var k := old(store.nextKey);
              newTask.Done? &&
              newTask.value == TaskRow(k, store.projectId.value, template.name, template.startDate, template.endDate,
                                       0, OrNull(assignedPersonId), store.category, true) &&
              store.taskRows == old(store.taskRows) + [newTask.value.(progress := progress)] &&
              store.subRows == old(store.subRows) + PromotedRows(k + 1, k, subTasks) &&
              store.nextKey == k + 1 + |subTasks|
  {
    ghost var rows0, subs0, k := store.taskRows, store.subRows, store.nextKey;
    newTask := store.AddTask(template.name, template.startDate, template.endDate, assignedPersonId, NoFault);
    if newTask.Done? {
      var base := newTask.value;
      var shown := base;
      for i := 0 to |subTasks|
        invariant store.Valid()
        invariant store.tasks == old(store.tasks) && store.loading == old(store.loading)
        invariant store.error == old(store.error)
        invariant store.nextKey == k + 1 + i
        invariant shown == base.(progress := shown.progress)
        invariant store.taskRows == rows0 + [shown]
        invariant store.subRows == subs0 + PromotedRows(k + 1, k, subTasks[..i])
      {
        shown := MigrateSubTask(store, rows0, subs0, shown, subTasks, i);
      }
      SetProgressLast(rows0, shown, progress);
      var failure := store.UpdateTask(RowId(base.key), TaskUpdate(None, Some(progress), Absent), NoFault);
      assert subTasks[..|subTasks|] == subTasks;
    }
  }

  /**
   * One turn of the promotion loop: `addSubTask` for sub-task `i` under the
   * new task (row `shown`), then, when it is completed, `updateSubTask`
   * with `completed: true`, whose recomputation touches the new task's
   * progress only.
   */
  method MigrateSubTask(store: RealtimeTasks, ghost rows0: seq<TaskRow>, ghost subs0: seq<SubTaskRow>,
                        shown: TaskRow, subTasks: seq<SubTask>, i: nat) returns (shown': TaskRow)
    requires i < |subTasks|
    requires Tables(rows0, subs0, shown.key)
    requires store.Valid() && store.nextKey == shown.key + 1 + i
    requires store.taskRows == rows0 + [shown]
    requires store.subRows == subs0 + PromotedRows(shown.key + 1, shown.key, subTasks[..i])
    modifies store
    ensures store.Valid() && store.nextKey == shown.key + 2 + i
    ensures store.tasks == old(store.tasks) && store.loading == old(store.loading) && store.error == old(store.error)
    ensures shown' == shown.(progress := shown'.progress) && store.taskRows == rows0 + [shown']
    ensures store.subRows == subs0 + PromotedRows(shown.key + 1, shown.key, subTasks[..i + 1])
  {
    var k := shown.key;
    ghost var before := store.subRows;
    var created := AddMigrated(store, rows0, subs0, shown, subTasks[..i], subTasks[i].name);
    shown' := shown;
    if subTasks[i].completed {
      shown' := CompleteMigrated(store, rows0, shown, before, created);
    }
    PromotedAppend(subs0, store.subRows, k + 1, k, subTasks, i);
  }

  /**
   * `addSubTask` under the new task (row `shown`), whose sub-task rows so
   * far are those written for `done`: it succeeds, and the row it appends is
   * open, with order index `|done|`.
   */
  method AddMigrated(store: RealtimeTasks, ghost rows0: seq<TaskRow>, ghost subs0: seq<SubTaskRow>, shown: TaskRow,
                     ghost done: seq<SubTask>, name: string) returns (created: SubTaskRow)
    requires Tables(rows0, subs0, shown.key)
    requires store.Valid()
    requires store.taskRows == rows0 + [shown]
    requires store.subRows == subs0 + PromotedRows(shown.key + 1, shown.key, done)
    modifies store
    ensures store.Valid()
    ensures store.taskRows == old(store.taskRows) && store.nextKey == old(store.nextKey) + 1
    ensures store.tasks == old(store.tasks) && store.loading == old(store.loading) && store.error == old(store.error)
    ensures created == SubTaskRow(old(store.nextKey), shown.key, name, false, |done|)
    ensures store.subRows == old(store.subRows) + [created]
    ensures forall j :: 0 <= j < |old(store.subRows)| ==> old(store.subRows)[j].key < created.key
  {
    PromotedOwn(rows0, subs0, shown.key, done);
    PromotedNextOrder(shown.key + 1, shown.key, done);
    FindLastRow(rows0, shown);
    var r := store.AddSubTask(RowId(shown.key), name, NoFault);
    created := r.value;
  }

  /**
   * `updateSubTask` with `completed: true` on the sub-task just added under
   * the new task: that row is completed, and the recomputation writes the
   * new task's progress only.
   */
  method CompleteMigrated(store: RealtimeTasks, ghost rows0: seq<TaskRow>, shown: TaskRow,
                          ghost before: seq<SubTaskRow>, created: SubTaskRow) returns (shown': TaskRow)
    requires store.Valid()
    requires forall j :: 0 <= j < |rows0| ==> rows0[j].key < shown.key
    requires forall j :: 0 <= j < |before| ==> before[j].key < created.key
    requires created.taskKey == shown.key
    requires store.taskRows == rows0 + [shown] && store.subRows == before + [created]
    modifies store
    ensures store.Valid()
    ensures store.nextKey == old(store.nextKey) && store.tasks == old(store.tasks)
    ensures store.loading == old(store.loading) && store.error == old(store.error)
    ensures shown' == shown.(progress := shown'.progress) && store.taskRows == rows0 + [shown']
    ensures store.subRows == before + [created.(completed := true)]
  {
    RecomputeLast(rows0, shown, before, created.(completed := true));
    UpdateLastSub(before, created);
    var failure := store.UpdateSubTask(RowId(created.key), None, Some(true), NoFault);
    shown' := store.taskRows[|store.taskRows| - 1];
  }

  /**
   * `toggleSubTaskCompletion`. A template task is promoted with its
   * sub-tasks as toggled and the progress they give; on a stored task the
   * chosen sub-task is toggled in the store.
   */
  method ToggleSubTaskCompletion(store: RealtimeTasks, tasks: seq<Task>, taskId: string, subTaskId: string,
                                 subFault: Fault, taskFault: Fault)
    requires store.Valid()
    modifies store
    ensures store.Valid()
    ensures store.tasks == old(store.tasks) && store.loading == old(store.loading)
    ensures StartsWith(taskId, "sheet-") ==>
              var original := FindTask(tasks, taskId);
              var k := old(store.nextKey);
              if original.Some? && store.projectId.Some? then
                var updated := Flip(original.value.subTasks, subTaskId);
                store.taskRows == old(store.taskRows) +
                  [TaskRow(k, store.projectId.value, original.value.name, original.value.startDate,
                           original.value.endDate, SubTaskProgress(updated), OrNull(AssigneeIdOf(original.value)),
                           store.category, true)] &&
                store.subRows == old(store.subRows) + PromotedRows(k + 1, k, updated) &&
                store.nextKey == k + 1 + |updated| && store.error == old(store.error)
              else
                store.taskRows == old(store.taskRows) && store.subRows == old(store.subRows) &&
                store.nextKey == k && store.error == old(store.error)
    ensures !StartsWith(taskId, "sheet-") ==>
              var task := FindTask(tasks, taskId);
              var sub := if task.Some? then FindSubTask(task.value.subTasks, subTaskId) else None;
              store.nextKey == old(store.nextKey) &&
              (sub.None? ==>
                 store.taskRows == old(store.taskRows) && store.subRows == old(store.subRows) &&
                 store.error == old(store.error)) &&
              (sub.Some? ==> ToggledInStore(old(store.taskRows), old(store.subRows), store.taskRows, store.subRows,
                                            store.error, old(store.error), store.storeError,
                                            task.value, sub.value, subTaskId, subFault, taskFault))
  {
    if StartsWith(taskId, "sheet-") {
      var originalTask := FindTask(tasks, taskId);
      if originalTask.Some? {
        var updatedSubTasks := Flip(originalTask.value.subTasks, subTaskId);
        var progress := SubTaskProgress(updatedSubTasks);
        var newTask := PromoteTemplateTask(store, originalTask.value, updatedSubTasks,
                                           AssigneeIdOf(originalTask.value), progress);
      }
    } else {
      var task := FindTask(tasks, taskId);
      var subTask := if task.Some? then FindSubTask(task.value.subTasks, subTaskId) else None;
      if subTask.Some? {
        ToggleStoredSubTask(store, task.value, subTask.value, subTaskId, subFault, taskFault);
      }
    }
  }

  /**
   * The toggle of sub-task `subTaskId` (shown as `sub`) of the stored task
   * `task`, in the store, when `updateSubTask` meets `subFault` and
   * `updateTask` meets `taskFault`. Unless the first write fails, the
   * sub-task rows are written with the toggled completion. When the whole
   * `updateSubTask` succeeds, the store recomputes the parent's progress and
   * `updateTask` then writes over it the progress of the chart's toggled
   * copy; if that call fails its error is recorded over the recomputed
   * table. When `updateSubTask` fails (a fault, or a row that is gone), its
   * error is recorded, the tasks table is as it was and `updateTask` is not
   * called.
   */
  ghost predicate ToggledInStore(oldRows: seq<TaskRow>, oldSubs: seq<SubTaskRow>, rows: seq<TaskRow>,
                                 subs: seq<SubTaskRow>, error: Option<string>, oldError: Option<string>,
                                 storeError: Thrown, task: Task, sub: SubTask, subTaskId: string,
                                 subFault: Fault, taskFault: Fault)
  {
    var toggled := UpdateSubRows(oldSubs, subTaskId, None, Some(!sub.completed));
    var rowGone := !Fails(subFault, 0) && !Fails(subFault, 1) && FindSubRow(toggled, subTaskId).None?;
    var subOk := !Fails(subFault, 0) && !Fails(subFault, 1) && FindSubRow(toggled, subTaskId).Some? &&
                 !Fails(subFault, 2) && !Fails(subFault, 3);
    subs == (if Fails(subFault, 0) then oldSubs else toggled) &&
    (subOk && !Fails(taskFault, 0) ==>
       rows == SetProgress(Recompute(oldRows, toggled, subTaskId), task.id,
                           SubTaskProgress(Flip(task.subTasks, subTaskId))) &&
       error == oldError) &&
    (subOk && Fails(taskFault, 0) ==>
       rows == Recompute(oldRows, toggled, subTaskId) &&
       error == Some(Message(taskFault.thrown, "Failed to update task"))) &&
    (!subOk ==>
       rows == oldRows &&
       error == Some(Message(if rowGone then storeError else subFault.thrown, "Failed to update subtask")))
  }

  /**
   * `updateSubTask` with the toggled completion; when it succeeds,
   * `updateTask` with the progress of the chart's toggled copy.
   */
  method ToggleStoredSubTask(store: RealtimeTasks, task: Task, sub: SubTask, subTaskId: string,
                             subFault: Fault, taskFault: Fault)
    requires store.Valid()
    modifies store
    ensures store.Valid()
    ensures store.tasks == old(store.tasks) && store.loading == old(store.loading) && store.nextKey == old(store.nextKey)
    ensures ToggledInStore(old(store.taskRows), old(store.subRows), store.taskRows, store.subRows,
                           store.error, old(store.error), store.storeError, task, sub, subTaskId, subFault, taskFault)
  {
    ghost var rows0, error0 := store.taskRows, store.error;
    ghost var toggled := UpdateSubRows(store.subRows, subTaskId, None, Some(!sub.completed));
    var failure := store.UpdateSubTask(subTaskId, None, Some(!sub.completed), subFault);
    ghost var subOk := !Fails(subFault, 0) && !Fails(subFault, 1) && FindSubRow(toggled, subTaskId).Some? &&
                       !Fails(subFault, 2) && !Fails(subFault, 3);
    assert failure.None? <==> subOk;
    if failure.None? {
      ghost var recomputed := store.taskRows;
      assert recomputed == Recompute(rows0, toggled, subTaskId) && store.error == error0;
      var updatedSubTasks := Flip(task.subTasks, subTaskId);
      var progress := SubTaskProgress(updatedSubTasks);
      failure := store.UpdateTask(task.id, TaskUpdate(None, Some(progress), Absent), taskFault);
      assert !Fails(taskFault, 0) ==> store.taskRows == SetProgress(recomputed, task.id, progress);
    } else {
      assert store.taskRows == rows0;
    }
  }

  /**
   * `assignPersonToTask`. A template task is promoted with the person's id
   * as assignee, its sub-tasks as they are and the progress they give,
   * whether or not the id belongs to a known person. A stored task gets the
   * person only when `people` has one with that id.
   */
  method AssignPersonToTask(store: RealtimeTasks, tasks: seq<Task>, people: seq<Person>,
                            taskId: string, personId: string, fault: Fault)
    requires store.Valid()
    modifies store
    ensures store.Valid()
    ensures store.tasks == old(store.tasks) && store.loading == old(store.loading)
    ensures StartsWith(taskId, "sheet-") ==>
              var original := FindTask(tasks, taskId);
              var k := old(store.nextKey);
              if original.Some? && store.projectId.Some? then
                store.taskRows == old(store.taskRows) +
                  [TaskRow(k, store.projectId.value, original.value.name, original.value.startDate,
                           original.value.endDate, SubTaskProgress(original.value.subTasks), OrNull(Some(personId)),
                           store.category, true)] &&
                store.subRows == old(store.subRows) + PromotedRows(k + 1, k, original.value.subTasks) &&
                store.nextKey == k + 1 + |original.value.subTasks|
              else
                store.taskRows == old(store.taskRows) && store.subRows == old(store.subRows) && store.nextKey == k
    ensures StartsWith(taskId, "sheet-") ==> store.error == old(store.error)
    ensures !StartsWith(taskId, "sheet-") ==>
              var person := FindPerson(people, Some(personId));
              var written := person.Some? && !Fails(fault, 0);
              store.subRows == old(store.subRows) && store.nextKey == old(store.nextKey) &&
              store.taskRows == (if written then UpdateRows(old(store.taskRows), taskId, TaskUpdate(None, None, Given(person.value)))
                                 else old(store.taskRows)) &&
              store.error == (if person.Some? && Fails(fault, 0) then Some(Message(fault.thrown, "Failed to update task"))
                              else old(store.error))
  {
    var selectedPerson := FindPerson(people, Some(personId));
    if StartsWith(taskId, "sheet-") {
      var originalTask := FindTask(tasks, taskId);
      if originalTask.Some? {
        var progress := SubTaskProgress(originalTask.value.subTasks);
        var newTask := PromoteTemplateTask(store, originalTask.value, originalTask.value.subTasks, Some(personId), progress);
      }
    } else if selectedPerson.Some? {
      var failure := store.UpdateTask(taskId, TaskUpdate(None, None, Given(selectedPerson.value)), fault);
    }
  }

  // ---------------------------------------------------------------------------
  // What a promotion leaves in the store

  /** The first row with the newest key's id is the newest row. */
  lemma {:induction false} FindLastRow(rows: seq<TaskRow>, row: TaskRow)
    requires forall i :: 0 <= i < |rows| ==> rows[i].key < row.key
    ensures FindTaskRow(rows + [row], RowId(row.key)) == Some(row)
  {
    if rows == [] {
      assert rows + [row] == [row];
    } else {
      RowIdInjective(rows[0].key, row.key);
      FindLastRow(rows[1..], row);
      assert (rows + [row])[1..] == rows[1..] + [row];
    }
  }

  /** The first sub-task row with the newest key's id is the newest row. */
  lemma {:induction false} FindLastSub(subs: seq<SubTaskRow>, row: SubTaskRow)
    requires forall i :: 0 <= i < |subs| ==> subs[i].key < row.key
    ensures FindSubRow(subs + [row], RowId(row.key)) == Some(row)
  {
    if subs == [] {
      assert subs + [row] == [row];
    } else {
      RowIdInjective(subs[0].key, row.key);
      FindLastSub(subs[1..], row);
      assert (subs + [row])[1..] == subs[1..] + [row];
    }
  }

  /** Writing the progress of the newest task row changes that row only. */
  lemma SetProgressLast(rows: seq<TaskRow>, row: TaskRow, p: int)
    requires forall i :: 0 <= i < |rows| ==> rows[i].key < row.key
    ensures SetProgress(rows + [row], RowId(row.key), p) == rows + [row.(progress := p)]
  {
    forall i | 0 <= i < |rows|
      ensures RowId(rows[i].key) != RowId(row.key)
    {
      RowIdInjective(rows[i].key, row.key);
    }
  }

  /** Completing the newest sub-task row changes that row only. */
  lemma UpdateLastSub(subs: seq<SubTaskRow>, row: SubTaskRow)
    requires forall i :: 0 <= i < |subs| ==> subs[i].key < row.key
    ensures UpdateSubRows(subs + [row], RowId(row.key), None, Some(true)) == subs + [row.(completed := true)]
  {
    forall i | 0 <= i < |subs|
      ensures RowId(subs[i].key) != RowId(row.key)
    {
      RowIdInjective(subs[i].key, row.key);
    }
  }

  /** The recomputation after completing the newest sub-task of the newest task writes that task's progress only. */
  lemma RecomputeLast(rows: seq<TaskRow>, row: TaskRow, subs: seq<SubTaskRow>, sub: SubTaskRow)
    requires forall i :: 0 <= i < |rows| ==> rows[i].key < row.key
    requires forall i :: 0 <= i < |subs| ==> subs[i].key < sub.key
    requires sub.taskKey == row.key
    ensures Recompute(rows + [row], subs + [sub], RowId(sub.key)) ==
            rows + [row.(progress := RowsProgress(Filter(subs + [sub], OfTask(RowId(row.key)))))]
  {
    FindLastSub(subs, sub);
    SetProgressLast(rows, row, RowsProgress(Filter(subs + [sub], OfTask(RowId(row.key)))));
  }

  /** The sub-task rows of the promoted task are exactly the rows the promotion wrote. */
  lemma PromotedOwn(rows: seq<TaskRow>, subs: seq<SubTaskRow>, next: nat, ss: seq<SubTask>)
    requires Tables(rows, subs, next)
    ensures Filter(subs + PromotedRows(next + 1, next, ss), OfTask(RowId(next))) == PromotedRows(next + 1, next, ss)
  {
    var own := OfTask(RowId(next));
    var p := PromotedRows(next + 1, next, ss);
    FilterConcat(subs, p, own);
    forall i | 0 <= i < |subs|
      ensures !own(subs[i])
    {
      var t :| t in rows && t.key == subs[i].taskKey;
      RowIdInjective(subs[i].taskKey, next);
    }
    FilterNone(subs, own);
    FilterAll(p, own);
    assert [] + p == p;
  }

  /** The rows written so far, then the row for sub-task `i`, are the rows written for the first `i + 1`. */
  lemma PromotedAppend(subs: seq<SubTaskRow>, now: seq<SubTaskRow>, first: nat, parent: nat, ss: seq<SubTask>, i: nat)
    requires i < |ss|
    requires now == subs + PromotedRows(first, parent, ss[..i]) +
                    [SubTaskRow(first + i, parent, ss[i].name, ss[i].completed, i)]
    ensures now == subs + PromotedRows(first, parent, ss[..i + 1])
  {
    assert PromotedRows(first, parent, ss[..i + 1]) ==
           PromotedRows(first, parent, ss[..i]) + [SubTaskRow(first + i, parent, ss[i].name, ss[i].completed, i)];
  }

  /** The promotion's sub-task rows carry order indices 0, 1, …, so the next one would get `|ss|`. */
  lemma {:induction false} PromotedNextOrder(first: nat, parent: nat, ss: seq<SubTask>)
    ensures NextOrderIndex(PromotedRows(first, parent, ss)) == |ss|
  {
    if |ss| > 1 {
      var init := ss[..|ss| - 1];
      PromotedNextOrder(first, parent, init);
      assert PromotedRows(first, parent, ss)[..|ss| - 1] == PromotedRows(first, parent, init);
    }
  }

  lemma {:induction false} PromotedCompleted(first: nat, parent: nat, ss: seq<SubTask>)
    ensures CompletedRows(PromotedRows(first, parent, ss)) == CompletedCount(ss)
  {
    if ss != [] {
      var init := ss[..|ss| - 1];
      PromotedCompleted(first, parent, init);
      assert PromotedRows(first, parent, ss)[..|ss| - 1] == PromotedRows(first, parent, init);
    }
  }

  /**
   * After a promotion the next fetch shows the new task's sub-tasks as the
   * chart had them: names and completion, in order, under fresh ids.
   */
  lemma PromotedShown(rows: seq<TaskRow>, subs: seq<SubTaskRow>, next: nat, row: TaskRow, ss: seq<SubTask>,
                      people: seq<Person>)
    requires Tables(rows, subs, next) && row.key == next
    ensures FormatTask(row, subs + PromotedRows(next + 1, next, ss), people).subTasks
            == ToSubTasks(PromotedRows(next + 1, next, ss))
  {
    var p := PromotedRows(next + 1, next, ss);
    PromotedSorted(next + 1, next, ss);
    PromotedOwn(rows, subs, next, ss);
    FormattedSubTasks(row, subs + p, people, p);
  }

  /** The promotion's sub-task rows, as the chart shows them. */
  lemma PromotedSubTasks(first: nat, parent: nat, ss: seq<SubTask>)
    ensures var shown := ToSubTasks(PromotedRows(first, parent, ss));
            forall i :: 0 <= i < |ss| ==> shown[i] == SubTask(RowId(first + i), ss[i].name, ss[i].completed)
  {
    var p := PromotedRows(first, parent, ss);
    forall i | 0 <= i < |ss|
      ensures ToSubTasks(p)[i] == SubTask(RowId(first + i), ss[i].name, ss[i].completed)
    {
      assert p[i] == SubTaskRow(first + i, parent, ss[i].name, ss[i].completed, i);
    }
  }

  /** When a row's own sub-task rows, sorted, are `own`, the fetched task shows them in that order. */
  lemma FormattedSubTasks(row: TaskRow, subs: seq<SubTaskRow>, people: seq<Person>, own: seq<SubTaskRow>)
    requires SortByOrder(Filter(subs, OfTask(RowId(row.key))), SubOrder()) == own
    ensures FormatTask(row, subs, people).subTasks == ToSubTasks(own)
  {
  }


  /** The promotion's sub-task rows are already in order index order, so a fetch keeps their order. */
  lemma PromotedSorted(first: nat, parent: nat, ss: seq<SubTask>)
    ensures SortByOrder(PromotedRows(first, parent, ss), SubOrder()) == PromotedRows(first, parent, ss)
  {
    var p := PromotedRows(first, parent, ss);
    assert SortedBy(p, SubOrder());
    SortKeepsSorted(p, SubOrder());
  }

  /** The progress the store would recompute for the promoted task is the progress the promotion wrote. */
  lemma PromotedProgress(rows: seq<TaskRow>, subs: seq<SubTaskRow>, next: nat, ss: seq<SubTask>)
    requires Tables(rows, subs, next)
    ensures RowsProgress(Filter(subs + PromotedRows(next + 1, next, ss), OfTask(RowId(next)))) == SubTaskProgress(ss)
  {
    PromotedOwn(rows, subs, next, ss);
    PromotedCompleted(next + 1, next, ss);
  }

  // ---------------------------------------------------------------------------
  // Removing the assignee

  /**
   * `removePersonFromTask` as written: it passes `assignedPerson: undefined`,
   * which `updateTask` leaves out of the written fields, so the tasks table
   * is unchanged whether or not the call fails; a failing call records its
   * error, which the chart then only logs.
   */
  method RemovePersonFromTask(store: RealtimeTasks, taskId: string, fault: Fault)
    requires store.Valid()
    modifies store
    ensures store.Valid()
    ensures store.taskRows == old(store.taskRows) && store.subRows == old(store.subRows)
    ensures store.nextKey == old(store.nextKey)
    ensures store.error == if Fails(fault, 0) then Some(Message(fault.thrown, "Failed to update task")) else old(store.error)
  {
    AbsentUpdateKeepsRows(store.taskRows, taskId);
    var failure := store.UpdateTask(taskId, TaskUpdate(None, None, Absent), fault);
  }

  lemma AbsentUpdateKeepsRows(rows: seq<TaskRow>, id: string)
    ensures UpdateRows(rows, id, TaskUpdate(None, None, Absent)) == rows
  {
  }

  /** As written, a task that has an assignee keeps it after the person is "removed". */
  lemma RemovedPersonStays(rows: seq<TaskRow>, id: string, i: nat)
    requires i < |rows| && RowId(rows[i].key) == id && rows[i].assignee.Some?
    ensures UpdateRows(rows, id, TaskUpdate(None, None, Absent))[i].assignee == rows[i].assignee
  {
    AbsentUpdateKeepsRows(rows, id);
  }

  /**
   * `removePersonFromTask` as intended: it passes `assignedPerson: null`,
   * which clears the assignee; a failing call leaves the table as it was and
   * records its error.
   */
  method ClearPersonFromTask(store: RealtimeTasks, taskId: string, fault: Fault)
    requires store.Valid()
    modifies store
    ensures store.Valid()
    ensures store.taskRows == if Fails(fault, 0) then old(store.taskRows)
                              else UpdateRows(old(store.taskRows), taskId, TaskUpdate(None, None, Null))
    ensures store.error == if Fails(fault, 0) then Some(Message(fault.thrown, "Failed to update task")) else old(store.error)
    ensures store.subRows == old(store.subRows) && store.nextKey == old(store.nextKey)
  {
    var failure := store.UpdateTask(taskId, TaskUpdate(None, None, Null), fault);
  }

  /** The intended removal leaves the task without an assignee and every other row as it was. */
  lemma ClearedPersonGone(rows: seq<TaskRow>, id: string, i: nat)
    requires i < |rows|
    ensures var r := UpdateRows(rows, id, TaskUpdate(None, None, Null));
            (RowId(rows[i].key) == id ==> r[i] == rows[i].(assignee := None)) &&
            (RowId(rows[i].key) != id ==> r[i] == rows[i])
  {
  }

  // ---------------------------------------------------------------------------
  // Form actions

  /** The new-task form: a name, two dates (missing while the field is empty) and a person id. */
  datatype MainTaskForm = MainTaskForm(name: string, startDate: Option<int>, endDate: Option<int>, assignedPersonId: string)

  const EmptyMainTaskForm: MainTaskForm := MainTaskForm("", None, None, "")

  /**
   * `addMainTask`: with a name that is not blank and both dates, `addTask`
   * with the trimmed name; the form is cleared unless the store threw.
   */
  method AddMainTask(store: RealtimeTasks, form: MainTaskForm, fault: Fault) returns (form': MainTaskForm)
    requires store.Valid()
    modifies store
    ensures store.Valid()
    ensures store.subRows == old(store.subRows) && store.tasks == old(store.tasks)
    ensures Trim(form.name) == "" || form.startDate.None? || form.endDate.None? ==>
              form' == form && store.taskRows == old(store.taskRows) && store.nextKey == old(store.nextKey) &&
              store.error == old(store.error)
    ensures Trim(form.name) != "" && form.startDate.Some? && form.endDate.Some? ==>
              (store.projectId.None? ==>
                 form' == EmptyMainTaskForm && store.taskRows == old(store.taskRows) && store.error == old(store.error)) &&
              (store.projectId.Some? && Fails(fault, 0) ==>
                 form' == form && store.taskRows == old(store.taskRows) &&
                 store.error == Some(Message(fault.thrown, "Failed to add task"))) &&
              (store.projectId.Some? && !Fails(fault, 0) ==>
                 form' == EmptyMainTaskForm && store.error == old(store.error) &&
                 store.taskRows == old(store.taskRows) +
                   [TaskRow(old(store.nextKey), store.projectId.value, Trim(form.name), form.startDate.value,
                            form.endDate.value, 0, OrNull(Some(form.assignedPersonId)), store.category, true)])
  {
    if Trim(form.name) == "" || form.startDate.None? || form.endDate.None? {
      return form;
    }
    var assignee := if form.assignedPersonId != "" then Some(form.assignedPersonId) else None;
    var r := store.AddTask(Trim(form.name), form.startDate.value, form.endDate.value, assignee, fault);
    form' := if r.Threw? then form else EmptyMainTaskForm;
  }

  /** `deleteMainTask`: `deleteTask`, then the task is folded; when the store throws the fold is skipped. */
  method DeleteMainTask(view: GanttView.ChartView, store: RealtimeTasks, taskId: string, fault: Fault)
    requires store.Valid()
    modifies view, store
    ensures store.Valid()
    ensures store.nextKey == old(store.nextKey) && store.tasks == old(store.tasks) && store.loading == old(store.loading)
    ensures view.tasks == old(view.tasks) && view.hiddenTasks == old(view.hiddenTasks)
    ensures !Fails(fault, 0) ==>
              store.taskRows == Filter(old(store.taskRows), TaskStore.NotTask(taskId)) &&
              store.subRows == Filter(old(store.subRows), NotOfTask(taskId)) &&
              store.error == old(store.error) &&
              view.expandedTasks == old(view.expandedTasks) - {taskId}
    ensures Fails(fault, 0) ==>
              store.taskRows == old(store.taskRows) && store.subRows == old(store.subRows) &&
              store.error == Some(Message(fault.thrown, "Failed to delete task")) &&
              view.expandedTasks == old(view.expandedTasks)
  {
    var failure := store.DeleteTask(taskId, fault);
    if failure.None? {
      view.expandedTasks := view.expandedTasks - {taskId};
    }
  }

  /**
   * `addSubTask` of the chart: with a name that is not blank, the store's
   * `addSubTask` with the trimmed name; the input is cleared unless the
   * store threw.
   */
  method AddSubTaskFromForm(store: RealtimeTasks, taskId: string, newSubTaskName: string, fault: Fault)
      returns (name': string)
    requires store.Valid()
    modifies store
    ensures store.Valid()
    ensures store.taskRows == old(store.taskRows) && store.tasks == old(store.tasks) && store.loading == old(store.loading)
    ensures Trim(newSubTaskName) == "" ==>
              name' == newSubTaskName && store.subRows == old(store.subRows) && store.error == old(store.error) &&
              store.nextKey == old(store.nextKey)
    ensures Trim(newSubTaskName) != "" ==>
              var added := !Fails(fault, 0) && !Fails(fault, 1) && FindTaskRow(old(store.taskRows), taskId).Some?;
              (added ==> name' == "" &&
                         store.subRows == old(store.subRows) +
                           [SubTaskRow(old(store.nextKey), FindTaskRow(old(store.taskRows), taskId).value.key,
                                       Trim(newSubTaskName), false,
                                       NextOrderIndex(Filter(old(store.subRows), OfTask(taskId))))] &&
                         store.nextKey == old(store.nextKey) + 1 && store.error == old(store.error)) &&
              (!added ==>
                 name' == newSubTaskName && store.subRows == old(store.subRows) && store.nextKey == old(store.nextKey) &&
                 store.error == Some(Message(if Fails(fault, 0) || Fails(fault, 1) then fault.thrown else store.storeError,
                                             "Failed to add subtask")))
  {
    if Trim(newSubTaskName) == "" {
      return newSubTaskName;
    }
    var r := store.AddSubTask(taskId, Trim(newSubTaskName), fault);
    name' := if r.Threw? then newSubTaskName else "";
  }

  /** A template task has no row in the store, so a sub-task added to it is refused. */
  lemma TemplateTaskHasNoRow(rows: seq<TaskRow>, taskId: string)
    requires StartsWith(taskId, "sheet-")
    ensures FindTaskRow(rows, taskId).None?
  {
    forall i | 0 <= i < |rows|
      ensures RowId(rows[i].key) != taskId
    {
      RowIdNotTemplate(rows[i].key);
    }
  }

  /**
   * `updateSubTaskName`: with a name that is not blank, `updateSubTask`
   * with the trimmed name only, which recomputes no progress; `closed` says
   * whether the edit ended.
   */
  method UpdateSubTaskName(store: RealtimeTasks, subTaskId: string, newName: string, fault: Fault)
      returns (closed: bool)
    requires store.Valid()
    modifies store
    ensures store.Valid()
    ensures store.taskRows == old(store.taskRows) && store.nextKey == old(store.nextKey)
    ensures Trim(newName) == "" ==> !closed && store.subRows == old(store.subRows) && store.error == old(store.error)
    ensures Trim(newName) != "" ==>
              (closed <==> !Fails(fault, 0)) &&
              (closed ==> store.subRows == UpdateSubRows(old(store.subRows), subTaskId, Some(Trim(newName)), None) &&
                          store.error == old(store.error)) &&
              (!closed ==> store.subRows == old(store.subRows) &&
                           store.error == Some(Message(fault.thrown, "Failed to update subtask")))
  {
    if Trim(newName) == "" {
      return false;
    }
    var failure := store.UpdateSubTask(subTaskId, Some(Trim(newName)), None, fault);
    closed := failure.None?;
  }
}

=== FILE: gantt_calendar.dfy ===
/**
 * The calendar side of the gantt chart: the window of days it shows around a
 * project's open date, the month header row grouped over that window, the
 * rokuyo label of a day and the weekend shading.
 */
module GanttCalendar {
  import opened JsText
  import opened Calendar

  // ---------------------------------------------------------------------------
  // The date window

  /** The open date used when the project has none: day 19814, 1 April 2024. */
  const DefaultOpenDate: int := 19814

  lemma DefaultOpenDateIsApril1(n: int)
    requires n == DefaultOpenDate
    ensures CivilFromDays(n) == Date(2024, 4, 1)
  {
    April2024Start(n, 12 * 2024 + 3);
  }

  lemma April2024Start(n: int, k: int)
    requires n == DefaultOpenDate && k == 12 * 2024 + 3
    ensures MonthStart(k) == n && CivilFromDays(n) == Date(2024, 4, 1)
  {
    April2024Closed(k);
    var d := MonthOfIndex(k);
    assert d.year == 2024 && d.month == 4;
    assert DaysFromCivil(d) == n;
    DaysFromCivilInjective(CivilFromDays(n), d);
  }

  lemma April2024Closed(k: int)
    requires k == 12 * 2024 + 3
    ensures MonthStart(k) == 19814
  {
    assert k / 12 == 2024 && k % 12 == 3;
    assert YearStart(2024) == 19723;
    assert ClosedMonthStart(k) == 19814;
    MonthStartClosedForm(k);
  }

  /**
   * `setMonth(getMonth() - 4)` then `setDate(1)` on a copy of the open date:
   * the first day of the month that contains the open date moved four months
   * back, where a day past the end of that month overflows into the next one.
   */
  function WindowStart(open: int): int {
    var c := CivilFromDays(open);
    FirstOfMonth(MakeDay(c.year, c.month - 1 - 4, c.day))
  }

  /** `setDate(getDate() + 30)` on a copy of the open date. */
  function WindowEnd(open: int): int {
    var c := CivilFromDays(open);
    MakeDay(c.year, c.month - 1, c.day + 30)
  }

  /** `setDate(1)`: the first day of the month containing day `n`. */
  function FirstOfMonth(n: int): int {
    n - CivilFromDays(n).day + 1
  }

  /**
   * The month the window starts in: four months before the open date's month,
   * or three when the open date's day of month does not exist four months back
   * (31 October gives July, since June has 30 days).
   */
  function WindowMonth(open: int): int {
    var c := CivilFromDays(open);
    var k := MonthIndex(c) - 4;
    if c.day <= DaysInMonthIndex(k) then k else k + 1
  }

  /** The consecutive days `start..end`, both included; empty when `end < start`. */
  function DaysFrom(start: int, end: int): (r: seq<int>)
    ensures |r| == if end < start then 0 else end - start + 1
    ensures forall i :: 0 <= i < |r| ==> r[i] == start + i
  {
    seq(if end < start then 0 else end - start + 1, i => start + i)
  }

  lemma FirstOfMonthIn(k: int, r: int)
    requires 0 <= r < DaysInMonthIndex(k)
    ensures FirstOfMonth(MonthStart(k) + r) == MonthStart(k)
  {
    DayInMonth(k, r);
  }

  lemma FirstDayIsFirst(k: int)
    ensures CivilFromDays(MonthStart(k)).day == 1
  {
    DayInMonth(k, 0);
    assert MonthStart(k) + 0 == MonthStart(k);
  }

  /** The window ends 30 days after the open date. */
  lemma WindowEndIsOpenPlus30(open: int)
    ensures WindowEnd(open) == open + 30
  {
    var c := CivilFromDays(open);
    var k := 12 * c.year + c.month - 1;
    assert k / 12 == c.year && k % 12 == c.month - 1;
  }

  lemma WindowStartUnfold(open: int, c: Date, k: int)
    requires c == CivilFromDays(open) && k == MonthIndex(c) - 4
    ensures WindowStart(open) == FirstOfMonth(MonthStart(k) + (c.day - 1))
  {
    assert k == 12 * c.year + (c.month - 1 - 4);
    var x := MakeDay(c.year, c.month - 1 - 4, c.day);
    assert x == MonthStart(k) + (c.day - 1);
  }

  /** A day past the end of month `k` (by less than a month) falls in month `k + 1`. */
  lemma FirstOfMonthOverflow(k: int, r: int)
    requires DaysInMonthIndex(k) <= r < 31
    ensures FirstOfMonth(MonthStart(k) + r) == MonthStart(k + 1)
  {
    MonthStartStep(k);
    var r' := r - DaysInMonthIndex(k);
    FirstOfMonthIn(k + 1, r');
    assert MonthStart(k) + r == MonthStart(k + 1) + r';
  }

  /** The window opens on the first day of `WindowMonth(open)`. */
  lemma WindowStartIsWindowMonth(open: int)
    ensures WindowStart(open) == MonthStart(WindowMonth(open))
  {
    var c := CivilFromDays(open);
    var k := MonthIndex(c) - 4;
    if c.day <= DaysInMonthIndex(k) {
      WindowStartNoOverflow(open, c, k);
    } else {
      WindowStartOverflow(open, c, k);
    }
  }

  lemma WindowStartNoOverflow(open: int, c: Date, k: int)
    requires c == CivilFromDays(open) && k == MonthIndex(c) - 4
    requires c.day <= DaysInMonthIndex(k)
    ensures WindowStart(open) == MonthStart(k)
  {
    WindowStartUnfold(open, c, k);
    FirstOfMonthIn(k, c.day - 1);
  }

  lemma WindowStartOverflow(open: int, c: Date, k: int)
    requires c == CivilFromDays(open) && k == MonthIndex(c) - 4
    requires c.day > DaysInMonthIndex(k)
    ensures WindowStart(open) == MonthStart(k + 1)
  {
    WindowStartUnfold(open, c, k);
    FirstOfMonthOverflow(k, c.day - 1);
  }

  /**
   * The window starts on the first of a month, four (or, on overflow, three)
   * months before the open date's month, and never after the open date.
   */
  lemma WindowStartMonth(open: int)
    ensures WindowStart(open) == MonthStart(WindowMonth(open))
    ensures CivilFromDays(WindowStart(open)).day == 1
    ensures var k := MonthIndex(CivilFromDays(open));
            k - 4 <= WindowMonth(open) <= k - 3
    ensures WindowStart(open) <= open
  {
    WindowStartIsWindowMonth(open);
    var j := WindowMonth(open);
    FirstDayIsFirst(j);
    var c := CivilFromDays(open);
    MonthStartsBeforeOpen(c, MonthIndex(c) - 4);
    assert DaysFromCivil(c) == open;
  }

  lemma MonthStartsBeforeOpen(c: Date, k: int)
    requires ValidDate(c) && k == MonthIndex(c) - 4
    ensures MonthStart(k) < MonthStart(k + 1) <= DaysFromCivil(c)
  {
    MonthStartStep(k);
    MonthStartMonotone(k + 1, MonthIndex(c));
  }

  /** With the default open date the window runs from 1 December 2023 to 1 May 2024. */
  lemma DefaultWindow(n: int)
    requires n == DefaultOpenDate
    ensures CivilFromDays(WindowStart(n)) == Date(2023, 12, 1)
    ensures CivilFromDays(WindowEnd(n)) == Date(2024, 5, 1)
  {
    DefaultOpenDateIsApril1(n);
    var c := CivilFromDays(n);
    DefaultWindowStart(n, c, MonthIndex(c));
    DefaultWindowEnd(n, c, MonthIndex(c));
  }

  lemma DefaultWindowStart(n: int, c: Date, k: int)
    requires c == CivilFromDays(n) && c.year == 2024 && c.month == 4 && c.day == 1
    requires k == MonthIndex(c)
    ensures CivilFromDays(WindowStart(n)) == Date(2023, 12, 1)
  {
    var j := k - 4;
    assert j / 12 == 2023 && j % 12 == 11;
    assert WindowMonth(n) == j;
    WindowStartIsWindowMonth(n);
    DayInMonth(j, 0);
    assert MonthStart(j) + 0 == MonthStart(j);
  }

  lemma DefaultWindowEnd(n: int, c: Date, k: int)
    requires c == CivilFromDays(n) && c.year == 2024 && c.month == 4 && c.day == 1
    requires k == MonthIndex(c)
    ensures CivilFromDays(WindowEnd(n)) == Date(2024, 5, 1)
  {
    assert k / 12 == 2024 && k % 12 == 3;
    assert n == DaysFromCivil(c) == MonthStart(k);
    MonthStartStep(k);
    WindowEndIsOpenPlus30(n);
    assert WindowEnd(n) == MonthStart(k + 1) + 0;
    DayInMonth(k + 1, 0);
    assert (k + 1) / 12 == 2024 && (k + 1) % 12 == 4;
  }

  /** Month overflow: an open date of 31 October 2024 starts the window on 1 July, not 1 June. */
  lemma OverflowWindow(n: int)
    requires CivilFromDays(n) == Date(2024, 10, 31)
    ensures CivilFromDays(WindowStart(n)) == Date(2024, 7, 1)
  {
    var c := CivilFromDays(n);
    OverflowWindowAt(n, c, MonthIndex(c) - 4);
  }

  lemma OverflowWindowAt(n: int, c: Date, k: int)
    requires c == CivilFromDays(n) && c.year == 2024 && c.month == 10 && c.day == 31
    requires k == MonthIndex(c) - 4
    ensures CivilFromDays(WindowStart(n)) == Date(2024, 7, 1)
  {
    assert k / 12 == 2024 && k % 12 == 5;
    assert DaysInMonthIndex(k) == 30;
    assert WindowMonth(n) == k + 1;
    WindowStartIsWindowMonth(n);
    DayInMonth(k + 1, 0);
    assert MonthStart(k + 1) + 0 == MonthStart(k + 1);
    assert (k + 1) / 12 == 2024 && (k + 1) % 12 == 6;
  }

  /** The loop building `dateRange`: one entry per day from `start` through `end`. */
  method BuildDateRange(start: int, end: int) returns (range: seq<int>)
    ensures range == DaysFrom(start, end)
  {
    range := [];
    var d := start;
    while d <= end
      invariant end < start ==> d == start && range == []
      invariant start <= end ==> start <= d <= end + 1 && range == DaysFrom(start, d - 1)
      decreases end - d
    {
      range := range + [d];
      d := d + 1;
    }
  }

  /** The dates the chart shows for a project whose open date may be unset. */
  method DateWindow(openDate: Option<int>) returns (range: seq<int>)
    ensures var open := if openDate.Some? then openDate.value else DefaultOpenDate;
            range == DaysFrom(WindowStart(open), open + 30)
  {
    var open := if openDate.Some? then openDate.value else DefaultOpenDate;
    WindowEndIsOpenPlus30(open);
    range := BuildDateRange(WindowStart(open), WindowEnd(open));
  }

  /** The window always holds the open date and the 30 days after it, starting on a first of the month. */
  lemma WindowHoldsOpenDate(open: int)
    ensures var r := DaysFrom(WindowStart(open), open + 30);
            |r| >= 31 && r[|r| - 1] == open + 30 && open in r &&
            CivilFromDays(r[0]).day == 1
  {
    WindowStartMonth(open);
    var s := WindowStart(open);
    var r := DaysFrom(s, open + 30);
    assert |r| == open + 30 - s + 1;
    assert r[0] == s;
    assert r[open - s] == open;
  }

  // ---------------------------------------------------------------------------
  // Month header keys

  /** `String(year)` for any integer year. */
  function YearString(y: int): (r: string)
    ensures r != [] && '年' !in r
  {
    if y < 0 then "-" + NatToString(-y) else NatToString(y)
  }

  /** `String(m).padStart(2, "0")`. */
  function Pad2(m: nat): (r: string)
    ensures |r| >= 2
  {
    var s := NatToString(m);
    if |s| < 2 then "0" + s else s
  }

  /** The header key of a date: `${year}年${MM}月`. */
  function DateKey(c: Date): (k: string)
    ensures k != ""
  {
    YearString(c.year) + "年" + Pad2(if c.month >= 0 then c.month else 0) + "月"
  }

  /** The header key of a day. */
  function MonthKey(n: int): (k: string)
    ensures k != ""
  {
    DateKey(CivilFromDays(n))
  }

  lemma YearStringInjective(a: int, b: int)
    requires YearString(a) == YearString(b)
    ensures a == b
  {
    if a < 0 && b < 0 {
      assert NatToString(-a) == YearString(a)[1..] == NatToString(-b);
      NatToStringInjective(-a, -b);
    } else if a >= 0 && b >= 0 {
      NatToStringInjective(a, b);
    }
  }

  lemma Pad2Injective(a: nat, b: nat)
    requires a > 0 && b > 0 && Pad2(a) == Pad2(b)
    ensures a == b
  {
    var s, t := NatToString(a), NatToString(b);
    if |s| < 2 && |t| < 2 {
      assert s == Pad2(a)[1..] == t;
    }
    NatToStringInjective(a, b);
  }

  /** Two dates share a header key exactly when they fall in the same month of the same year. */
  lemma DateKeyIdentifiesMonth(c: Date, e: Date)
    requires 1 <= c.month <= 12 && 1 <= e.month <= 12
    ensures DateKey(c) == DateKey(e) <==> c.year == e.year && c.month == e.month
  {
    if DateKey(c) == DateKey(e) {
      var yc, mc := YearString(c.year), Pad2(c.month) + "月";
      var ye, me := YearString(e.year), Pad2(e.month) + "月";
      assert DateKey(c) == yc + ['年'] + mc;
      assert DateKey(e) == ye + ['年'] + me;
      SplitAtSeparator(yc, mc, ye, me, '年');
      YearStringInjective(c.year, e.year);
      assert Pad2(c.month) == mc[..|mc| - 1];
      assert Pad2(e.month) == me[..|me| - 1];
      Pad2Injective(c.month, e.month);
    }
  }

  /** Two days share a header key exactly when they fall in the same month of the same year. */
  lemma MonthKeyIdentifiesMonth(n: int, p: int)
    ensures MonthKey(n) == MonthKey(p) <==>
            MonthIndex(CivilFromDays(n)) == MonthIndex(CivilFromDays(p))
  {
    var c, e := CivilFromDays(n), CivilFromDays(p);
    DateKeyIdentifiesMonth(c, e);
    MonthIndexOfDate(c);
    MonthIndexOfDate(e);
  }

  function MonthKeys(range: seq<int>): (ks: seq<string>)
    ensures |ks| == |range| && forall i :: 0 <= i < |ks| ==> ks[i] == MonthKey(range[i])
  {
    seq(|range|, i requires 0 <= i < |range| => MonthKey(range[i]))
  }

  // ---------------------------------------------------------------------------
  // Month headers: run-length grouping of the keys

  datatype MonthHeader = MonthHeader(month: string, span: nat, startIndex: nat)

  function Repeat(k: string, n: nat): (r: seq<string>)
    ensures |r| == n && forall i :: 0 <= i < n ==> r[i] == k
  {
    seq(n, _ => k)
  }

  /** The keys a header row stands for, each header's key repeated over its span. */
  function Expand(hs: seq<MonthHeader>): seq<string> {
    if hs == [] then []
    else Expand(hs[..|hs| - 1]) + Repeat(hs[|hs| - 1].month, hs[|hs| - 1].span)
  }

  function SpanSum(hs: seq<MonthHeader>): nat {
    if hs == [] then 0 else SpanSum(hs[..|hs| - 1]) + hs[|hs| - 1].span
  }

  lemma {:induction false} ExpandLength(hs: seq<MonthHeader>)
    ensures |Expand(hs)| == SpanSum(hs)
  {
    if hs != [] {
      ExpandLength(hs[..|hs| - 1]);
    }
  }

  /** Each header's start index is the total span of the headers before it. */
  predicate StartsAreOffsets(hs: seq<MonthHeader>) {
    forall j :: 0 <= j < |hs| ==> hs[j].startIndex == SpanSum(hs[..j])
  }

  predicate AdjacentDiffer(hs: seq<MonthHeader>) {
    forall j :: 0 < j < |hs| ==> hs[j - 1].month != hs[j].month
  }

  /**
   * `hs` groups the first `upTo` keys: the headers expand back to those keys,
   * every span is positive, the spans add up to `upTo`, each start index is
   * the sum of the earlier spans and neighbouring headers have different keys.
   */
  predicate GroupsKeys(hs: seq<MonthHeader>, keys: seq<string>, upTo: nat) {
    upTo <= |keys| && SpanSum(hs) == upTo && Expand(hs) == keys[..upTo] &&
    (forall j :: 0 <= j < |hs| ==> hs[j].span >= 1) &&
    StartsAreOffsets(hs) && AdjacentDiffer(hs)
  }

  /**
   * `generateMonthHeaders`: the header row of the chart, one header per run
   * of days with the same year/month key.
   */
  method GenerateMonthHeaders(dateRange: seq<int>) returns (hs: seq<MonthHeader>)
    ensures GroupsKeys(hs, MonthKeys(dateRange), |dateRange|)
  {
    hs := GroupRuns(MonthKeys(dateRange));
  }

  /**
   * The walk over the keys: a new header opens each time the key differs from
   * the open one; the empty string marks that no header is open yet, which is
   * sound because no key is empty.
   */
  method GroupRuns(keys: seq<string>) returns (hs: seq<MonthHeader>)
    requires forall i :: 0 <= i < |keys| ==> keys[i] != ""
    ensures GroupsKeys(hs, keys, |keys|)
  {
    hs := [];
    var currentMonth := "";
    var currentSpan := 0;
    var startIndex := 0;
    for index := 0 to |keys|
      invariant currentMonth == "" <==> index == 0
      invariant index == 0 ==> hs == [] && startIndex == 0
      invariant startIndex + currentSpan == index
      invariant index > 0 ==> currentSpan >= 1
      invariant GroupsKeys(hs, keys, startIndex)
      invariant forall i :: startIndex <= i < index ==> keys[i] == currentMonth
      invariant hs != [] ==> hs[|hs| - 1].month != currentMonth
    {
      var monthKey := keys[index];
      if currentMonth != monthKey {
        if currentMonth != "" {
          hs := Close(hs, keys, currentMonth, currentSpan, startIndex);
        }
        currentMonth, currentSpan, startIndex := monthKey, 1, index;
      } else {
        currentSpan := currentSpan + 1;
      }
    }
    if currentMonth != "" {
      hs := Close(hs, keys, currentMonth, currentSpan, startIndex);
    }
    assert keys[..|keys|] == keys;
  }

  /** Pushing the open header `{month, span, startIndex}`, which covers `keys[startIndex..startIndex + span]`. */
  method Close(hs: seq<MonthHeader>, ghost keys: seq<string>, month: string, span: nat, startIndex: nat)
      returns (hs': seq<MonthHeader>)
    requires span >= 1 && startIndex + span <= |keys|
    requires GroupsKeys(hs, keys, startIndex)
    requires forall i :: startIndex <= i < startIndex + span ==> keys[i] == month
    requires hs != [] ==> hs[|hs| - 1].month != month
    ensures hs' == hs + [MonthHeader(month, span, startIndex)]
    ensures GroupsKeys(hs', keys, startIndex + span)
  {
    var h := MonthHeader(month, span, startIndex);
    hs' := hs + [h];
    var index := startIndex + span;
    PushHeader(hs, h);
    assert keys[startIndex..index] == Repeat(month, span);
    assert keys[..index] == keys[..startIndex] + keys[startIndex..index];
    assert Expand(hs') == keys[..index];
    StartsAfterPush(hs, h);
    assert AdjacentDiffer(hs');
  }

  lemma PushHeader(hs: seq<MonthHeader>, h: MonthHeader)
    ensures Expand(hs + [h]) == Expand(hs) + Repeat(h.month, h.span)
    ensures SpanSum(hs + [h]) == SpanSum(hs) + h.span
  {
    assert (hs + [h])[..|hs|] == hs;
  }

  lemma StartsAfterPush(hs: seq<MonthHeader>, h: MonthHeader)
    requires StartsAreOffsets(hs) && h.startIndex == SpanSum(hs)
    ensures StartsAreOffsets(hs + [h])
  {
    var hs' := hs + [h];
    forall j | 0 <= j < |hs'|
      ensures hs'[j].startIndex == SpanSum(hs'[..j])
    {
      if j < |hs| {
        assert hs'[..j] == hs[..j];
      } else {
        assert hs'[..j] == hs;
      }
    }
  }

  // ---------------------------------------------------------------------------
  // Rokuyo

  const RokuyoNames: seq<string> := ["大安", "赤口", "先勝", "友引", "先負", "仏滅"]

  /**
   * `Math.floor((year - 1900) * 365.25) + Math.floor((month - 1) * 30.44) + day`.
   * Both products are floored exactly: 365.25 is exact in binary, and for
   * months 1..12 no product `(month - 1) * 30.44` lies near an integer, so
   * floating point rounding cannot change the floor.
   */
  function RokuyoTotal(d: Date): int
    requires 1 <= d.month <= 12
  {
    (d.year - 1900) * 1461 / 4 + (d.month - 1) * 3044 / 100 + d.day
  }

  /** JavaScript's `a % 6`: the remainder takes the sign of the dividend. */
  function JsRem6(a: int): (r: int)
    ensures -6 < r < 6
    ensures a >= 0 ==> r == a % 6
    ensures a < 0 ==> r <= 0 && (r == 0 <==> a % 6 == 0)
  {
    if a >= 0 then a % 6 else -((-a) % 6)
  }

  /**
   * `rokuyoList[totalDays % 6]`: a negative remainder indexes past the list
   * and gives `undefined` (here `None`); a remainder of -0 reads element 0.
   */
  function Rokuyo(n: int): Option<string> {
    var r := JsRem6(RokuyoTotal(CivilFromDays(n)));
    if r >= 0 then Some(RokuyoNames[r]) else None
  }

  /** From 1900 on every day has a label, picked by the total modulo 6. */
  lemma RokuyoFrom1900(n: int)
    requires CivilFromDays(n).year >= 1900
    ensures Rokuyo(n) == Some(RokuyoNames[RokuyoTotal(CivilFromDays(n)) % 6])
  {
  }

  /** Before 1900 the total is negative, and only totals divisible by 6 get a label (always 大安). */
  lemma RokuyoBefore1900(n: int)
    requires CivilFromDays(n).year < 1900
    ensures RokuyoTotal(CivilFromDays(n)) < 0
    ensures Rokuyo(n).Some? <==> RokuyoTotal(CivilFromDays(n)) % 6 == 0
    ensures Rokuyo(n).Some? ==> Rokuyo(n).value == "大安"
  {
    var c := CivilFromDays(n);
    assert (c.year - 1900) * 1461 <= -1461;
    assert (c.month - 1) * 3044 / 100 <= 334;
  }

  /** Within a month the label moves one step along the six-day cycle from one day to the next. */
  lemma RokuyoNextDay(n: int)
    requires CivilFromDays(n).year >= 1900
    requires CivilFromDays(n).day < DaysInMonth(CivilFromDays(n).year, CivilFromDays(n).month)
    ensures var c := CivilFromDays(n);
            RokuyoTotal(CivilFromDays(n + 1)) == RokuyoTotal(c) + 1 &&
            Rokuyo(n + 1) == Some(RokuyoNames[(RokuyoTotal(c) + 1) % 6])
  {
    var c := CivilFromDays(n);
    var d := Date(c.year, c.month, c.day + 1);
    assert DaysFromCivil(d) == DaysFromCivil(c) + 1;
    CivilRoundTrip(d);
    assert CivilFromDays(n + 1) == d;
    assert RokuyoTotal(d) == RokuyoTotal(c) + 1;
    RokuyoFrom1900(n + 1);
  }

  /** 1 April 2024 is labelled 仏滅. */
  lemma RokuyoExample(n: int)
    requires n == DefaultOpenDate
    ensures Rokuyo(n) == Some("仏滅")
  {
    DefaultOpenDateIsApril1(n);
    var c := CivilFromDays(n);
    RokuyoOfApril1(c, RokuyoTotal(c));
    assert Rokuyo(n) == Some(RokuyoNames[JsRem6(RokuyoTotal(c))]);
  }

  lemma RokuyoOfApril1(c: Date, t: int)
    requires c.year == 2024 && c.month == 4 && c.day == 1
    requires t == RokuyoTotal(c)
    ensures JsRem6(t) == 5 && RokuyoNames[5] == "仏滅"
  {
    assert (c.year - 1900) * 1461 / 4 == 45291;
    assert (c.month - 1) * 3044 / 100 == 91;
    assert t == 45383;
  }

  // ---------------------------------------------------------------------------
  // Weekends

  /** `getDay()` is 0 (Sunday) or 6 (Saturday). */
  predicate IsWeekend(n: int) {
    DayOfWeek(n) == 0 || DayOfWeek(n) == 6
  }

  /** In the seven days from a Monday, exactly the sixth and seventh are weekend days. */
  lemma WeekendsOfWeek(monday: int, i: int)
    requires DayOfWeek(monday) == 1 && 0 <= i < 7
    ensures IsWeekend(monday + i) <==> i == 5 || i == 6
  {
  }

  /** 1 April 2024 was a Monday, so the default window's sixth day (6 April) is shaded. */
  lemma DefaultOpenDateIsMonday()
    ensures DayOfWeek(DefaultOpenDate) == 1
    ensures !IsWeekend(DefaultOpenDate) && IsWeekend(DefaultOpenDate + 5)
  {
  }
}

=== FILE: gantt_style.dfy ===
/**
 * How the gantt chart draws a task: the colour pair and gradient stop of its
 * progress bar, the style of its name, and where its bar sits along the window
 * of days (as percentages of the window's width).
 */
module GanttStyle {
  import opened JsText
  import opened GanttCalendar

  // ---------------------------------------------------------------------------
  // Progress colours

  /** The five colour bands of the progress bar. */
  datatype Shade = Teal | Blue | Yellow | Orange | Red

  /** `getProgressBarStyle`'s if-chain: exactly 100 is teal, then bands from 80, 50 and 20 down. */
  function ProgressShade(progress: int): Shade {
    if progress == 100 then Teal
    else if progress >= 80 then Blue
    else if progress >= 50 then Yellow
    else if progress >= 20 then Orange
    else Red
  }

  /** Orders the bands from red (least done) to teal (done). */
  function Rank(s: Shade): nat {
    match s
    case Red => 0
    case Orange => 1
    case Yellow => 2
    case Blue => 3
    case Teal => 4
  }

  /** The dark (-500) colour of a band. */
  function DarkColor(s: Shade): string {
    match s
    case Teal => "#14b8a6"
    case Blue => "#3b82f6"
    case Yellow => "#eab308"
    case Orange => "#f97316"
    case Red => "#ef4444"
  }

  /** The light (-300) colour of a band. */
  function LightColor(s: Shade): string {
    match s
    case Teal => "#5eead4"
    case Blue => "#93c5fd"
    case Yellow => "#fde047"
    case Orange => "#fdba74"
    case Red => "#fca5a5"
  }

  /** `Math.max(0, Math.min(100, progress))`. */
  function Clamp(progress: int): (r: int)
    ensures 0 <= r <= 100
    ensures 0 <= progress <= 100 ==> r == progress
    ensures progress < 0 ==> r == 0
    ensures progress > 100 ==> r == 100
  {
    if progress < 0 then 0 else if progress > 100 then 100 else progress
  }

  datatype BarStyle = BarStyle(dark: string, light: string, stop: int)

  /**
   * `getProgressBarStyle`: the colour pair of the progress band and the point
   * where the gradient turns from dark to light.
   */
  function ProgressBarStyle(progress: int): (s: BarStyle)
    ensures 0 <= s.stop <= 100
    ensures 0 <= progress <= 100 ==> s.stop == progress
    ensures exists b :: s.dark == DarkColor(b) && s.light == LightColor(b)
  {
    var b := ProgressShade(progress);
    BarStyle(DarkColor(b), LightColor(b), Clamp(progress))
  }

  /** The CSS `background` value built from a bar style. */
  function Background(s: BarStyle): string
    requires 0 <= s.stop
  {
    var p := NatToString(s.stop);
    "linear-gradient(to right, " + s.dark + " 0%, " + s.dark + " " + p + "%, "
      + s.light + " " + p + "%, " + s.light + " 100%)"
  }

  lemma DarkColorInjective(a: Shade, b: Shade)
    requires DarkColor(a) == DarkColor(b)
    ensures a == b
  {
  }

  /** The band goes only up as progress rises towards 100, and 100 itself is the top band. */
  lemma ShadeMonotone(p: int, q: int)
    requires p <= q <= 100
    ensures Rank(ProgressShade(p)) <= Rank(ProgressShade(q))
  {
  }

  /** Above 100 the bar falls back to blue: the teal band needs exactly 100. */
  lemma OverFullIsBlue(p: int)
    requires p > 100
    ensures ProgressBarStyle(p).dark == DarkColor(Blue)
    ensures ProgressBarStyle(p).stop == 100
  {
  }

  /** The bands by threshold, for every progress value. */
  lemma ShadeBands(p: int)
    ensures ProgressShade(p) == Teal <==> p == 100
    ensures ProgressShade(p) == Blue <==> p >= 80 && p != 100
    ensures ProgressShade(p) == Yellow <==> 50 <= p < 80
    ensures ProgressShade(p) == Orange <==> 20 <= p < 50
    ensures ProgressShade(p) == Red <==> p < 20
  {
  }

  const DoneNameStyle: string := "font-semibold text-teal-600 text-xs truncate"
  const NameStyle: string := "font-semibold text-gray-800 text-xs truncate"

  /** `getTaskNameStyle`: the name turns teal at exactly 100. */
  function TaskNameStyle(progress: int): string {
    if progress == 100 then DoneNameStyle else NameStyle
  }

  /** A task's name is teal exactly when its bar is in the teal band. */
  lemma NameMatchesBar(p: int)
    ensures TaskNameStyle(p) == DoneNameStyle <==> ProgressBarStyle(p).dark == DarkColor(Teal)
  {
    if ProgressBarStyle(p).dark == DarkColor(Teal) {
      DarkColorInjective(ProgressShade(p), Teal);
    }
  }

  // ---------------------------------------------------------------------------
  // Bar position

  /** `dateRange.findIndex(date => same day as d)`: the first index holding `d`, or -1. */
  function FindIndex(range: seq<int>, d: int): (i: int)
    ensures -1 <= i < |range|
    ensures i >= 0 ==> range[i] == d && forall j :: 0 <= j < i ==> range[j] != d
    ensures i == -1 <==> d !in range
  {
    if range == [] then -1
    else if range[0] == d then 0
    else
      var i := FindIndex(range[1..], d);
      if i == -1 then -1 else i + 1
  }

  /** `left` and `width` of a bar, as percentages of the chart's width. */
  datatype Position = Position(left: real, width: real)

  /**
   * `getTaskPosition`: a bar whose start or end day is outside the window is
   * drawn at 0%/0%; otherwise it starts at its start day's share of the
   * window and spans from its start day through its end day.
   */
  function TaskPosition(range: seq<int>, start: int, end: int): (p: Position)
    ensures start !in range || end !in range ==> p == Position(0.0, 0.0)
  {
    var total := |range|;
    var s := FindIndex(range, start);
    var e := FindIndex(range, end);
    if s == -1 || e == -1 then Position(0.0, 0.0)
    else Position((s as real) / (total as real) * 100.0,
                  ((e - s + 1) as real) / (total as real) * 100.0)
  }

  lemma FindInWindow(s: int, e: int, d: int)
    requires s <= d <= e
    ensures FindIndex(DaysFrom(s, e), d) == d - s
  {
    var r := DaysFrom(s, e);
    assert r[d - s] == d;
  }

  /** Percentages `a/n*100` and `b/n*100` add up to at most 100 when `a + b <= n`. */
  lemma ShareSum(a: int, b: int, n: int)
    requires 0 <= a && 0 < b && a + b <= n
    ensures 0.0 <= (a as real) / (n as real) * 100.0
    ensures 0.0 < (b as real) / (n as real) * 100.0
    ensures (a as real) / (n as real) * 100.0 + (b as real) / (n as real) * 100.0 <= 100.0
  {
    var N := n as real;
    assert (a as real) / N + (b as real) / N == ((a + b) as real) / N;
    assert ((a + b) as real) / N <= 1.0;
  }

  /**
   * A task lying inside the window `s..e`, start no later than end, is drawn
   * at its start day's offset, with a positive width that stays inside the chart.
   */
  lemma PositionInWindow(s: int, e: int, start: int, end: int)
    requires s <= start <= end <= e
    ensures var p := TaskPosition(DaysFrom(s, e), start, end);
            p.left == ((start - s) as real) / ((e - s + 1) as real) * 100.0 &&
            p.width == ((end - start + 1) as real) / ((e - s + 1) as real) * 100.0 &&
            0.0 <= p.left && 0.0 < p.width && p.left + p.width <= 100.0
  {
    FindInWindow(s, e, start);
    FindInWindow(s, e, end);
    ShareSum(start - s, end - start + 1, e - s + 1);
  }

  /** A task whose end is before its start, both inside the window, gets a width of zero or less. */
  lemma ReversedTaskWidth(s: int, e: int, start: int, end: int)
    requires s <= end < start <= e
    ensures TaskPosition(DaysFrom(s, e), start, end).width <= 0.0
  {
    FindInWindow(s, e, start);
    FindInWindow(s, e, end);
    NonPositiveShare(end - start + 1, e - s + 1);
  }

  lemma NonPositiveShare(a: int, n: int)
    requires a <= 0 < n
    ensures (a as real) / (n as real) * 100.0 <= 0.0
  {
    assert (a as real) / (n as real) <= 0.0;
  }

  /** A task starting before the window or ending after it is not drawn. */
  lemma PositionOutside(s: int, e: int, start: int, end: int)
    requires start < s || end > e
    ensures TaskPosition(DaysFrom(s, e), start, end) == Position(0.0, 0.0)
  {
    var r := DaysFrom(s, e);
    if start in r {
      var i :| 0 <= i < |r| && r[i] == start;
    }
    if end in r {
      var i :| 0 <= i < |r| && r[i] == end;
    }
  }
}

=== FILE: gantt_view.dfy ===
/**
 * The chart's own view state: the tasks it shows, the tasks hidden from
 * view, and the set of tasks whose sub-tasks are unfolded; and the list of
 * rows the chart draws from them.
 */
module GanttView {
  import opened JsText
  import opened Domain
  import opened Lists

  /** One drawn row: a task, one of its sub-tasks (with its position), or the row that adds a sub-task. */
  datatype DisplayRow = MainRow(task: Task) | SubRow(task: Task, subTask: SubTask, index: nat) | AddSubRow(task: Task)

  /** The position of the first task with this id, or `|tasks|` when there is none. */
  function TaskIndex(tasks: seq<Task>, id: string): (k: nat)
    ensures k <= |tasks|
    ensures forall j :: 0 <= j < k ==> tasks[j].id != id
    ensures k < |tasks| ==> tasks[k].id == id
  {
    if tasks == [] then 0
    else if tasks[0].id == id then 0
    else TaskIndex(tasks[1..], id) + 1
  }

  function NotTask(id: string): Task -> bool {
    (t: Task) => t.id != id
  }

  /** The expanded set after a click on the bar of task `id`. */
  function Toggle(expanded: set<string>, id: string): (r: set<string>)
    ensures id in r <==> id !in expanded
    ensures forall x :: x != id ==> (x in r <==> x in expanded)
  {
    if id in expanded then expanded - {id} else expanded + {id}
  }

  /** Two clicks on the same bar leave the expanded set as it was. */
  lemma ToggleTwice(expanded: set<string>, id: string)
    ensures Toggle(Toggle(expanded, id), id) == expanded
  {
  }

  /** Clicks on different bars commute. */
  lemma ToggleCommutes(expanded: set<string>, a: string, b: string)
    ensures Toggle(Toggle(expanded, a), b) == Toggle(Toggle(expanded, b), a)
  {
  }

  /** The rows of one sub-task list, from position `from` on. */
  function SubRowsFrom(t: Task, from: nat): (r: seq<DisplayRow>)
    requires from <= |t.subTasks|
    ensures |r| == |t.subTasks| - from
    decreases |t.subTasks| - from
  {
    if from == |t.subTasks| then [] else [SubRow(t, t.subTasks[from], from)] + SubRowsFrom(t, from + 1)
  }

  /** The rows of one task: its main row, then, when it is expanded, its sub-tasks and the add row. */
  function TaskRows(t: Task, expanded: set<string>): seq<DisplayRow> {
    [MainRow(t)] + (if t.id in expanded then SubRowsFrom(t, 0) + [AddSubRow(t)] else [])
  }

  /** The rows of a list of tasks. */
  function DisplayRows(tasks: seq<Task>, expanded: set<string>): seq<DisplayRow> {
    if tasks == [] then [] else DisplayRows(tasks[..|tasks| - 1], expanded) + TaskRows(tasks[|tasks| - 1], expanded)
  }

  /** How many rows the expanded tasks add: their sub-tasks and one add row each. */
  function ExtraRows(tasks: seq<Task>, expanded: set<string>): nat {
    if tasks == [] then 0
    else ExtraRows(tasks[..|tasks| - 1], expanded) +
         (if tasks[|tasks| - 1].id in expanded then |tasks[|tasks| - 1].subTasks| + 1 else 0)
  }

  /** The main rows of some rows, in order. */
  function MainTasks(rows: seq<DisplayRow>): seq<Task> {
    if rows == [] then []
    else MainTasks(rows[..|rows| - 1]) + (if rows[|rows| - 1].MainRow? then [rows[|rows| - 1].task] else [])
  }

  class ChartView {
    var tasks: seq<Task>
    var hiddenTasks: seq<Task>
    var expandedTasks: set<string>

    /** The chart opened on these tasks: nothing hidden, nothing expanded. */
    constructor(initialTasks: seq<Task>)
      ensures tasks == initialTasks && hiddenTasks == [] && expandedTasks == {}
    {
      tasks, hiddenTasks, expandedTasks := initialTasks, [], {};
    }

    /** New tasks from the parent replace the shown ones; hidden and expanded tasks stay as they are. */
    method SetInitialTasks(initialTasks: seq<Task>)
      modifies this
      ensures tasks == initialTasks && hiddenTasks == old(hiddenTasks) && expandedTasks == old(expandedTasks)
    {
      tasks := initialTasks;
    }

    /** `handleTaskBarClick`: unfolds a folded task, folds an unfolded one. */
    method HandleTaskBarClick(taskId: string)
      modifies this
      ensures expandedTasks == Toggle(old(expandedTasks), taskId)
      ensures tasks == old(tasks) && hiddenTasks == old(hiddenTasks)
    {
      var newExpandedTasks := expandedTasks;
      if taskId in expandedTasks {
        newExpandedTasks := newExpandedTasks - {taskId};
      } else {
        newExpandedTasks := newExpandedTasks + {taskId};
      }
      expandedTasks := newExpandedTasks;
    }

    /**
     * `hideMainTask`: the first task with this id goes to the end of the
     * hidden list, every task with this id leaves the shown list, and it is
     * folded; an unknown id changes nothing.
     */
    method HideMainTask(taskId: string)
      modifies this
      ensures TaskIndex(old(tasks), taskId) == |old(tasks)| ==>
                tasks == old(tasks) && hiddenTasks == old(hiddenTasks) && expandedTasks == old(expandedTasks)
      ensures TaskIndex(old(tasks), taskId) < |old(tasks)| ==>
                hiddenTasks == old(hiddenTasks) + [old(tasks)[TaskIndex(old(tasks), taskId)]] &&
                tasks == Filter(old(tasks), NotTask(taskId)) &&
                expandedTasks == old(expandedTasks) - {taskId}
    {
      var k := TaskIndex(tasks, taskId);
      if k == |tasks| {
        return;
      }
      var taskToHide := tasks[k];
      hiddenTasks := hiddenTasks + [taskToHide];
      tasks := Filter(tasks, NotTask(taskId));
      expandedTasks := expandedTasks - {taskId};
    }

    /**
     * `showTask`: the first hidden task with this id goes to the end of the
     * shown list and every hidden task with this id leaves the hidden list;
     * an unknown id changes nothing.
     */
    method ShowTask(taskId: string)
      modifies this
      ensures expandedTasks == old(expandedTasks)
      ensures TaskIndex(old(hiddenTasks), taskId) == |old(hiddenTasks)| ==>
                tasks == old(tasks) && hiddenTasks == old(hiddenTasks)
      ensures TaskIndex(old(hiddenTasks), taskId) < |old(hiddenTasks)| ==>
                tasks == old(tasks) + [old(hiddenTasks)[TaskIndex(old(hiddenTasks), taskId)]] &&
                hiddenTasks == Filter(old(hiddenTasks), NotTask(taskId))
    {
      var k := TaskIndex(hiddenTasks, taskId);
      if k == |hiddenTasks| {
        return;
      }
      var taskToShow := hiddenTasks[k];
      tasks := tasks + [taskToShow];
      hiddenTasks := Filter(hiddenTasks, NotTask(taskId));
    }

    /** `getDisplayTasks`: the rows, built by walking the tasks and the sub-tasks of the expanded ones. */
    method GetDisplayTasks() returns (displayTasks: seq<DisplayRow>)
      ensures displayTasks == DisplayRows(tasks, expandedTasks)
    {
      displayTasks := [];
      for i := 0 to |tasks|
        invariant displayTasks == DisplayRows(tasks[..i], expandedTasks)
      {
        var task := tasks[i];
        assert tasks[..i + 1][..i] == tasks[..i];
        ghost var before := displayTasks;
        displayTasks := displayTasks + [MainRow(task)];
        if task.id in expandedTasks {
          for j := 0 to |task.subTasks|
            invariant displayTasks + SubRowsFrom(task, j) == before + [MainRow(task)] + SubRowsFrom(task, 0)
          {
            assert SubRowsFrom(task, j) == [SubRow(task, task.subTasks[j], j)] + SubRowsFrom(task, j + 1);
            displayTasks := displayTasks + [SubRow(task, task.subTasks[j], j)];
          }
          assert displayTasks == before + [MainRow(task)] + SubRowsFrom(task, 0);
          displayTasks := displayTasks + [AddSubRow(task)];
          assert displayTasks == before + TaskRows(task, expandedTasks);
        } else {
          assert displayTasks == before + TaskRows(task, expandedTasks);
        }
      }
      assert tasks[..|tasks|] == tasks;
    }
  }

  // ---------------------------------------------------------------------------
  // The rows

  /** One row per task, plus the sub-tasks and an add row for each expanded task. */
  lemma {:induction false} DisplayRowCount(tasks: seq<Task>, expanded: set<string>)
    ensures |DisplayRows(tasks, expanded)| == |tasks| + ExtraRows(tasks, expanded)
  {
    if tasks != [] {
      DisplayRowCount(tasks[..|tasks| - 1], expanded);
    }
  }

  lemma {:induction false} MainTasksAppend(a: seq<DisplayRow>, b: seq<DisplayRow>)
    ensures MainTasks(a + b) == MainTasks(a) + MainTasks(b)
    decreases |b|
  {
    if b == [] {
      assert a + b == a;
    } else {
      MainTasksAppend(a, b[..|b| - 1]);
      assert (a + b)[..|a + b| - 1] == a + b[..|b| - 1];
    }
  }

  lemma {:induction false} NoMainInSubRows(t: Task, from: nat)
    requires from <= |t.subTasks|
    ensures MainTasks(SubRowsFrom(t, from)) == []
    decreases |t.subTasks| - from
  {
    if from < |t.subTasks| {
      NoMainInSubRows(t, from + 1);
      MainTasksAppend([SubRow(t, t.subTasks[from], from)], SubRowsFrom(t, from + 1));
    }
  }

  /** The main rows are the tasks, each once and in order, whatever is expanded. */
  lemma {:induction false} MainRowsAreTasks(tasks: seq<Task>, expanded: set<string>)
    ensures MainTasks(DisplayRows(tasks, expanded)) == tasks
  {
    if tasks != [] {
      var init, t := tasks[..|tasks| - 1], tasks[|tasks| - 1];
      MainRowsAreTasks(init, expanded);
      MainTasksAppend(DisplayRows(init, expanded), TaskRows(t, expanded));
      MainTasksAppend([MainRow(t)], if t.id in expanded then SubRowsFrom(t, 0) + [AddSubRow(t)] else []);
      if t.id in expanded {
        NoMainInSubRows(t, 0);
        MainTasksAppend(SubRowsFrom(t, 0), [AddSubRow(t)]);
      }
      assert tasks == init + [t];
    }
  }

  /** Sub-task row `k` of a task shows its `k`-th sub-task. */
  lemma {:induction false} SubRowAt(t: Task, from: nat, k: nat)
    requires from <= k < |t.subTasks|
    ensures SubRowsFrom(t, from)[k - from] == SubRow(t, t.subTasks[k], k)
    decreases k - from
  {
    if k > from {
      SubRowAt(t, from + 1, k);
    }
  }

  /** With nothing expanded the chart draws exactly one main row per task. */
  lemma {:induction false} NothingExpanded(tasks: seq<Task>)
    ensures |DisplayRows(tasks, {})| == |tasks|
    ensures forall i :: 0 <= i < |tasks| ==> DisplayRows(tasks, {})[i] == MainRow(tasks[i])
  {
    if tasks != [] {
      NothingExpanded(tasks[..|tasks| - 1]);
    }
  }

  // ---------------------------------------------------------------------------
  // Hide and show

  /**
   * Hiding a task and showing it again does not undo the hide: the task comes
   * back at the end of the list, folded, and the hidden list is as before.
   */
  lemma HideThenShow(tasks: seq<Task>, hidden: seq<Task>, k: nat)
    requires k < |tasks|
    requires forall i :: 0 <= i < |hidden| ==> hidden[i].id != tasks[k].id
    requires TaskIndex(tasks, tasks[k].id) == k
    ensures var id := tasks[k].id;
            var hidden' := hidden + [tasks[k]];
            TaskIndex(hidden', id) == |hidden| &&
            Filter(hidden', NotTask(id)) == hidden
  {
    var id := tasks[k].id;
    var hidden' := hidden + [tasks[k]];
    assert hidden'[..|hidden|] == hidden;
    HiddenIndex(hidden, tasks[k]);
    FilterAll(hidden, NotTask(id));
  }

  lemma {:induction false} HiddenIndex(hidden: seq<Task>, t: Task)
    requires forall i :: 0 <= i < |hidden| ==> hidden[i].id != t.id
    ensures TaskIndex(hidden + [t], t.id) == |hidden|
  {
    if hidden != [] {
      assert (hidden + [t])[1..] == hidden[1..] + [t];
      HiddenIndex(hidden[1..], t);
    }
  }

  /** Hiding removes every task with the id from the shown list and keeps all others, in order. */
  lemma HiddenGone(tasks: seq<Task>, id: string)
    ensures forall t :: t in Filter(tasks, NotTask(id)) ==> t in tasks && t.id != id
    ensures forall t :: t in tasks && t.id != id ==> t in Filter(tasks, NotTask(id))
  {
    FilterSpec(tasks, NotTask(id));
  }
}

=== FILE: js_text.dfy ===
/**
 * The few JavaScript string operations the application relies on, written out
 * over `seq<char>`: `String.prototype.trim`, `String.prototype.startsWith`,
 * `String.prototype.replace` with a string pattern, `parseInt` (section 19.2.5
 * of ECMA-262) and the decimal rendering of a non-negative integer inside a
 * template literal.
 */
module JsText {

  datatype Option<+T> = None | Some(value: T)

  /** WhiteSpace and LineTerminator code points (sections 12.2 and 12.3 of ECMA-262). */
  predicate IsWhiteSpace(c: char) {
    c == '\t' || c == '\n' || c == '\U{0B}' || c == '\U{0C}' || c == '\r' || c == ' '
    || c == '\U{A0}' || c == '\U{1680}' || ('\U{2000}' <= c <= '\U{200A}')
    || c == '\U{2028}' || c == '\U{2029}' || c == '\U{202F}' || c == '\U{205F}'
    || c == '\U{3000}' || c == '\U{FEFF}'
  }

  predicate AllWhiteSpace(s: string) {
    forall i :: 0 <= i < |s| ==> IsWhiteSpace(s[i])
  }

  /** Drops the leading white space; the result is a suffix of `s`. */
  function TrimStart(s: string): (r: string)
    ensures |r| <= |s| && r == s[|s| - |r|..]
    ensures AllWhiteSpace(s[..|s| - |r|])
    ensures r != [] ==> !IsWhiteSpace(r[0])
  {
    if s != [] && IsWhiteSpace(s[0]) then
      var r := TrimStart(s[1..]);
      assert s[..|s| - |r|] == [s[0]] + s[1..][..|s| - 1 - |r|];
      r
    else s
  }

  /** Drops the trailing white space; the result is a prefix of `s`. */
  function TrimEnd(s: string): (r: string)
    ensures |r| <= |s| && r == s[..|r|]
    ensures AllWhiteSpace(s[|r|..])
    ensures r != [] ==> !IsWhiteSpace(r[|r| - 1])
  {
    if s != [] && IsWhiteSpace(s[|s| - 1]) then
      var r := TrimEnd(s[..|s| - 1]);
      assert s[|r|..] == s[..|s| - 1][|r|..] + [s[|s| - 1]];
      r
    else s
  }

  /** `String.prototype.trim`. */
  function Trim(s: string): (r: string)
    ensures |r| <= |s|
    ensures r != [] ==> !IsWhiteSpace(r[0]) && !IsWhiteSpace(r[|r| - 1])
    ensures r == [] <==> AllWhiteSpace(s)
    ensures IsSlice(s, |s| - |TrimStart(s)|, r)
  {
    TrimEmptyIff(s);
    TrimEnd(TrimStart(s))
  }

  predicate IsSlice(s: string, k: int, r: string) {
    0 <= k <= |s| - |r| && r == s[k..k + |r|]
  }

  lemma {:induction false} TrimStartEmptyIff(s: string)
    ensures TrimStart(s) == [] <==> AllWhiteSpace(s)
  {
    var t := TrimStart(s);
    var k := |s| - |t|;
    if t == [] {
      assert s[..k] == s;
    } else {
      assert t[0] == s[k];
    }
  }

  lemma SliceOfSuffix(s: string, k: nat, n: nat)
    requires k + n <= |s|
    ensures s[k..][..n] == s[k..k + n]
  {
  }

  lemma {:induction false} TrimEmptyIff(s: string)
    ensures TrimEnd(TrimStart(s)) == [] <==> AllWhiteSpace(s)
    ensures TrimEnd(TrimStart(s)) != [] ==> TrimEnd(TrimStart(s))[0] == TrimStart(s)[0]
    ensures IsSlice(s, |s| - |TrimStart(s)|, TrimEnd(TrimStart(s)))
  {
    TrimStartEmptyIff(s);
    var t := TrimStart(s);
    var r := TrimEnd(t);
    var k := |s| - |t|;
    assert t == s[k..];
    assert r == t[..|r|];
    SliceOfSuffix(s, k, |r|);
  }

  function StartsWith(s: string, prefix: string): bool {
    |prefix| <= |s| && s[..|prefix|] == prefix
  }

  predicate OccursAt(s: string, pat: string, i: nat) {
    i + |pat| <= |s| && s[i..i + |pat|] == pat
  }

  /** The first position at or after `from` where `pat` occurs. */
  function IndexOfFrom(s: string, pat: string, from: nat): (r: Option<nat>)
    decreases |s| - from
    ensures r.Some? ==> from <= r.value && OccursAt(s, pat, r.value)
    ensures r.Some? ==> forall j :: from <= j < r.value ==> !OccursAt(s, pat, j)
    ensures r.None? ==> forall j :: from <= j ==> !OccursAt(s, pat, j)
  {
    if from + |pat| > |s| then None
    else if s[from..from + |pat|] == pat then Some(from)
    else IndexOfFrom(s, pat, from + 1)
  }

  /** `s.replace(pat, rep)` with a string pattern: only the first occurrence is replaced. */
  function ReplaceFirst(s: string, pat: string, rep: string): string {
    match IndexOfFrom(s, pat, 0)
    case None => s
    case Some(i) => s[..i] + rep + s[i + |pat|..]
  }

  // ---------------------------------------------------------------------------
  // Decimal rendering of non-negative integers (`${n}`)

  function DigitChar(d: nat): char
    requires d < 10
  {
    (('0' as int) + d) as char
  }

  /** The shortest decimal rendering of `n`, as `String(n)` produces it. */
  function NatToString(n: nat): (r: string)
    ensures |r| >= 1 && (forall i :: 0 <= i < |r| ==> '0' <= r[i] <= '9')
    ensures r[0] == '0' ==> n == 0 && r == "0"
  {
    if n < 10 then [DigitChar(n)] else NatToString(n / 10) + [DigitChar(n % 10)]
  }

  // ---------------------------------------------------------------------------
  // parseInt (section 19.2.5 of ECMA-262, radix argument omitted)

  /** The value of `c` as a digit in base `radix` (10 or 16), or -1. */
  function DigitValue(c: char, radix: nat): int {
    if '0' <= c <= '9' then (c as int) - ('0' as int)
    else if radix == 16 && 'a' <= c <= 'f' then (c as int) - ('a' as int) + 10
    else if radix == 16 && 'A' <= c <= 'F' then (c as int) - ('A' as int) + 10
    else -1
  }

  predicate IsDigit(c: char, radix: nat) { DigitValue(c, radix) >= 0 }

  /** Length of the longest prefix of `s` made of digits of `radix`. */
  function DigitRun(s: string, radix: nat): (n: nat)
    ensures n <= |s|
    ensures forall i :: 0 <= i < n ==> IsDigit(s[i], radix)
    ensures n < |s| ==> !IsDigit(s[n], radix)
  {
    if s == [] || !IsDigit(s[0], radix) then 0 else 1 + DigitRun(s[1..], radix)
  }

  function DigitsValue(z: string, radix: nat): int
    requires forall i :: 0 <= i < |z| ==> IsDigit(z[i], radix)
  {
    if z == [] then 0
    else DigitsValue(z[..|z| - 1], radix) * radix + DigitValue(z[|z| - 1], radix)
  }

  /** The value of the longest run of `radix` digits at the start of `v`, or NaN. */
  function ParseDigits(v: string, radix: nat): Option<int> {
    var n := DigitRun(v, radix);
    if n == 0 then None else Some(DigitsValue(v[..n], radix))
  }

  /** After the sign: a `0x`/`0X` prefix selects base 16, otherwise base 10. */
  function ParseUnsigned(u: string): Option<int> {
    if StartsWith(u, "0x") || StartsWith(u, "0X") then ParseDigits(u[2..], 16)
    else ParseDigits(u, 10)
  }

  function ParseSigned(t: string): Option<int> {
    if t != [] && t[0] == '-' then
      match ParseUnsigned(t[1..])
      case None => None
      case Some(v) => Some(-v)
    else if t != [] && t[0] == '+' then ParseUnsigned(t[1..])
    else ParseUnsigned(t)
  }

  /**
   * `parseInt(s)`; `None` stands for NaN. Negative zero is returned as 0, which
   * every caller here treats alike (both are falsy).
   */
  function ParseInt(s: string): Option<int> {
    ParseSigned(TrimStart(s))
  }

  lemma {:induction false} NatToStringValue(n: nat)
    ensures DigitsValue(NatToString(n), 10) == n
  {
    if n >= 10 {
      NatToStringValue(n / 10);
      var r := NatToString(n);
      assert r[..|r| - 1] == NatToString(n / 10);
    }
  }

  lemma DigitRunAll(s: string, radix: nat)
    requires forall i :: 0 <= i < |s| ==> IsDigit(s[i], radix)
    ensures DigitRun(s, radix) == |s|
  {
  }

  lemma ParseUnsignedOfNatToString(n: nat)
    ensures ParseUnsigned(NatToString(n)) == Some(n)
  {
    var r := NatToString(n);
    assert r[0] == '0' ==> |r| == 1;
    assert !StartsWith(r, "0x") && !StartsWith(r, "0X");
    DigitRunAll(r, 10);
    assert r[..|r|] == r;
    NatToStringValue(n);
  }

  /** `parseInt(String(n))` gives `n` back: the decimal rendering round-trips. */
  lemma ParseIntOfNatToString(n: nat)
    ensures ParseInt(NatToString(n)) == Some(n)
  {
    var r := NatToString(n);
    assert !IsWhiteSpace(r[0]);
    assert TrimStart(r) == r;
    ParseUnsignedOfNatToString(n);
  }

  /** `parseInt("-" + String(n))` gives `-n`. */
  lemma ParseIntOfNegative(n: nat)
    ensures ParseInt("-" + NatToString(n)) == Some(0 - n as int)
  {
    var s := "-" + NatToString(n);
    assert TrimStart(s) == s;
    assert s[1..] == NatToString(n);
    ParseUnsignedOfNatToString(n);
  }

  /** A string without any digit at its start (after white space and sign) is NaN. */
  lemma ParseIntEmpty()
    ensures ParseInt("") == None
    ensures ParseInt("abc") == None
  {
    assert DigitRun("", 10) == 0;
    assert ParseUnsigned("") == None;
    var t := "abc";
    assert !IsWhiteSpace(t[0]) && !IsDigit(t[0], 10);
    assert TrimStart(t) == t;
    assert !StartsWith(t, "0x") && !StartsWith(t, "0X");
    assert DigitRun(t, 10) == 0;
    assert ParseUnsigned(t) == None;
  }

  /** Two different numbers never render alike. */
  lemma {:induction false} NatToStringInjective(a: nat, b: nat)
    requires NatToString(a) == NatToString(b)
    ensures a == b
  {
    NatToStringValue(a);
    NatToStringValue(b);
  }

  /** `a + x == a + y` forces `x == y`. */
  lemma PrefixCancel(a: string, x: string, y: string)
    requires a + x == a + y
    ensures x == y
  {
    assert x == (a + x)[|a|..];
    assert y == (a + y)[|a|..];
  }

  /** Position of the first `c` in `s`, or `|s|` when there is none. */
  function CharIndex(s: string, c: char): (k: nat)
    ensures k <= |s| && c !in s[..k]
    ensures k < |s| ==> s[k] == c
  {
    if s == [] then 0
    else if s[0] == c then 0
    else
      var k := CharIndex(s[1..], c);
      assert s[..k + 1] == [s[0]] + s[1..][..k];
      k + 1
  }

  lemma {:induction false} CharIndexOfSplit(a: string, b: string, c: char)
    requires c !in a
    ensures CharIndex(a + [c] + b, c) == |a|
  {
    if a != [] {
      assert (a + [c] + b)[1..] == a[1..] + [c] + b;
      CharIndexOfSplit(a[1..], b, c);
    }
  }

  /** Splitting at the first separator: `a + [c] + b == a' + [c] + b'` with `c` in neither `a` nor `a'`. */
  lemma SplitAtSeparator(a: string, b: string, a': string, b': string, c: char)
    requires c !in a && c !in a'
    requires a + [c] + b == a' + [c] + b'
    ensures a == a' && b == b'
  {
    var s := a + [c] + b;
    CharIndexOfSplit(a, b, c);
    CharIndexOfSplit(a', b', c);
    assert a == s[..|a|] == a';
    assert b == s[|a| + 1..] == b';
  }
}

=== FILE: lists.dfy ===
/** `Array.prototype.filter` on sequences, and what it keeps. */
module Lists {

  /** The elements of `s` for which `keep` holds, in order. */
  function Filter<T>(s: seq<T>, keep: T -> bool): seq<T> {
    if s == [] then []
    else Filter(s[..|s| - 1], keep) + (if keep(s[|s| - 1]) then [s[|s| - 1]] else [])
  }

  /** Every kept element is in `s` and satisfies `keep`, and every such element is kept. */
  lemma {:induction false} FilterSpec<T>(s: seq<T>, keep: T -> bool)
    ensures forall x :: x in Filter(s, keep) ==> x in s && keep(x)
    ensures forall x :: x in s && keep(x) ==> x in Filter(s, keep)
    ensures |Filter(s, keep)| <= |s|
  {
    if s != [] {
      var init, last := s[..|s| - 1], s[|s| - 1];
      FilterSpec(init, keep);
      assert s == init + [last];
    }
  }

  /** When every element satisfies `keep`, the filter changes nothing. */
  lemma {:induction false} FilterAll<T>(s: seq<T>, keep: T -> bool)
    requires forall i :: 0 <= i < |s| ==> keep(s[i])
    ensures Filter(s, keep) == s
  {
    if s != [] {
      FilterAll(s[..|s| - 1], keep);
      assert s == s[..|s| - 1] + [s[|s| - 1]];
    }
  }

  /** Filtering keeps order: a sequence whose keys strictly increase still has strictly increasing keys. */
  lemma {:induction false} FilterIncreasing<T>(s: seq<T>, keep: T -> bool, key: T -> int)
    requires forall i, j :: 0 <= i < j < |s| ==> key(s[i]) < key(s[j])
    ensures var f := Filter(s, keep);
            forall i, j :: 0 <= i < j < |f| ==> key(f[i]) < key(f[j])
  {
    if s != [] {
      var init, last := s[..|s| - 1], s[|s| - 1];
      FilterIncreasing(init, keep, key);
      FilterSpec(init, keep);
      var f := Filter(init, keep);
      forall i | 0 <= i < |f|
        ensures key(f[i]) < key(last)
      {
        assert f[i] in f;
        assert f[i] in init;
        var m :| 0 <= m < |init| && init[m] == f[i];
        assert s[m] == init[m] && s[|s| - 1] == last;
      }
      assert s == init + [last];
    }
  }

  /** Filtering a concatenation filters each part. */
  lemma {:induction false} FilterConcat<T>(a: seq<T>, b: seq<T>, keep: T -> bool)
    ensures Filter(a + b, keep) == Filter(a, keep) + Filter(b, keep)
    decreases |b|
  {
    if b != [] {
      var init, last := b[..|b| - 1], b[|b| - 1];
      FilterConcat(a, init, keep);
      assert b == init + [last];
      assert a + b == (a + init) + [last];
      assert (a + b)[..|a + b| - 1] == a + init;
      assert (a + b)[|a + b| - 1] == last;
      assert Filter(a + b, keep) == Filter(a + init, keep) + (if keep(last) then [last] else []);
      assert Filter(b, keep) == Filter(init, keep) + (if keep(last) then [last] else []);
    } else {
      assert a + b == a;
    }
  }

  /** `Array.prototype.map`. */
  function Map<A, B>(s: seq<A>, f: A -> B): (r: seq<B>)
    ensures |r| == |s|
  {
    seq(|s|, i requires 0 <= i < |s| => f(s[i]))
  }

  /** When `f` decides `keep` the same way `keep'` decides its image, mapping and filtering commute. */
  lemma {:induction false} FilterMap<A, B>(s: seq<A>, f: A -> B, keep: A -> bool, keep': B -> bool)
    requires forall i :: 0 <= i < |s| ==> keep(s[i]) == keep'(f(s[i]))
    ensures Map(Filter(s, keep), f) == Filter(Map(s, f), keep')
  {
    if s != [] {
      var init, last := s[..|s| - 1], s[|s| - 1];
      FilterMap(init, f, keep, keep');
      var m := Map(s, f);
      assert m[..|m| - 1] == Map(init, f);
      assert m[|m| - 1] == f(last);
      var kept := Filter(init, keep);
      if keep(last) {
        assert Map(kept + [last], f) == Map(kept, f) + [f(last)];
      }
    }
  }

  /** The positions of the elements of `s` that `keep` keeps, in increasing order. */
  function KeptIndices<T>(s: seq<T>, keep: T -> bool): seq<nat> {
    if s == [] then []
    else KeptIndices(s[..|s| - 1], keep) + (if keep(s[|s| - 1]) then [|s| - 1] else [])
  }

  /** Each kept position is a position of `s` whose element satisfies `keep`. */
  lemma {:induction false} KeptIndicesSound<T>(s: seq<T>, keep: T -> bool)
    ensures forall k :: 0 <= k < |KeptIndices(s, keep)| ==>
              KeptIndices(s, keep)[k] < |s| && keep(s[KeptIndices(s, keep)[k]])
  {
    if s != [] {
      var init := s[..|s| - 1];
      KeptIndicesSound(init, keep);
      var ix0 := KeptIndices(init, keep);
      var tail: seq<nat> := if keep(s[|s| - 1]) then [|s| - 1] else [];
      assert KeptIndices(s, keep) == ix0 + tail;
      forall k | 0 <= k < |ix0 + tail|
        ensures (ix0 + tail)[k] < |s| && keep(s[(ix0 + tail)[k]])
      {
        if k < |ix0| {
          assert (ix0 + tail)[k] == ix0[k];
          assert s[ix0[k]] == init[ix0[k]];
        } else {
          assert (ix0 + tail)[k] == |s| - 1;
        }
      }
    }
  }

  /** The kept positions strictly increase. */
  lemma {:induction false} KeptIndicesIncreasing<T>(s: seq<T>, keep: T -> bool)
    ensures forall k, l :: 0 <= k < l < |KeptIndices(s, keep)| ==> KeptIndices(s, keep)[k] < KeptIndices(s, keep)[l]
  {
    if s != [] {
      var init := s[..|s| - 1];
      KeptIndicesIncreasing(init, keep);
      KeptIndicesSound(init, keep);
      var ix0 := KeptIndices(init, keep);
      var tail: seq<nat> := if keep(s[|s| - 1]) then [|s| - 1] else [];
      assert KeptIndices(s, keep) == ix0 + tail;
      forall k, l | 0 <= k < l < |ix0 + tail|
        ensures (ix0 + tail)[k] < (ix0 + tail)[l]
      {
        assert (ix0 + tail)[k] == ix0[k];
        if l < |ix0| {
          assert (ix0 + tail)[l] == ix0[l];
        } else {
          assert (ix0 + tail)[l] == |s| - 1;
        }
      }
    }
  }

  /** Every position whose element satisfies `keep` is kept. */
  lemma {:induction false} KeptIndicesComplete<T>(s: seq<T>, keep: T -> bool)
    ensures forall j :: 0 <= j < |s| && keep(s[j]) ==> j in KeptIndices(s, keep)
  {
    if s != [] {
      var init := s[..|s| - 1];
      KeptIndicesComplete(init, keep);
      var ix0 := KeptIndices(init, keep);
      var tail: seq<nat> := if keep(s[|s| - 1]) then [|s| - 1] else [];
      assert KeptIndices(s, keep) == ix0 + tail;
      forall j | 0 <= j < |s| && keep(s[j])
        ensures j in ix0 + tail
      {
        if j < |s| - 1 {
          assert s[j] == init[j];
          assert j in ix0;
        } else {
          assert j in tail;
        }
      }
    }
  }

  /** Element `k` of the filter is the element at the `k`-th kept position. */
  lemma {:induction false} FilterAtKept<T>(s: seq<T>, keep: T -> bool)
    ensures |KeptIndices(s, keep)| == |Filter(s, keep)|
    ensures forall k :: 0 <= k < |KeptIndices(s, keep)| && KeptIndices(s, keep)[k] < |s| ==>
              Filter(s, keep)[k] == s[KeptIndices(s, keep)[k]]
  {
    if s != [] {
      var init, last := s[..|s| - 1], s[|s| - 1];
      FilterAtKept(init, keep);
      KeptIndicesSound(init, keep);
      var f0, ix0 := Filter(init, keep), KeptIndices(init, keep);
      var ftail: seq<T> := if keep(last) then [last] else [];
      var itail: seq<nat> := if keep(last) then [|s| - 1] else [];
      assert Filter(s, keep) == f0 + ftail;
      assert KeptIndices(s, keep) == ix0 + itail;
      forall k | 0 <= k < |ix0 + itail| && (ix0 + itail)[k] < |s|
        ensures (f0 + ftail)[k] == s[(ix0 + itail)[k]]
      {
        if k < |ix0| {
          assert (ix0 + itail)[k] == ix0[k];
          assert (f0 + ftail)[k] == f0[k] == init[ix0[k]];
        } else {
          assert (ix0 + itail)[k] == |s| - 1;
          assert (f0 + ftail)[k] == last;
        }
      }
    }
  }

  /**
   * The filter takes the kept positions in increasing order: element `k` of
   * the result is the element at the `k`-th kept position, and every position
   * whose element satisfies `keep` is among them. So the result is `s` with
   * exactly the other elements removed, in the order of `s`.
   */
  lemma FilterIndices<T>(s: seq<T>, keep: T -> bool)
    ensures var f, ix := Filter(s, keep), KeptIndices(s, keep);
            |ix| == |f| &&
            (forall k :: 0 <= k < |ix| ==> ix[k] < |s| && keep(s[ix[k]]) && f[k] == s[ix[k]]) &&
            (forall k, l :: 0 <= k < l < |ix| ==> ix[k] < ix[l]) &&
            (forall j :: 0 <= j < |s| && keep(s[j]) ==> j in ix)
  {
    KeptIndicesSound(s, keep);
    KeptIndicesIncreasing(s, keep);
    KeptIndicesComplete(s, keep);
    FilterAtKept(s, keep);
  }

  /** The filter keeps every element that satisfies `keep` as often as it occurs, and no other. */
  lemma {:induction false} FilterMultiset<T>(s: seq<T>, keep: T -> bool)
    ensures forall x :: multiset(Filter(s, keep))[x] == if keep(x) then multiset(s)[x] else 0
  {
    if s != [] {
      var init, last := s[..|s| - 1], s[|s| - 1];
      FilterMultiset(init, keep);
      assert s == init + [last];
    }
  }

  /** When no element satisfies `keep`, nothing is kept. */
  lemma {:induction false} FilterNone<T>(s: seq<T>, keep: T -> bool)
    requires forall i :: 0 <= i < |s| ==> !keep(s[i])
    ensures Filter(s, keep) == []
  {
    if s != [] {
      FilterNone(s[..|s| - 1], keep);
    }
  }
}

=== FILE: merge.dfy ===
/**
 * How a category chart combines the template tasks of its bucket with the
 * live tasks of the store. A template task whose name some live task already
 * has is dropped, so the live one wins; the template tasks come first. The
 * training chart sorts each side by order index (missing: 9999 for template
 * tasks, 10000 for live ones) in place; the promotion chart does not sort.
 */
module Merge {
  import opened Domain
  import opened OrderSort
  import opened Lists

  const TemplateMissing: int := 9999
  const LiveMissing: int := 10000

  /** The sort key of a task: its order index, or `missing` when it has none. */
  function OrderKey(missing: int): Task -> int {
    (t: Task) => if t.orderIndex.Some? then t.orderIndex.value else missing
  }

  /** `sheetTasks[category] || []`. */
  function BucketOr(buckets: map<string, seq<Task>>, category: string): seq<Task> {
    if category in buckets then buckets[category] else []
  }

  /** `new Set(live.map(task => task.name))`. */
  function LiveNames(live: seq<Task>): set<string> {
    set t | t in live :: t.name
  }

  /** The test a template task passes when no live task has its name. */
  function NameNotIn(names: set<string>): Task -> bool {
    (t: Task) => t.name !in names
  }

  /** `template.filter(task => !names.has(task.name))`. */
  function WithoutLiveNames(template: seq<Task>, names: set<string>): seq<Task> {
    Filter(template, NameNotIn(names))
  }

  /**
   * The template tasks that survive are those of the bucket whose names no
   * live task has, each as often as in the bucket and in bucket order: the
   * survivors are the bucket's tasks at the increasing positions
   * `KeptIndices`, which are exactly the positions of tasks with such a name.
   */
  lemma WithoutLiveNamesSpec(template: seq<Task>, names: set<string>)
    ensures forall t :: t in WithoutLiveNames(template, names) <==> t in template && t.name !in names
    ensures forall t :: multiset(WithoutLiveNames(template, names))[t] ==
                          if t.name in names then 0 else multiset(template)[t]
    ensures var f, ix := WithoutLiveNames(template, names), KeptIndices(template, NameNotIn(names));
            |ix| == |f| <= |template| &&
            (forall k :: 0 <= k < |ix| ==> ix[k] < |template| && f[k] == template[ix[k]] && f[k].name !in names) &&
            (forall k, l :: 0 <= k < l < |ix| ==> ix[k] < ix[l]) &&
            (forall j :: 0 <= j < |template| && template[j].name !in names ==> j in ix)
  {
    var keep := NameNotIn(names);
    FilterSpec(template, keep);
    FilterMultiset(template, keep);
    FilterIndices(template, keep);
  }

  /** With no live names nothing is dropped. */
  lemma NothingLiveKeepsAll(template: seq<Task>)
    ensures WithoutLiveNames(template, {}) == template
  {
    FilterAll(template, NameNotIn({}));
  }

  // ---------------------------------------------------------------------------
  // Training

  /** The training chart's combined list, for a bucket and the live tasks as fetched. */
  function TrainingCombined(bucket: seq<Task>, live: seq<Task>): seq<Task> {
    SortByOrder(WithoutLiveNames(bucket, LiveNames(live)), OrderKey(TemplateMissing)) + SortByOrder(live, OrderKey(LiveMissing))
  }

  /**
   * The training merge effect: both sorts work in place, and the live one
   * reorders the hook's own array. The loading flag is set when either source
   * is still loading.
   */
  method MergeTraining(buckets: map<string, seq<Task>>, live: array<Task>, liveLoading: bool, sheetLoading: bool)
      returns (combined: seq<Task>, loading: bool)
    modifies live
    ensures live[..] == SortByOrder(old(live[..]), OrderKey(LiveMissing))
    ensures combined == TrainingCombined(BucketOr(buckets, Training), old(live[..]))
    ensures loading == (liveLoading || sheetLoading)
  {
    var categorySheetTasks := BucketOr(buckets, Training);
    var names := LiveNames(live[..]);
    var filtered := WithoutLiveNames(categorySheetTasks, names);
    var sheet := new Task[|filtered|](i requires 0 <= i < |filtered| => filtered[i]);
    assert sheet[..] == filtered;
    SortInPlace(sheet, OrderKey(TemplateMissing));
    SortInPlace(live, OrderKey(LiveMissing));
    combined := sheet[..] + live[..];
    loading := liveLoading || sheetLoading;
  }

  /** The combined list is the sorted surviving template tasks followed by the sorted live tasks. */
  lemma TrainingSegments(bucket: seq<Task>, live: seq<Task>)
    ensures var f := WithoutLiveNames(bucket, LiveNames(live));
            var r := TrainingCombined(bucket, live);
            |r| == |f| + |live| &&
            r[..|f|] == SortByOrder(f, OrderKey(TemplateMissing)) && r[|f|..] == SortByOrder(live, OrderKey(LiveMissing))
  {
    var f := WithoutLiveNames(bucket, LiveNames(live));
    SortPermutes(f, OrderKey(TemplateMissing));
    SortPermutes(live, OrderKey(LiveMissing));
    var a := SortByOrder(f, OrderKey(TemplateMissing));
    assert |a| == |f| by { assert |multiset(a)| == |multiset(f)|; }
    assert |SortByOrder(live, OrderKey(LiveMissing))| == |live| by {
      assert |multiset(SortByOrder(live, OrderKey(LiveMissing)))| == |multiset(live)|;
    }
  }

  /**
   * Training, template part: it holds the surviving template tasks, each as
   * often as they survive, every one from the bucket and named unlike every
   * live task, whatever the order indices; it is sorted by order index (9999
   * when missing), and tasks of equal index keep their bucket order.
   */
  lemma TrainingTemplatePart(bucket: seq<Task>, live: seq<Task>)
    ensures var f := WithoutLiveNames(bucket, LiveNames(live));
            var r := TrainingCombined(bucket, live);
            |f| <= |r| &&
            multiset(r[..|f|]) == multiset(f) &&
            (forall i :: 0 <= i < |f| ==> r[i] in bucket && r[i].name !in LiveNames(live)) &&
            SortedBy(r[..|f|], OrderKey(TemplateMissing)) &&
            (forall k :: WithKey(r[..|f|], k, OrderKey(TemplateMissing)) == WithKey(f, k, OrderKey(TemplateMissing)))
  {
    var f := WithoutLiveNames(bucket, LiveNames(live));
    var r := TrainingCombined(bucket, live);
    TrainingSegments(bucket, live);
    var a := r[..|f|];
    SortPermutes(f, OrderKey(TemplateMissing));
    SortSorted(f, OrderKey(TemplateMissing));
    WithoutLiveNamesSpec(bucket, LiveNames(live));
    forall i | 0 <= i < |f|
      ensures r[i] in bucket && r[i].name !in LiveNames(live)
    {
      assert r[i] == a[i];
      assert a[i] in multiset(f);
    }
    forall k
      ensures WithKey(a, k, OrderKey(TemplateMissing)) == WithKey(f, k, OrderKey(TemplateMissing))
    {
      SortStable(f, k, OrderKey(TemplateMissing));
    }
  }

  /**
   * Training, live part: after the template part come all live tasks, each
   * as often as fetched, sorted by order index (10000 when missing), tasks of
   * equal index in fetch order.
   */
  lemma TrainingLivePart(bucket: seq<Task>, live: seq<Task>)
    ensures var f := WithoutLiveNames(bucket, LiveNames(live));
            var r := TrainingCombined(bucket, live);
            |f| <= |r| &&
            multiset(r[|f|..]) == multiset(live) &&
            SortedBy(r[|f|..], OrderKey(LiveMissing)) &&
            (forall k :: WithKey(r[|f|..], k, OrderKey(LiveMissing)) == WithKey(live, k, OrderKey(LiveMissing)))
  {
    TrainingSegments(bucket, live);
    SortPermutes(live, OrderKey(LiveMissing));
    SortSorted(live, OrderKey(LiveMissing));
    forall k
      ensures WithKey(SortByOrder(live, OrderKey(LiveMissing)), k, OrderKey(LiveMissing)) == WithKey(live, k, OrderKey(LiveMissing))
    {
      SortStable(live, k, OrderKey(LiveMissing));
    }
  }

  /** Without any order index the training chart keeps the bucket's order and then the fetch order. */
  lemma TrainingWithoutIndices(bucket: seq<Task>, live: seq<Task>)
    requires forall i :: 0 <= i < |bucket| ==> bucket[i].orderIndex.None?
    requires forall i :: 0 <= i < |live| ==> live[i].orderIndex.None?
    ensures TrainingCombined(bucket, live) == WithoutLiveNames(bucket, LiveNames(live)) + live
  {
    var f := WithoutLiveNames(bucket, LiveNames(live));
    WithoutLiveNamesSpec(bucket, LiveNames(live));
    assert forall i :: 0 <= i < |f| ==> f[i] in bucket;
    NoIndexKeepsOrder(f, TemplateMissing);
    NoIndexKeepsOrder(live, LiveMissing);
  }

  /** With no order index anywhere every key is the default, so the order is kept. */
  lemma NoIndexKeepsOrder(s: seq<Task>, missing: int)
    requires forall i :: 0 <= i < |s| ==> s[i].orderIndex.None?
    ensures SortByOrder(s, OrderKey(missing)) == s
  {
    SortKeepsSorted(s, OrderKey(missing));
  }

  /** A missing bucket contributes nothing: the training chart shows the live tasks, sorted. */
  lemma TrainingMissingBucket(buckets: map<string, seq<Task>>, live: seq<Task>)
    requires Training !in buckets
    ensures TrainingCombined(BucketOr(buckets, Training), live) == SortByOrder(live, OrderKey(LiveMissing))
  {
    var bucket := BucketOr(buckets, Training);
    assert bucket == [];
    var f := WithoutLiveNames(bucket, LiveNames(live));
    assert f == Filter([], NameNotIn(LiveNames(live))) == [];
    assert SortByOrder(f, OrderKey(TemplateMissing)) == [];
  }

  // ---------------------------------------------------------------------------
  // Promotion

  /** The promotion chart's merge effect: surviving template tasks, then the live tasks, nothing sorted. */
  function PromotionMerge(buckets: map<string, seq<Task>>, live: seq<Task>, liveLoading: bool, sheetLoading: bool)
      : (r: (seq<Task>, bool))
    ensures r.1 <==> liveLoading || sheetLoading
  {
    (WithoutLiveNames(BucketOr(buckets, Promotion), LiveNames(live)) + live, liveLoading || sheetLoading)
  }

  /**
   * Promotion: the list is the surviving template tasks, in bucket order and
   * each as often as in the bucket, followed by the live tasks in fetch
   * order. The template part is the bucket's tasks at the increasing
   * positions `KeptIndices`, which are exactly the positions of tasks no live
   * task shares a name with.
   */
  lemma PromotionMergeSpec(buckets: map<string, seq<Task>>, live: seq<Task>, liveLoading: bool, sheetLoading: bool)
    ensures var r := PromotionMerge(buckets, live, liveLoading, sheetLoading).0;
            var bucket := BucketOr(buckets, Promotion);
            var ix := KeptIndices(bucket, NameNotIn(LiveNames(live)));
            |r| == |ix| + |live| && |ix| <= |bucket| &&
            r[|ix|..] == live &&
            (forall k :: 0 <= k < |ix| ==> ix[k] < |bucket| && r[k] == bucket[ix[k]] && r[k].name !in LiveNames(live)) &&
            (forall k, l :: 0 <= k < l < |ix| ==> ix[k] < ix[l]) &&
            (forall j :: 0 <= j < |bucket| && bucket[j].name !in LiveNames(live) ==> j in ix) &&
            (forall t :: multiset(r[..|ix|])[t] == if t.name in LiveNames(live) then 0 else multiset(bucket)[t])
  {
    var bucket := BucketOr(buckets, Promotion);
    var f := WithoutLiveNames(bucket, LiveNames(live));
    WithoutLiveNamesSpec(bucket, LiveNames(live));
    var r := f + live;
    assert r[..|f|] == f && r[|f|..] == live;
  }

  /** A missing bucket leaves just the live tasks. */
  lemma PromotionMissingBucket(buckets: map<string, seq<Task>>, live: seq<Task>, liveLoading: bool, sheetLoading: bool)
    requires Promotion !in buckets
    ensures PromotionMerge(buckets, live, liveLoading, sheetLoading).0 == live
  {
  }
}

=== FILE: order_sort.dfy ===
/**
 * Sorting by an integer key, as `Array.prototype.sort` does with a
 * comparator `(a, b) => key(a) - key(b)`. Such a comparator is consistent and
 * that sort is stable (section 23.1.3.30 of ECMA-262, 2023 edition), so the
 * result is the stable sort by the key: here an insertion sort, as a function
 * and as the in-place method over an array.
 */
module OrderSort {
  predicate SortedBy<T>(s: seq<T>, key: T -> int) {
    forall i, j :: 0 <= i < j < |s| ==> key(s[i]) <= key(s[j])
  }

  /** `x` placed after every element whose key is not larger than its own, counted from the back. */
  function Insert<T>(x: T, s: seq<T>, key: T -> int): seq<T>
    decreases |s|
  {
    if s == [] || key(s[|s| - 1]) <= key(x) then s + [x]
    else Insert(x, s[..|s| - 1], key) + [s[|s| - 1]]
  }

  /** The stable sort of `s` by key. */
  function SortByOrder<T>(s: seq<T>, key: T -> int): seq<T> {
    if s == [] then []
    else Insert(s[|s| - 1], SortByOrder(s[..|s| - 1], key), key)
  }

  /** The elements of `s` whose key is `k`, in order. */
  function WithKey<T>(s: seq<T>, k: int, key: T -> int): seq<T> {
    if s == [] then []
    else WithKey(s[..|s| - 1], k, key) + (if key(s[|s| - 1]) == k then [s[|s| - 1]] else [])
  }

  // ---------------------------------------------------------------------------
  // Sorted, a permutation, stable

  lemma {:induction false} InsertPermutes<T>(x: T, s: seq<T>, key: T -> int)
    ensures multiset(Insert(x, s, key)) == multiset(s) + multiset{x}
    decreases |s|
  {
    if s != [] && key(s[|s| - 1]) > key(x) {
      var init, last := s[..|s| - 1], s[|s| - 1];
      InsertPermutes(x, init, key);
      assert s == init + [last];
    }
  }

  lemma SortedAppend<T>(s: seq<T>, y: T, key: T -> int)
    requires SortedBy(s, key)
    requires forall i :: 0 <= i < |s| ==> key(s[i]) <= key(y)
    ensures SortedBy(s + [y], key)
  {
  }

  lemma {:induction false} InsertSorted<T>(x: T, s: seq<T>, key: T -> int)
    requires SortedBy(s, key)
    ensures SortedBy(Insert(x, s, key), key)
    decreases |s|
  {
    if s == [] || key(s[|s| - 1]) <= key(x) {
      SortedAppend(s, x, key);
    } else {
      var init, last := s[..|s| - 1], s[|s| - 1];
      InsertSorted(x, init, key);
      InsertPermutes(x, init, key);
      var t := Insert(x, init, key);
      forall i | 0 <= i < |t|
        ensures key(t[i]) <= key(last)
      {
        assert t[i] in multiset(init) + multiset{x};
      }
      SortedAppend(t, last, key);
    }
  }

  /** The sort's result is ordered by key. */
  lemma {:induction false} SortSorted<T>(s: seq<T>, key: T -> int)
    ensures SortedBy(SortByOrder(s, key), key)
  {
    if s != [] {
      SortSorted(s[..|s| - 1], key);
      InsertSorted(s[|s| - 1], SortByOrder(s[..|s| - 1], key), key);
    }
  }

  /** The sort's result holds the same tasks, each as often. */
  lemma {:induction false} SortPermutes<T>(s: seq<T>, key: T -> int)
    ensures multiset(SortByOrder(s, key)) == multiset(s)
  {
    if s != [] {
      var init, last := s[..|s| - 1], s[|s| - 1];
      SortPermutes(init, key);
      InsertPermutes(last, SortByOrder(init, key), key);
      assert s == init + [last];
    }
  }

  lemma WithKeyAppend<T>(s: seq<T>, y: T, k: int, key: T -> int)
    ensures WithKey(s + [y], k, key) == WithKey(s, k, key) + WithKey([y], k, key)
  {
    assert (s + [y])[..|s|] == s;
  }

  lemma {:induction false} InsertStable<T>(x: T, s: seq<T>, k: int, key: T -> int)
    ensures WithKey(Insert(x, s, key), k, key) == WithKey(s, k, key) + WithKey([x], k, key)
    decreases |s|
  {
    if s == [] || key(s[|s| - 1]) <= key(x) {
      WithKeyAppend(s, x, k, key);
    } else {
      var init, last := s[..|s| - 1], s[|s| - 1];
      var t := Insert(x, init, key);
      assert s == init + [last];
      assert Insert(x, s, key) == t + [last];
      InsertStable(x, init, k, key);
      WithKeyAppend(t, last, k, key);
      WithKeyAppend(init, last, k, key);
      WithKeyOneOfTwo(x, last, k, key);
    }
  }

  /** Two tasks with different keys: at most one of them has key `k`. */
  lemma WithKeyOneOfTwo<T>(x: T, y: T, k: int, key: T -> int)
    requires key(x) < key(y)
    ensures WithKey([x], k, key) == [] || WithKey([y], k, key) == []
  {
    assert [x][..0] == [] && [y][..0] == [];
  }

  /** Elements with equal keys keep their relative order: the sort changes no key's run of tasks. */
  lemma {:induction false} SortStable<T>(s: seq<T>, k: int, key: T -> int)
    ensures WithKey(SortByOrder(s, key), k, key) == WithKey(s, k, key)
  {
    if s != [] {
      var init, last := s[..|s| - 1], s[|s| - 1];
      SortStable(init, k, key);
      InsertStable(last, SortByOrder(init, key), k, key);
      WithKeyAppend(init, last, k, key);
      assert s == init + [last];
    }
  }

  /** An already ordered list is left as it is. */
  lemma {:induction false} SortKeepsSorted<T>(s: seq<T>, key: T -> int)
    requires SortedBy(s, key)
    ensures SortByOrder(s, key) == s
  {
    if s != [] {
      var init, last := s[..|s| - 1], s[|s| - 1];
      assert SortedBy(init, key) by {
        forall i, j | 0 <= i < j < |init|
          ensures key(init[i]) <= key(init[j])
        {
          assert init[i] == s[i] && init[j] == s[j];
        }
      }
      SortKeepsSorted(init, key);
      assert init == [] || key(init[|init| - 1]) <= key(last);
      assert Insert(last, init, key) == init + [last];
      assert s == init + [last];
    }
  }

  // ---------------------------------------------------------------------------
  // In place

  /** `array.sort((a, b) => key(a) - key(b))`: insertion sort over the array itself. */
  method SortInPlace<T>(a: array<T>, key: T -> int)
    modifies a
    ensures a[..] == SortByOrder(old(a[..]), key)
  {
    ghost var original := a[..];
    for i := 0 to a.Length
      invariant a[..i] == SortByOrder(original[..i], key)
      invariant a[i..] == original[i..]
    {
      assert original[..i + 1][..i] == original[..i];
      assert a[i] == original[i] && a[i + 1..] == original[i + 1..];
      InsertLast(a, i, key);
    }
    assert original[..a.Length] == original;
  }

  /** Moves `a[i]` back past the larger keys before it: the prefix `a[..i + 1]` becomes `Insert(a[i], a[..i])`. */
  method InsertLast<T>(a: array<T>, i: int, key: T -> int)
    requires 0 <= i < a.Length
    modifies a
    ensures a[..i + 1] == Insert(old(a[i]), old(a[..i]), key)
    ensures a[i + 1..] == old(a[i + 1..])
  {
    var x := a[i];
    ghost var sorted := a[..i];
    var j := i;
    while j > 0 && key(a[j - 1]) > key(x)
      invariant 0 <= j <= i
      invariant forall k :: 0 <= k < j ==> a[k] == sorted[k]
      invariant forall k :: j < k <= i ==> a[k] == sorted[k - 1]
      invariant forall k :: i < k < a.Length ==> a[k] == old(a[k])
      invariant forall k :: j <= k < i ==> key(sorted[k]) > key(x)
      decreases j
    {
      a[j] := a[j - 1];
      j := j - 1;
    }
    a[j] := x;
    InsertAt(x, sorted, j, key);
    assert a[..i + 1] == sorted[..j] + [x] + sorted[j..];
  }

  /** `x` lands at `j` when the keys before `j` are not larger than its own and those from `j` on are. */
  lemma {:induction false} InsertAt<T>(x: T, s: seq<T>, j: int, key: T -> int)
    requires 0 <= j <= |s|
    requires j == 0 || key(s[j - 1]) <= key(x)
    requires forall k :: j <= k < |s| ==> key(s[k]) > key(x)
    ensures Insert(x, s, key) == s[..j] + [x] + s[j..]
    decreases |s|
  {
    if j < |s| {
      var init := s[..|s| - 1];
      assert init[..j] == s[..j];
      InsertAt(x, init, j, key);
      assert s[j..] == init[j..] + [s[|s| - 1]];
    }
  }
}

=== FILE: people.dfy ===
/**
 * The people of the application: the `people` table, the hook that fetches
 * it, writes to it and follows its change events, and the colour classes a
 * person's background colour gives rise to.
 */
module People {
  import opened JsText
  import opened Domain
  import opened Lists
  import opened StoreCalls

  datatype PersonRow = PersonRow(key: nat, firstName: string, lastName: string, bgColor: string, textColor: string)

  /** The background and text colour every added person gets. */
  const DefaultBgColor: string := "bg-blue-600"
  const DefaultTextColor: string := "text-blue-700"

  /**
   * The combined colour classes: the background class with its first `-600`
   * turned into `-100`, then a border class and a text class made of the
   * background class without its first `bg-`, with the first `-600` turned
   * into `-200` and `-800`.
   */
  function ColorOf(bg: string): string {
    var shade := ReplaceFirst(bg, "bg-", "");
    ReplaceFirst(ReplaceFirst(bg, "bg-", "bg-"), "-600", "-100") +
    " border-" + ReplaceFirst(shade, "-600", "-200") +
    " text-" + ReplaceFirst(shade, "-600", "-800")
  }

  /** A row as the hook holds it. */
  function ToPerson(r: PersonRow): Person {
    Person(RowId(r.key), r.firstName, r.lastName, ColorOf(r.bgColor), r.bgColor, r.textColor)
  }

  /** The fetched list: every row, oldest first. */
  function Fetched(rows: seq<PersonRow>): (r: seq<Person>)
    ensures |r| == |rows|
  {
    seq(|rows|, i requires 0 <= i < |rows| => ToPerson(rows[i]))
  }

  /** Keys increase along the table and lie below the counter. */
  ghost predicate KeysIncreasing(rows: seq<PersonRow>, next: nat) {
    (forall i, j :: 0 <= i < j < |rows| ==> rows[i].key < rows[j].key) &&
    (forall i :: 0 <= i < |rows| ==> rows[i].key < next)
  }

  function NotPerson(id: string): Person -> bool {
    (p: Person) => p.id != id
  }

  function NotRow(id: string): PersonRow -> bool {
    (r: PersonRow) => RowId(r.key) != id
  }

  /** `update({ first_name, last_name }).eq("id", id)`: the names only. */
  function RenameRows(rows: seq<PersonRow>, id: string, firstName: string, lastName: string): (r: seq<PersonRow>)
    ensures |r| == |rows|
  {
    seq(|rows|, i requires 0 <= i < |rows| =>
      if RowId(rows[i].key) == id then rows[i].(firstName := firstName, lastName := lastName) else rows[i])
  }

  /** A change event of the `people` table, as the realtime channel delivers it. */
  datatype Change = Inserted(row: PersonRow) | Updated(row: PersonRow) | Deleted(id: string) | OtherChange

  class RealtimePeople {
    var rows: seq<PersonRow>
    var nextKey: nat
    var people: seq<Person>
    var loading: bool
    var error: Option<string>

    ghost predicate Valid()
      reads this
    {
      KeysIncreasing(rows, nextKey)
    }

    /** The hook mounted over a table holding these rows: nobody yet, loading, no error. */
    constructor(rows: seq<PersonRow>, next: nat)
      requires KeysIncreasing(rows, next)
      ensures Valid()
      ensures this.rows == rows && nextKey == next && people == [] && loading && error == None
    {
      this.rows, nextKey := rows, next;
      people, loading, error := [], true, None;
    }

    /** `fetchPeople`: on success the list is the whole table in creation order; on failure it is kept. */
    method FetchPeople(fault: Fault)
      modifies this
      ensures rows == old(rows) && nextKey == old(nextKey) && !loading
      ensures !Fails(fault, 0) ==> people == Fetched(rows) && error == old(error)
      ensures Fails(fault, 0) ==> people == old(people) && error == Some(Message(fault.thrown, "Unknown error"))
    {
      loading := true;
      if Fails(fault, 0) {
        error := Some(Message(fault.thrown, "Unknown error"));
      } else {
        people := Fetched(rows);
      }
      loading := false;
    }

    /** `addPerson`: a new row with the given names and the default blue colours. */
    method AddPerson(firstName: string, lastName: string, fault: Fault) returns (r: Outcome<PersonRow>)
      requires Valid()
      modifies this
      ensures Valid()
      ensures people == old(people) && loading == old(loading)
      ensures Fails(fault, 0) ==>
                r == Threw(fault.thrown) && rows == old(rows) && nextKey == old(nextKey) &&
                error == Some(Message(fault.thrown, "Failed to add person"))
      ensures !Fails(fault, 0) ==>
                r == Done(PersonRow(old(nextKey), firstName, lastName, DefaultBgColor, DefaultTextColor)) &&
                rows == old(rows) + [r.value] && nextKey == old(nextKey) + 1 && error == old(error)
    {
      if Fails(fault, 0) {
        error := Some(Message(fault.thrown, "Failed to add person"));
        r := Threw(fault.thrown);
      } else {
        var row := PersonRow(nextKey, firstName, lastName, DefaultBgColor, DefaultTextColor);
        rows, nextKey := rows + [row], nextKey + 1;
        r := Done(row);
      }
    }

    /** `updatePerson`: writes the two names of the row with this id and nothing else. */
    method UpdatePerson(id: string, firstName: string, lastName: string, fault: Fault) returns (failure: Option<Thrown>)
      requires Valid()
      modifies this
      ensures Valid()
      ensures people == old(people) && loading == old(loading) && nextKey == old(nextKey)
      ensures failure.None? <==> !Fails(fault, 0)
      ensures failure.None? ==> rows == RenameRows(old(rows), id, firstName, lastName) && error == old(error)
      ensures failure.Some? ==> failure.value == fault.thrown && rows == old(rows) &&
                                error == Some(Message(failure.value, "Failed to update person"))
    {
      if Fails(fault, 0) {
        failure := Some(fault.thrown);
        error := Some(Message(fault.thrown, "Failed to update person"));
      } else {
        var renamed := RenameRows(rows, id, firstName, lastName);
        assert forall i :: 0 <= i < |renamed| ==> renamed[i].key == rows[i].key;
        rows := renamed;
        failure := None;
      }
    }

    /** `deletePerson`: removes the row with this id. */
    method DeletePerson(id: string, fault: Fault) returns (failure: Option<Thrown>)
      requires Valid()
      modifies this
      ensures Valid()
      ensures people == old(people) && loading == old(loading) && nextKey == old(nextKey)
      ensures failure.None? <==> !Fails(fault, 0)
      ensures failure.None? ==> rows == Filter(old(rows), NotRow(id)) && error == old(error)
      ensures failure.Some? ==> failure.value == fault.thrown && rows == old(rows) &&
                                error == Some(Message(failure.value, "Failed to delete person"))
    {
      if Fails(fault, 0) {
        failure := Some(fault.thrown);
        error := Some(Message(fault.thrown, "Failed to delete person"));
      } else {
        DeleteKeepsKeys(rows, nextKey, id);
        rows := Filter(rows, NotRow(id));
        failure := None;
      }
    }

    /**
     * The change handler: an insert appends the person, an update replaces
     * every person with the row's id, a delete removes every person with the
     * id, and any other event changes nothing.
     */
    method OnChange(e: Change)
      modifies this
      ensures rows == old(rows) && nextKey == old(nextKey) && loading == old(loading) && error == old(error)
      ensures e.Inserted? ==> people == old(people) + [ToPerson(e.row)]
      ensures e.Updated? ==>
                |people| == |old(people)| &&
                forall i :: 0 <= i < |people| ==>
                  people[i] == if old(people)[i].id == RowId(e.row.key) then ToPerson(e.row) else old(people)[i]
      ensures e.Deleted? ==> people == Filter(old(people), NotPerson(e.id))
      ensures e.OtherChange? ==> people == old(people)
    {
      match e
      case Inserted(row) =>
        people := people + [ToPerson(row)];
      case Updated(row) =>
        people := Replaced(people, ToPerson(row));
      case Deleted(id) =>
        people := Filter(people, NotPerson(id));
      case OtherChange =>
    }
  }

  /** `prev.map(person => person.id === updated.id ? updated : person)`. */
  function Replaced(people: seq<Person>, updated: Person): (r: seq<Person>)
    ensures |r| == |people|
  {
    seq(|people|, i requires 0 <= i < |people| => if people[i].id == updated.id then updated else people[i])
  }

  lemma DeleteKeepsKeys(rows: seq<PersonRow>, next: nat, id: string)
    requires KeysIncreasing(rows, next)
    ensures KeysIncreasing(Filter(rows, NotRow(id)), next)
  {
    var f := Filter(rows, NotRow(id));
    FilterSpec(rows, NotRow(id));
    FilterIncreasing(rows, NotRow(id), (r: PersonRow) => r.key);
    forall i | 0 <= i < |f| ensures f[i].key < next {
      assert f[i] in rows;
    }
  }

  // ---------------------------------------------------------------------------
  // The events keep the list in step with the table

  /** After an insert, the insert event turns the old fetch into the new one. */
  lemma InsertEventMatchesFetch(rows: seq<PersonRow>, row: PersonRow)
    ensures Fetched(rows + [row]) == Fetched(rows) + [ToPerson(row)]
  {
  }

  /** After a rename, the update event carrying the renamed row turns the old fetch into the new one. */
  lemma UpdateEventMatchesFetch(rows: seq<PersonRow>, next: nat, i: nat, firstName: string, lastName: string)
    requires KeysIncreasing(rows, next) && i < |rows|
    ensures var renamed := RenameRows(rows, RowId(rows[i].key), firstName, lastName);
            Fetched(renamed) == Replaced(Fetched(rows), ToPerson(renamed[i]))
  {
    var id := RowId(rows[i].key);
    var renamed := RenameRows(rows, id, firstName, lastName);
    forall j | 0 <= j < |rows|
      ensures Fetched(renamed)[j] == Replaced(Fetched(rows), ToPerson(renamed[i]))[j]
    {
      if RowId(rows[j].key) == id {
        NatToStringInjective(rows[j].key, rows[i].key);
      }
    }
  }

  /** After a delete, the delete event turns the old fetch into the new one. */
  lemma DeleteEventMatchesFetch(rows: seq<PersonRow>, id: string)
    ensures Fetched(Filter(rows, NotRow(id))) == Filter(Fetched(rows), NotPerson(id))
  {
    var kept := Filter(rows, NotRow(id));
    assert Fetched(rows) == Map(rows, ToPerson);
    assert Fetched(kept) == Map(kept, ToPerson);
    FilterMap(rows, ToPerson, NotRow(id), NotPerson(id));
  }

  /** An insert event followed by a delete event for the same, new id leaves the list as it was. */
  lemma InsertThenDelete(people: seq<Person>, p: Person)
    requires forall i :: 0 <= i < |people| ==> people[i].id != p.id
    ensures Filter(people + [p], NotPerson(p.id)) == people
  {
    assert (people + [p])[..|people|] == people;
    FilterAll(people, NotPerson(p.id));
  }

  /** A delete event removes every person with the id and keeps every other one. */
  lemma DeleteEventSpec(people: seq<Person>, id: string)
    ensures forall p :: p in Filter(people, NotPerson(id)) ==> p in people && p.id != id
    ensures forall p :: p in people && p.id != id ==> p in Filter(people, NotPerson(id))
  {
    FilterSpec(people, NotPerson(id));
  }

  /** Replacing twice with the same person is replacing once; the ids stay where they were. */
  lemma ReplacedTwice(people: seq<Person>, updated: Person)
    ensures Replaced(Replaced(people, updated), updated) == Replaced(people, updated)
    ensures forall i :: 0 <= i < |people| ==> Replaced(people, updated)[i].id == people[i].id
  {
  }

  // ---------------------------------------------------------------------------
  // Colours

  lemma ReplaceFirstAt(s: string, pat: string, rep: string, i: nat)
    requires OccursAt(s, pat, i)
    requires forall j :: 0 <= j < i ==> !OccursAt(s, pat, j)
    ensures ReplaceFirst(s, pat, rep) == s[..i] + rep + s[i + |pat|..]
  {
    var r := IndexOfFrom(s, pat, 0);
    assert r.Some?;
  }

  /** A pattern found only at the very end is replaced there. */
  lemma ReplaceAtEnd(s: string, pat: string, rep: string)
    requires |pat| <= |s| && s[|s| - |pat|..] == pat
    requires forall j :: 0 <= j < |s| - |pat| ==> !OccursAt(s, pat, j)
    ensures ReplaceFirst(s, pat, rep) == s[..|s| - |pat|] + rep
  {
    ReplaceFirstAt(s, pat, rep, |s| - |pat|);
  }

  /** A pattern does not occur where one of its characters is missing. */
  lemma NoMatchAt(s: string, pat: string, j: nat, k: nat)
    requires k < |pat| && j + |pat| <= |s| && s[j + k] != pat[k]
    ensures !OccursAt(s, pat, j)
  {
    assert s[j..j + |pat|][k] == s[j + k];
  }

  predicate Lowercase(x: string) {
    forall k :: 0 <= k < |x| ==> 'a' <= x[k] <= 'z'
  }

  /** The leading `bg-` is replaced by itself, or dropped. */
  lemma BgPrefix(x: string)
    ensures ReplaceFirst("bg-" + x + "-600", "bg-", "bg-") == "bg-" + x + "-600"
    ensures ReplaceFirst("bg-" + x + "-600", "bg-", "") == x + "-600"
  {
    var bg := "bg-" + x + "-600";
    assert bg[..3] == "bg-";
    ReplaceFirstAt(bg, "bg-", "bg-", 0);
    ReplaceFirstAt(bg, "bg-", "", 0);
    assert bg[3..] == x + "-600";
  }

  /** In `bg-X-600`, the first `-600` is the last one. */
  lemma BgShade(x: string, rep: string)
    requires Lowercase(x)
    ensures ReplaceFirst("bg-" + x + "-600", "-600", rep) == "bg-" + x + rep
  {
    var bg := "bg-" + x + "-600";
    assert bg[|bg| - 4..] == "-600";
    forall j | 0 <= j < |bg| - 4 ensures !OccursAt(bg, "-600", j) {
      if j >= 3 {
        assert bg[j] == x[j - 3];
        NoMatchAt(bg, "-600", j, 0);
      } else if j == 2 {
        assert bg[3] == (x + "-600")[0];
        NoMatchAt(bg, "-600", j, 1);
      } else {
        NoMatchAt(bg, "-600", j, 0);
      }
    }
    ReplaceAtEnd(bg, "-600", rep);
    assert bg[..|bg| - 4] == "bg-" + x;
  }

  /** In `X-600`, the first `-600` is the last one. */
  lemma NameShade(x: string, rep: string)
    requires Lowercase(x)
    ensures ReplaceFirst(x + "-600", "-600", rep) == x + rep
  {
    var s := x + "-600";
    assert s[|s| - 4..] == "-600";
    forall j | 0 <= j < |s| - 4 ensures !OccursAt(s, "-600", j) {
      assert s[j] == x[j];
    }
    ReplaceAtEnd(s, "-600", rep);
    assert s[..|s| - 4] == x;
  }

  /**
   * For a background class `bg-X-600` whose colour name `X` is lowercase
   * letters, the colour classes are `bg-X-100 border-X-200 text-X-800`.
   */
  lemma ColorOfShade(x: string)
    requires Lowercase(x)
    ensures ColorOf("bg-" + x + "-600") == ("bg-" + x + "-100") + (" border-" + x + "-200") + (" text-" + x + "-800")
  {
    BgPrefix(x);
    BgShade(x, "-100");
    NameShade(x, "-200");
    NameShade(x, "-800");
  }

  lemma BlueClasses()
    ensures Lowercase("blue")
    ensures DefaultBgColor == "bg-" + "blue" + "-600"
    ensures "bg-" + "blue" + "-100" == "bg-blue-100"
    ensures " border-" + "blue" + "-200" == " border-blue-200"
    ensures " text-" + "blue" + "-800" == " text-blue-800"
  {
  }

  /** Every added person shows as `bg-blue-100 border-blue-200 text-blue-800`. */
  lemma AddedPersonColor(row: PersonRow)
    requires row.bgColor == DefaultBgColor
    ensures ToPerson(row).color == "bg-blue-100" + " border-blue-200" + " text-blue-800"
  {
    BlueClasses();
    ColorOfShade("blue");
  }
}

=== FILE: projects.dfy ===
/**
 * The projects of the application: the `projects` table, the hook that
 * fetches it newest first, writes to it and follows its change events.
 */
module Projects {
  import opened JsText
  import opened Domain
  import opened Lists
  import opened StoreCalls

  /** A row; `openDate` is `None` where the column holds `null`. */
  datatype ProjectRow = ProjectRow(key: nat, name: string, openDate: Option<int>)

  /** A row as the hook holds it: a `null` open date becomes an absent one. */
  function ToProject(r: ProjectRow): Project {
    Project(RowId(r.key), r.name, r.openDate)
  }

  /** The fetched list: every row, newest first. */
  function Fetched(rows: seq<ProjectRow>): (r: seq<Project>)
    ensures |r| == |rows|
  {
    seq(|rows|, i requires 0 <= i < |rows| => ToProject(rows[|rows| - 1 - i]))
  }

  ghost predicate KeysIncreasing(rows: seq<ProjectRow>, next: nat) {
    (forall i, j :: 0 <= i < j < |rows| ==> rows[i].key < rows[j].key) &&
    (forall i :: 0 <= i < |rows| ==> rows[i].key < next)
  }

  /** The fields of `Partial<Project>` that `updateProject` looks at. */
  datatype ProjectUpdate = ProjectUpdate(name: Option<string>, openDate: Option<int>)

  /** `updateData`: the name only when non-empty, the open date only when given. */
  function ApplyProjectUpdate(r: ProjectRow, u: ProjectUpdate): ProjectRow {
    r.(name := if u.name.Some? && u.name.value != "" then u.name.value else r.name,
       openDate := if u.openDate.Some? then u.openDate else r.openDate)
  }

  function UpdateRows(rows: seq<ProjectRow>, id: string, u: ProjectUpdate): (r: seq<ProjectRow>)
    ensures |r| == |rows|
  {
    seq(|rows|, i requires 0 <= i < |rows| => if RowId(rows[i].key) == id then ApplyProjectUpdate(rows[i], u) else rows[i])
  }

  function NotRow(id: string): ProjectRow -> bool {
    (r: ProjectRow) => RowId(r.key) != id
  }

  function NotProject(id: string): Project -> bool {
    (p: Project) => p.id != id
  }

  /** `prev.map(project => project.id === updated.id ? updated : project)`. */
  function Replaced(projects: seq<Project>, updated: Project): (r: seq<Project>)
    ensures |r| == |projects|
  {
    seq(|projects|, i requires 0 <= i < |projects| => if projects[i].id == updated.id then updated else projects[i])
  }

  /** A change event of the `projects` table. */
  datatype Change = Inserted(row: ProjectRow) | Updated(row: ProjectRow) | Deleted(id: string) | OtherChange

  class RealtimeProjects {
    var rows: seq<ProjectRow>
    var nextKey: nat
    var projects: seq<Project>
    var loading: bool
    var error: Option<string>

    ghost predicate Valid()
      reads this
    {
      KeysIncreasing(rows, nextKey)
    }

    constructor(rows: seq<ProjectRow>, next: nat)
      requires KeysIncreasing(rows, next)
      ensures Valid()
      ensures this.rows == rows && nextKey == next && projects == [] && loading && error == None
    {
      this.rows, nextKey := rows, next;
      projects, loading, error := [], true, None;
    }

    /** `fetchProjects`: on success the whole table, newest first; on failure the list is kept. */
    method FetchProjects(fault: Fault)
      modifies this
      ensures rows == old(rows) && nextKey == old(nextKey) && !loading
      ensures !Fails(fault, 0) ==> projects == Fetched(rows) && error == old(error)
      ensures Fails(fault, 0) ==> projects == old(projects) && error == Some(Message(fault.thrown, "Unknown error"))
    {
      loading := true;
      if Fails(fault, 0) {
        error := Some(Message(fault.thrown, "Unknown error"));
      } else {
        projects := Fetched(rows);
      }
      loading := false;
    }

    /** `addProject`: a row with the name only, so no open date. */
    method AddProject(name: string, fault: Fault) returns (r: Outcome<ProjectRow>)
      requires Valid()
      modifies this
      ensures Valid()
      ensures projects == old(projects) && loading == old(loading)
      ensures Fails(fault, 0) ==>
                r == Threw(fault.thrown) && rows == old(rows) && nextKey == old(nextKey) &&
                error == Some(Message(fault.thrown, "Failed to add project"))
      ensures !Fails(fault, 0) ==>
                r == Done(ProjectRow(old(nextKey), name, None)) &&
                rows == old(rows) + [r.value] && nextKey == old(nextKey) + 1 && error == old(error)
    {
      if Fails(fault, 0) {
        error := Some(Message(fault.thrown, "Failed to add project"));
        r := Threw(fault.thrown);
      } else {
        var row := ProjectRow(nextKey, name, None);
        rows, nextKey := rows + [row], nextKey + 1;
        r := Done(row);
      }
    }

    /** `updateProject`: the fields `updateData` carries, on the row with this id. */
    method UpdateProject(id: string, updates: ProjectUpdate, fault: Fault) returns (failure: Option<Thrown>)
      requires Valid()
      modifies this
      ensures Valid()
      ensures projects == old(projects) && loading == old(loading) && nextKey == old(nextKey)
      ensures failure.None? <==> !Fails(fault, 0)
      ensures failure.None? ==> rows == UpdateRows(old(rows), id, updates) && error == old(error)
      ensures failure.Some? ==> failure.value == fault.thrown && rows == old(rows) &&
                                error == Some(Message(failure.value, "Failed to update project"))
    {
      if Fails(fault, 0) {
        failure := Some(fault.thrown);
        error := Some(Message(fault.thrown, "Failed to update project"));
      } else {
        var updated := UpdateRows(rows, id, updates);
        assert forall i :: 0 <= i < |updated| ==> updated[i].key == rows[i].key;
        rows := updated;
        failure := None;
      }
    }

    /** `deleteProject`: removes the row with this id. */
    method DeleteProject(id: string, fault: Fault) returns (failure: Option<Thrown>)
      requires Valid()
      modifies this
      ensures Valid()
      ensures projects == old(projects) && loading == old(loading) && nextKey == old(nextKey)
      ensures failure.None? <==> !Fails(fault, 0)
      ensures failure.None? ==> rows == Filter(old(rows), NotRow(id)) && error == old(error)
      ensures failure.Some? ==> failure.value == fault.thrown && rows == old(rows) &&
                                error == Some(Message(failure.value, "Failed to delete project"))
    {
      if Fails(fault, 0) {
        failure := Some(fault.thrown);
        error := Some(Message(fault.thrown, "Failed to delete project"));
      } else {
        DeleteKeepsKeys(rows, nextKey, id);
        rows := Filter(rows, NotRow(id));
        failure := None;
      }
    }

    /**
     * The change handler: an insert puts the project first, an update
     * replaces every project with the row's id, a delete removes every
     * project with the id, and any other event changes nothing.
     */
    method OnChange(e: Change)
      modifies this
      ensures rows == old(rows) && nextKey == old(nextKey) && loading == old(loading) && error == old(error)
      ensures e.Inserted? ==> projects == [ToProject(e.row)] + old(projects)
      ensures e.Updated? ==>
                |projects| == |old(projects)| &&
                forall i :: 0 <= i < |projects| ==>
                  projects[i] == if old(projects)[i].id == RowId(e.row.key) then ToProject(e.row) else old(projects)[i]
      ensures e.Deleted? ==> projects == Filter(old(projects), NotProject(e.id))
      ensures e.OtherChange? ==> projects == old(projects)
    {
      match e
      case Inserted(row) =>
        projects := [ToProject(row)] + projects;
      case Updated(row) =>
        projects := Replaced(projects, ToProject(row));
      case Deleted(id) =>
        projects := Filter(projects, NotProject(id));
      case OtherChange =>
    }
  }

  lemma DeleteKeepsKeys(rows: seq<ProjectRow>, next: nat, id: string)
    requires KeysIncreasing(rows, next)
    ensures KeysIncreasing(Filter(rows, NotRow(id)), next)
  {
    var f := Filter(rows, NotRow(id));
    FilterSpec(rows, NotRow(id));
    FilterIncreasing(rows, NotRow(id), (r: ProjectRow) => r.key);
    forall i | 0 <= i < |f| ensures f[i].key < next {
      assert f[i] in rows;
    }
  }

  // ---------------------------------------------------------------------------
  // What an update writes

  /**
   * `updateProject` changes only the row with that id; an empty or missing
   * name keeps the name, and a missing open date keeps the open date, so an
   * open date once set is never cleared.
   */
  lemma UpdateRowsFields(rows: seq<ProjectRow>, id: string, u: ProjectUpdate, i: nat)
    requires i < |rows|
    ensures var r, before := UpdateRows(rows, id, u)[i], rows[i];
            r.key == before.key &&
            (RowId(before.key) != id ==> r == before) &&
            (RowId(before.key) == id ==>
               (r.name == if u.name.None? || u.name == Some([]) then before.name else u.name.value) &&
               (r.openDate == if u.openDate.Some? then u.openDate else before.openDate)) &&
            (before.openDate.Some? ==> r.openDate.Some?)
  {
  }

  // ---------------------------------------------------------------------------
  // The events keep the list in step with the table

  /** A new row is the newest: its insert event puts it first, as a fetch would. */
  lemma InsertEventMatchesFetch(rows: seq<ProjectRow>, row: ProjectRow)
    ensures Fetched(rows + [row]) == [ToProject(row)] + Fetched(rows)
  {
  }

  /** After an update, the update event carrying the new row turns the old fetch into the new one. */
  lemma UpdateEventMatchesFetch(rows: seq<ProjectRow>, next: nat, i: nat, u: ProjectUpdate)
    requires KeysIncreasing(rows, next) && i < |rows|
    ensures var updated := UpdateRows(rows, RowId(rows[i].key), u);
            Fetched(updated) == Replaced(Fetched(rows), ToProject(updated[i]))
  {
    var id := RowId(rows[i].key);
    var updated := UpdateRows(rows, id, u);
    forall j | 0 <= j < |rows|
      ensures Fetched(updated)[j] == Replaced(Fetched(rows), ToProject(updated[i]))[j]
    {
      var k := |rows| - 1 - j;
      assert Fetched(updated)[j] == ToProject(updated[k]) && Fetched(rows)[j] == ToProject(rows[k]);
      if RowId(rows[k].key) == id {
        NatToStringInjective(rows[k].key, rows[i].key);
      }
    }
  }

  /** After a delete, the delete event turns the old fetch into the new one. */
  lemma {:induction false} DeleteEventMatchesFetch(rows: seq<ProjectRow>, id: string)
    ensures Fetched(Filter(rows, NotRow(id))) == Filter(Fetched(rows), NotProject(id))
  {
    if rows != [] {
      var init, last := rows[..|rows| - 1], rows[|rows| - 1];
      DeleteEventMatchesFetch(init, id);
      assert Fetched(rows) == [ToProject(last)] + Fetched(init);
      FilterFront(Fetched(init), ToProject(last), NotProject(id));
      assert Filter(rows, NotRow(id)) == Filter(init, NotRow(id)) + (if NotRow(id)(last) then [last] else []);
      if NotRow(id)(last) {
        assert Fetched(Filter(init, NotRow(id)) + [last]) == [ToProject(last)] + Fetched(Filter(init, NotRow(id)));
      }
    }
  }

  /** Filtering a list with one element put in front. */
  lemma {:induction false} FilterFront(s: seq<Project>, x: Project, keep: Project -> bool)
    ensures Filter([x] + s, keep) == (if keep(x) then [x] else []) + Filter(s, keep)
  {
    if s != [] {
      var init, last := s[..|s| - 1], s[|s| - 1];
      FilterFront(init, x, keep);
      assert ([x] + s)[..|s|] == [x] + init;
      assert ([x] + s)[|s|] == last;
    }
  }
}

=== FILE: sheet_hook.dfy ===
/**
 * The hook that loads the template tasks: it fetches the template records,
 * sorts them into the seven category buckets and back-schedules each one from
 * the project's open date. The hook keeps the buckets, a loading flag and an
 * error message.
 */
module SheetHook {
  import opened JsText
  import opened Domain
  import opened SheetRoute

  /**
   * Property names every plain object inherits from `Object.prototype`: looking
   * one up in the bucket object finds a function (or the prototype itself),
   * never an array.
   */
  const InheritedKeys: seq<string> := [
    "constructor", "hasOwnProperty", "isPrototypeOf", "propertyIsEnumerable",
    "toLocaleString", "toString", "valueOf", "__proto__",
    "__defineGetter__", "__defineSetter__", "__lookupGetter__", "__lookupSetter__"]

  /** The `TypeError` thrown by `.push` on an inherited property. */
  const PushError: string := "categorizedTasks[category].push is not a function"

  const FetchFailed: string := "Failed to fetch sheet data"

  /** What `fetch("/api/sheets")` gave: a non-ok response, a rejection with a message, or the records. */
  datatype Fetched = NotOk | Threw(message: string) | Received(records: seq<SheetTask>)

  /** The seven buckets, all empty. */
  function EmptyBuckets(): (m: map<string, seq<Task>>)
    ensures m.Keys == set c | c in Categories
  {
    map c | c in Categories :: []
  }

  function TaskId(category: string, index: nat): string {
    "sheet-" + category + "-" + NatToString(index)
  }

  /** The task made from record `index`: back-scheduled from the open date, not started, unassigned. */
  function TemplateTask(open: int, t: SheetTask, index: nat): Task {
    var start := open - t.fromOpen;
    Task(TaskId(t.category, index), t.mainTask, start, start + t.period - 1, 0, None, t.subTasks, None)
  }

  /** The outcome of sorting records into buckets: the buckets, or the error that stopped it. */
  datatype Sorting = Buckets(buckets: map<string, seq<Task>>) | Failed(message: string)

  /** The buckets after the first `n` records. */
  function SortUpTo(open: int, records: seq<SheetTask>, n: nat): Sorting
    requires n <= |records|
  {
    if n == 0 then Buckets(EmptyBuckets())
    else
      match SortUpTo(open, records, n - 1)
      case Failed(e) => Failed(e)
      case Buckets(m) =>
        var c := records[n - 1].category;
        if c in m then Buckets(m[c := m[c] + [TemplateTask(open, records[n - 1], n - 1)]])
        else if c in InheritedKeys then Failed(PushError)
        else Buckets(m)
  }

  /** The `forEach` over the records, pushing each into its bucket. */
  method Categorize(open: int, records: seq<SheetTask>) returns (r: Sorting)
    ensures r == SortUpTo(open, records, |records|)
  {
    var categorizedTasks := EmptyBuckets();
    for index := 0 to |records|
      invariant SortUpTo(open, records, index) == Buckets(categorizedTasks)
    {
      var sheetTask := records[index];
      var category := sheetTask.category;
      if category in categorizedTasks {
        var startDate := open - sheetTask.fromOpen;
        var endDate := startDate + sheetTask.period - 1;
        var task := Task(TaskId(category, index), sheetTask.mainTask, startDate, endDate, 0, None, sheetTask.subTasks, None);
        categorizedTasks := categorizedTasks[category := categorizedTasks[category] + [task]];
      } else if category in InheritedKeys {
        FailedStays(open, records, index + 1);
        return Failed(PushError);
      }
    }
    r := Buckets(categorizedTasks);
  }

  /** Once sorting has failed, later records do not revive it. */
  lemma {:induction false} FailedStays(open: int, records: seq<SheetTask>, n: nat)
    requires 0 < n <= |records|
    requires SortUpTo(open, records, n) == Failed(PushError)
    ensures SortUpTo(open, records, |records|) == Failed(PushError)
    decreases |records| - n
  {
    if n < |records| {
      FailedStays(open, records, n + 1);
    }
  }

  class SheetTasksHook {
    var tasks: map<string, seq<Task>>
    var loading: bool
    var error: Option<string>

    constructor()
      ensures tasks == map[] && !loading && error == None
    {
      tasks, loading, error := map[], false, None;
    }

    /**
     * `fetchTasks`: without an open date nothing happens. Otherwise the
     * buckets are replaced on success; on a failed fetch, a rejection or an
     * exception while sorting, the error is recorded and the old buckets stay.
     */
    method FetchTasks(openDate: Option<int>, response: Fetched)
      modifies this
      ensures openDate.None? ==> tasks == old(tasks) && loading == old(loading) && error == old(error)
      ensures openDate.Some? ==> !loading && (tasks, error) == Outcome(openDate.value, response, old(tasks))
    {
      if openDate.None? {
        return;
      }
      var open := openDate.value;
      loading := true;
      error := None;
      match response {
        case NotOk =>
          error := Some(FetchFailed);
        case Threw(message) =>
          error := Some(message);
        case Received(records) =>
          var r := Categorize(open, records);
          match r {
            case Buckets(m) => tasks := m;
            case Failed(e) => error := Some(e);
          }
      }
      loading := false;
    }
  }

  /** The buckets and error message a fetch leaves behind, given the buckets before it. */
  function Outcome(open: int, response: Fetched, prev: map<string, seq<Task>>): (map<string, seq<Task>>, Option<string>) {
    match response
    case NotOk => (prev, Some(FetchFailed))
    case Threw(message) => (prev, Some(message))
    case Received(records) =>
      match SortUpTo(open, records, |records|)
      case Buckets(m) => (m, None)
      case Failed(e) => (prev, Some(e))
  }

  // ---------------------------------------------------------------------------
  // Properties of the sorting

  /** Bucket `c` on its own: the tasks of the records in category `c`, in record order. */
  function BucketOf(open: int, records: seq<SheetTask>, c: string, n: nat): seq<Task>
    requires n <= |records|
  {
    if n == 0 then []
    else BucketOf(open, records, c, n - 1)
         + (if records[n - 1].category == c then [TemplateTask(open, records[n - 1], n - 1)] else [])
  }

  predicate InheritedAmong(records: seq<SheetTask>, n: nat)
    requires n <= |records|
  {
    exists i :: 0 <= i < n && records[i].category in InheritedKeys
  }

  lemma CategoriesNotInherited(c: string)
    requires c in Categories
    ensures c !in InheritedKeys
  {
  }

  /**
   * Sorting fails exactly when some record's category is an inherited name;
   * otherwise there are exactly the seven buckets and each holds the tasks of
   * its own category in record order, records of any other category dropped.
   */
  lemma {:induction false} SortSpec(open: int, records: seq<SheetTask>, n: nat)
    requires n <= |records|
    ensures SortUpTo(open, records, n).Failed? <==> InheritedAmong(records, n)
    ensures SortUpTo(open, records, n).Failed? ==> SortUpTo(open, records, n).message == PushError
    ensures SortUpTo(open, records, n).Buckets? ==>
              var m := SortUpTo(open, records, n).buckets;
              m.Keys == (set c | c in Categories) &&
              forall c :: c in m ==> m[c] == BucketOf(open, records, c, n)
  {
    if n > 0 {
      SortSpec(open, records, n - 1);
      var c := records[n - 1].category;
      if c in Categories {
        CategoriesNotInherited(c);
      }
      if InheritedAmong(records, n - 1) {
        var i :| 0 <= i < n - 1 && records[i].category in InheritedKeys;
        assert InheritedAmong(records, n);
      }
      if InheritedAmong(records, n) && !InheritedAmong(records, n - 1) {
        var i :| 0 <= i < n && records[i].category in InheritedKeys;
        assert i == n - 1;
      }
    }
  }

  /** No category name contains a hyphen. */
  lemma NoHyphenInCategory(c: string)
    requires c in Categories
    ensures '-' !in c
  {
  }

  /** Two template task ids agree only for the same category and the same record index. */
  lemma TaskIdInjective(c: string, i: nat, d: string, j: nat)
    requires c in Categories && d in Categories
    requires TaskId(c, i) == TaskId(d, j)
    ensures c == d && i == j
  {
    NoHyphenInCategory(c);
    NoHyphenInCategory(d);
    var x, y := NatToString(i), NatToString(j);
    assert TaskId(c, i) == "sheet-" + (c + ['-'] + x);
    assert TaskId(d, j) == "sheet-" + (d + ['-'] + y);
    PrefixCancel("sheet-", c + ['-'] + x, d + ['-'] + y);
    SplitAtSeparator(c, x, d, y, '-');
    NatToStringInjective(i, j);
  }

  /** The indices of the first `n` records whose category is `c`, in increasing order. */
  function IndicesOf(records: seq<SheetTask>, c: string, n: nat): seq<nat>
    requires n <= |records|
  {
    if n == 0 then []
    else IndicesOf(records, c, n - 1) + (if records[n - 1].category == c then [n - 1] else [])
  }

  /**
   * Bucket `c` holds, in record order, one task per record of category `c`:
   * the `k`-th is made from the `k`-th such record and carries that record's index.
   */
  lemma {:induction false} BucketIndices(open: int, records: seq<SheetTask>, c: string, n: nat)
    requires n <= |records|
    ensures var b, ix := BucketOf(open, records, c, n), IndicesOf(records, c, n);
            |b| == |ix| &&
            (forall k :: 0 <= k < |ix| ==> ix[k] < n && records[ix[k]].category == c) &&
            (forall k :: 0 <= k < |ix| ==> b[k] == TemplateTask(open, records[ix[k]], ix[k])) &&
            (forall k, l :: 0 <= k < l < |ix| ==> ix[k] < ix[l])
  {
    if n > 0 {
      BucketIndices(open, records, c, n - 1);
      var b0, ix0 := BucketOf(open, records, c, n - 1), IndicesOf(records, c, n - 1);
      if records[n - 1].category == c {
        assert BucketOf(open, records, c, n) == b0 + [TemplateTask(open, records[n - 1], n - 1)];
        assert IndicesOf(records, c, n) == ix0 + [n - 1];
      } else {
        assert BucketOf(open, records, c, n) == b0;
        assert IndicesOf(records, c, n) == ix0;
      }
    }
  }

  /** Ids are unique across all buckets of a successful sort. */
  lemma IdsUnique(open: int, records: seq<SheetTask>, c: string, d: string, k: nat, l: nat)
    requires SortUpTo(open, records, |records|).Buckets?
    requires var m := SortUpTo(open, records, |records|).buckets;
             c in m && d in m && k < |m[c]| && l < |m[d]| && (c != d || k != l)
    ensures var m := SortUpTo(open, records, |records|).buckets;
            m[c][k].id != m[d][l].id
  {
    var n := |records|;
    SortSpec(open, records, n);
    BucketIndices(open, records, c, n);
    BucketIndices(open, records, d, n);
    var ic, id := IndicesOf(records, c, n), IndicesOf(records, d, n);
    var m: map<string, seq<Task>> := SortUpTo(open, records, n).buckets;
    assert m[c][k].id == TaskId(c, ic[k]);
    assert m[d][l].id == TaskId(d, id[l]);
    if m[c][k].id == m[d][l].id {
      TaskIdInjective(c, ic[k], d, id[l]);
    }
  }

  /**
   * A template task starts `fromOpen` days before the open date and lasts
   * `period` days, so it ends no earlier than it starts exactly when the
   * period is at least one day; it has no progress, no assignee and the
   * record's sub-tasks.
   */
  lemma TemplateTaskShape(open: int, t: SheetTask, index: nat)
    ensures var task := TemplateTask(open, t, index);
            task.startDate == open - t.fromOpen &&
            task.endDate - task.startDate + 1 == t.period &&
            (task.endDate >= task.startDate <==> t.period >= 1) &&
            task.progress == 0 && task.assignedPerson == None &&
            task.subTasks == t.subTasks && task.name == t.mainTask
  {
  }

  /** A failed fetch, a rejection or a failed sort keeps the previous buckets and records an error. */
  lemma FailureKeepsTasks(open: int, response: Fetched, prev: map<string, seq<Task>>)
    ensures Outcome(open, response, prev).1.Some? <==>
            !(response.Received? && SortUpTo(open, response.records, |response.records|).Buckets?)
    ensures Outcome(open, response, prev).1.Some? ==> Outcome(open, response, prev).0 == prev
  {
  }
}

=== FILE: sheet_route.dfy ===
/**
 * The template import endpoint: the rows of the template spreadsheet (columns
 * A..N, as strings; a row may stop short, leaving its last cells missing) are
 * turned into template records. The first row is the header; every other row
 * gives one record with its category (A), main task (B), up to ten sub-tasks
 * (C..L), its period in days (M) and its distance from the open date (N).
 */
module SheetRoute {
  import opened JsText
  import opened Domain

  type Row = seq<string>

  /** A template record (`SheetTask`). The endpoint never fills `displayOrder`. */
  datatype SheetTask = SheetTask(
    category: string, displayOrder: Option<int>, mainTask: string,
    subTasks: seq<SubTask>, period: int, fromOpen: int)

  /** `row[i]`: missing past the end of the row. */
  function Cell(row: Row, i: nat): Option<string> {
    if i < |row| then Some(row[i]) else None
  }

  /** `row[i] || ""`. */
  function CellOrEmpty(row: Row, i: nat): string {
    if Cell(row, i).Some? then row[i] else ""
  }

  /** `${row[i]}`: a missing cell renders as `undefined`. */
  function CellText(row: Row, i: nat): string {
    if Cell(row, i).Some? then row[i] else "undefined"
  }

  /** `Number.parseInt(row[i])`; a missing cell is parsed as the text `undefined`, which is NaN. */
  function ParseCell(row: Row, i: nat): Option<int> {
    if Cell(row, i).Some? then ParseInt(row[i]) else None
  }

  // ---------------------------------------------------------------------------
  // Sub-tasks from columns C..L

  /** `row[i] && row[i].trim()`: the cell is present and not blank. */
  predicate Keeps(row: Row, i: nat) {
    Cell(row, i).Some? && Trim(row[i]) != ""
  }

  function SubTaskAt(row: Row, i: nat): SubTask
    requires 1 <= i && Keeps(row, i)
  {
    SubTask(CellText(row, 1) + "-sub-" + NatToString(i - 1), Trim(row[i]), false)
  }

  /** The sub-tasks the loop has pushed once it has looked at columns 2..n-1. */
  function SubTasksBelow(row: Row, n: nat): seq<SubTask>
    requires n <= 12
  {
    if n <= 2 then []
    else SubTasksBelow(row, n - 1) + (if Keeps(row, n - 1) then [SubTaskAt(row, n - 1)] else [])
  }

  /** The columns among `lo..n-1` where `keep` holds, in order. */
  function ColumnsWhere(keep: nat -> bool, lo: nat, n: nat): seq<nat>
    decreases n
  {
    if n <= lo then [] else ColumnsWhere(keep, lo, n - 1) + (if keep(n - 1) then [n - 1] else [])
  }

  /** Every selected column lies in `lo..n-1` and satisfies `keep`. */
  lemma {:induction false} ColumnsWhereSound(keep: nat -> bool, lo: nat, n: nat)
    decreases n
    ensures forall k :: 0 <= k < |ColumnsWhere(keep, lo, n)| ==>
              lo <= ColumnsWhere(keep, lo, n)[k] < n && keep(ColumnsWhere(keep, lo, n)[k])
  {
    if n > lo {
      ColumnsWhereSound(keep, lo, n - 1);
      var cs := ColumnsWhere(keep, lo, n - 1);
      var tail: seq<nat> := if keep(n - 1) then [n - 1] else [];
      var cs' := cs + tail;
      assert cs' == ColumnsWhere(keep, lo, n);
      forall k | 0 <= k < |cs'|
        ensures lo <= cs'[k] < n && keep(cs'[k])
      {
        if k < |cs| {
          assert cs'[k] == cs[k];
        } else {
          assert cs'[k] == tail[k - |cs|] == n - 1;
        }
      }
    }
  }

  /** The selected columns are strictly increasing. */
  lemma {:induction false} ColumnsWhereIncreasing(keep: nat -> bool, lo: nat, n: nat)
    decreases n
    ensures forall k, l :: 0 <= k < l < |ColumnsWhere(keep, lo, n)| ==>
              ColumnsWhere(keep, lo, n)[k] < ColumnsWhere(keep, lo, n)[l]
  {
    if n > lo {
      ColumnsWhereIncreasing(keep, lo, n - 1);
      ColumnsWhereSound(keep, lo, n - 1);
      var cs := ColumnsWhere(keep, lo, n - 1);
      var tail: seq<nat> := if keep(n - 1) then [n - 1] else [];
      var cs' := cs + tail;
      assert cs' == ColumnsWhere(keep, lo, n);
      forall k, l | 0 <= k < l < |cs'|
        ensures cs'[k] < cs'[l]
      {
        assert cs'[k] == cs[k];
        if l < |cs| {
          assert cs'[l] == cs[l];
        } else {
          assert cs'[l] == n - 1;
        }
      }
    }
  }

  /** Every column in `lo..n-1` that satisfies `keep` is selected. */
  lemma {:induction false} ColumnsWhereComplete(keep: nat -> bool, lo: nat, n: nat)
    decreases n
    ensures forall c :: lo <= c < n && keep(c) ==> c in ColumnsWhere(keep, lo, n)
  {
    if n > lo {
      ColumnsWhereComplete(keep, lo, n - 1);
      var cs := ColumnsWhere(keep, lo, n - 1);
      var tail: seq<nat> := if keep(n - 1) then [n - 1] else [];
      assert cs + tail == ColumnsWhere(keep, lo, n);
      forall c | lo <= c < n && keep(c)
        ensures c in cs + tail
      {
        if c < n - 1 {
          assert c in cs;
        } else {
          assert c in tail;
        }
      }
    }
  }

  /** The selected columns are exactly those in `lo..n-1` where `keep` holds, in increasing order. */
  lemma ColumnsWhereSpec(keep: nat -> bool, lo: nat, n: nat)
    ensures var cs := ColumnsWhere(keep, lo, n);
            (forall k :: 0 <= k < |cs| ==> lo <= cs[k] < n && keep(cs[k])) &&
            (forall k, l :: 0 <= k < l < |cs| ==> cs[k] < cs[l]) &&
            (forall c :: lo <= c < n && keep(c) ==> c in cs)
  {
    ColumnsWhereSound(keep, lo, n);
    ColumnsWhereIncreasing(keep, lo, n);
    ColumnsWhereComplete(keep, lo, n);
  }

  /** The columns among 2..n-1 that yield a sub-task. */
  function KeptColumns(row: Row, n: nat): seq<nat> {
    ColumnsWhere((c: nat) => Keeps(row, c), 2, n)
  }

  /** The loop over columns C..L (indices 2 through 11). */
  method BuildSubTasks(row: Row) returns (subTasks: seq<SubTask>)
    ensures subTasks == SubTasksBelow(row, 12)
  {
    subTasks := [];
    for i := 2 to 12
      invariant subTasks == SubTasksBelow(row, i)
    {
      subTasks := PushColumn(row, i, subTasks);
    }
  }

  /** One turn of the loop: column `i` adds its sub-task when the cell is present and not blank. */
  method PushColumn(row: Row, i: nat, subTasks: seq<SubTask>) returns (subTasks': seq<SubTask>)
    requires 2 <= i < 12
    ensures subTasks' == subTasks + (if Keeps(row, i) then [SubTaskAt(row, i)] else [])
  {
    subTasks' := subTasks;
    if Cell(row, i).Some? && Trim(row[i]) != "" {
      subTasks' := subTasks + [SubTaskAt(row, i)];
    }
  }

  /** Sub-task `k` comes from the `k`-th non-blank column among C..L: its id names that column's position. */
  lemma {:induction false} SubTasksFromColumns(row: Row, n: nat)
    requires n <= 12
    ensures |SubTasksBelow(row, n)| == |KeptColumns(row, n)|
    ensures forall k :: 0 <= k < |SubTasksBelow(row, n)| ==>
              1 <= KeptColumns(row, n)[k] && Keeps(row, KeptColumns(row, n)[k]) &&
              SubTasksBelow(row, n)[k] == SubTaskAt(row, KeptColumns(row, n)[k])
  {
    if n > 2 {
      SubTasksFromColumns(row, n - 1);
      ColumnsWhereSpec((c: nat) => Keeps(row, c), 2, n - 1);
    }
  }

  /** At most ten sub-tasks, each open, with a trimmed non-blank name, ids distinct within the row. */
  lemma SubTasksShape(row: Row)
    ensures var s := SubTasksBelow(row, 12);
            |s| <= 10 &&
            (forall k :: 0 <= k < |s| ==> !s[k].completed && s[k].name != "" && s[k].name == Trim(s[k].name)) &&
            (forall k, l :: 0 <= k < l < |s| ==> s[k].id != s[l].id)
  {
    var s, cs := SubTasksBelow(row, 12), KeptColumns(row, 12);
    SubTasksFromColumns(row, 12);
    ColumnsWhereSpec((c: nat) => Keeps(row, c), 2, 12);
    ColumnsBound(cs, 2, 12);
    forall k | 0 <= k < |s|
      ensures s[k].name == Trim(s[k].name)
    {
      TrimIdempotent(row[cs[k]]);
    }
    forall k, l | 0 <= k < l < |s|
      ensures s[k].id != s[l].id
    {
      SubTaskIdsDiffer(row, cs[k], cs[l]);
    }
  }

  /** A strictly increasing run of integers in `lo..hi-1` has at most `hi - lo` elements. */
  lemma {:induction false} ColumnsBound(cs: seq<nat>, lo: int, hi: int)
    requires forall k :: 0 <= k < |cs| ==> lo <= cs[k] < hi
    requires forall k, l :: 0 <= k < l < |cs| ==> cs[k] < cs[l]
    ensures |cs| <= if hi < lo then 0 else hi - lo
  {
    if cs != [] {
      ColumnsBound(cs[1..], cs[0] + 1, hi);
    }
  }

  lemma TrimIdempotent(s: string)
    ensures Trim(Trim(s)) == Trim(s)
  {
    var t := Trim(s);
    if t != [] {
      assert TrimStart(t) == t;
      assert TrimEnd(t) == t;
    } else {
      assert AllWhiteSpace(t);
    }
  }

  lemma SubTaskIdsDiffer(row: Row, c: nat, d: nat)
    requires 1 <= c < d && Keeps(row, c) && Keeps(row, d)
    ensures SubTaskAt(row, c).id != SubTaskAt(row, d).id
  {
    PrefixedNumbersDiffer(CellText(row, 1) + "-sub-", c - 1, d - 1);
  }

  /** One prefix followed by two different numbers gives two different strings. */
  lemma PrefixedNumbersDiffer(p: string, a: nat, b: nat)
    requires a != b
    ensures p + NatToString(a) != p + NatToString(b)
  {
    if p + NatToString(a) == p + NatToString(b) {
      PrefixCancel(p, NatToString(a), NatToString(b));
      NatToStringInjective(a, b);
    }
  }

  // ---------------------------------------------------------------------------
  // Rows to records

  /** `parseInt(col M) || 1`: NaN and 0 both become 1. */
  function Period(row: Row): (p: int)
    ensures p != 0
  {
    match ParseCell(row, 12)
    case None => 1
    case Some(v) => if v == 0 then 1 else v
  }

  /** `parseInt(col N) || 0`: NaN becomes 0. */
  function FromOpen(row: Row): int {
    match ParseCell(row, 13)
    case None => 0
    case Some(v) => v
  }

  /** One data row's record. */
  function ConvertRow(row: Row): SheetTask {
    SheetTask(CellOrEmpty(row, 0), None, CellOrEmpty(row, 1), SubTasksBelow(row, 12), Period(row), FromOpen(row))
  }

  datatype SheetResponse =
    | NotFound(error: string)
    | Found(tasks: seq<SheetTask>, totalRows: nat, totalTasks: nat, header: Row)

  const NoDataError: string := "No data found in spreadsheet"

  /** The endpoint's answer for the values the sheet returned (`values` may be absent). */
  function Respond(values: Option<seq<Row>>): SheetResponse {
    if values.None? || values.value == [] then NotFound(NoDataError)
    else
      var rows := values.value;
      Found(seq(|rows| - 1, i requires 0 <= i < |rows| - 1 => ConvertRow(rows[i + 1])),
            |rows|, |rows| - 1, rows[0])
  }

  /** The record of one data row, its sub-tasks built by the column loop. */
  method BuildTask(row: Row) returns (task: SheetTask)
    ensures task == ConvertRow(row)
  {
    var subTasks := BuildSubTasks(row);
    task := SheetTask(CellOrEmpty(row, 0), None, CellOrEmpty(row, 1), subTasks, Period(row), FromOpen(row));
  }

  /** The response-building part of `GET`: drop the header, convert each remaining row in turn. */
  method Get(values: Option<seq<Row>>) returns (r: SheetResponse)
    ensures r == Respond(values)
  {
    if values.None? || |values.value| == 0 {
      return NotFound(NoDataError);
    }
    var rows := values.value;
    var header, dataRows := rows[0], rows[1..];
    var tasks: seq<SheetTask> := [];
    for index := 0 to |dataRows|
      invariant |tasks| == index
      invariant forall i :: 0 <= i < index ==> tasks[i] == ConvertRow(rows[i + 1])
    {
      var row := dataRows[index];
      assert row == rows[index + 1];
      var task := BuildTask(row);
      tasks := tasks + [task];
    }
    assert tasks == Respond(values).tasks;
    r := Found(tasks, |rows|, |tasks|, header);
  }

  /**
   * No rows (or no `values` at all) is the not-found answer; otherwise the
   * header is dropped and there is exactly one record per remaining row, in
   * row order, and `totalTasks` is `totalRows - 1`.
   */
  lemma RespondShape(values: Option<seq<Row>>)
    ensures Respond(values).NotFound? <==> values.None? || values.value == []
    ensures Respond(values).Found? ==>
              var rows := values.value;
              var r := Respond(values);
              r.totalRows == |rows| && r.totalTasks == |rows| - 1 == |r.tasks| &&
              r.header == rows[0] &&
              forall i :: 1 <= i < |rows| ==> r.tasks[i - 1] == ConvertRow(rows[i])
  {
    if values.Some? && values.value != [] {
      var rows := values.value;
      var r := Respond(values);
      forall i | 1 <= i < |rows|
        ensures r.tasks[i - 1] == ConvertRow(rows[i])
      {
        assert r.tasks[i - 1] == ConvertRow(rows[(i - 1) + 1]);
      }
    }
  }

  /** A row with a blank task name still yields a record, with empty category and name when A and B are missing. */
  lemma ShortRowKept(values: seq<Row>)
    requires |values| == 2 && values[1] == []
    ensures var r := Respond(Some(values));
            r.Found? && |r.tasks| == 1 &&
            r.tasks[0] == SheetTask("", None, "", [], 1, 0)
  {
    var row := values[1];
    assert Period(row) == 1 && FromOpen(row) == 0;
    assert CellOrEmpty(row, 0) == "" && CellOrEmpty(row, 1) == "";
    assert SubTasksBelow(row, 12) == [] by {
      SubTasksFromColumns(row, 12);
    }
    assert ConvertRow(row) == SheetTask("", None, "", [], 1, 0);
    assert Respond(Some(values)).tasks[0] == ConvertRow(values[1]);
  }

  /** A negative period such as `-3` passes through unchanged; a period cell `0` becomes 1. */
  lemma PeriodCases(row: Row, n: nat)
    requires |row| >= 13
    ensures row[12] == NatToString(n) ==> Period(row) == (if n == 0 then 1 else n)
    ensures row[12] == "-" + NatToString(n) && n > 0 ==> Period(row) == -(n as int)
  {
    if row[12] == NatToString(n) {
      ParseIntOfNatToString(n);
    }
    if row[12] == "-" + NatToString(n) {
      ParseIntOfNegative(n);
    }
  }

  /** The distance from the open date is the parsed number, or 0 when the cell is missing or not a number. */
  lemma FromOpenCases(row: Row, n: nat)
    ensures |row| <= 13 ==> FromOpen(row) == 0
    ensures |row| > 13 && row[13] == NatToString(n) ==> FromOpen(row) == n
    ensures |row| > 13 && row[13] == "" ==> FromOpen(row) == 0
  {
    if |row| > 13 && row[13] == NatToString(n) {
      ParseIntOfNatToString(n);
    }
    if |row| > 13 && row[13] == "" {
      ParseIntEmpty();
    }
  }
}

=== FILE: sheet_utils.dfy ===
/**
 * The second converter from template records to gantt tasks: every record
 * becomes one task, scheduled back from the open date, with its progress
 * derived from its completed sub-tasks and an assignee handed out round-robin.
 * Also the category filter that sits beside it.
 */
module SheetUtils {
  import opened JsText
  import opened Domain
  import opened SheetRoute

  function ConvertedId(index: nat): string {
    "sheet-task-" + NatToString(index)
  }

  /** Record `index` as a gantt task. */
  function ConvertTask(open: int, people: seq<Person>, t: SheetTask, index: nat): Task {
    var start := open - t.fromOpen;
    Task(ConvertedId(index), t.mainTask, start, start + t.period - 1,
         SubTaskProgress(t.subTasks),
         if |people| > 0 then Some(people[index % |people|]) else None,
         t.subTasks, t.displayOrder)
  }

  /** `convertSheetTasksToGanttTasks`: the records mapped one to one, in order. */
  function ConvertSheetTasks(records: seq<SheetTask>, open: int, people: seq<Person>): (r: seq<Task>)
    ensures |r| == |records|
  {
    seq(|records|, i requires 0 <= i < |records| => ConvertTask(open, people, records[i], i))
  }

  /**
   * Task `i` carries id `sheet-task-i`, the record's name, sub-tasks and
   * display order, starts `fromOpen` days before the open date, lasts
   * `period` days, and has as progress the completed share of its sub-tasks
   * in percent, rounded to the nearest integer with ties going up (0 when it
   * has none): between 0 and 100, 100 when every one of at least one
   * sub-task is done and 0 when none is.
   */
  lemma ConvertedTask(records: seq<SheetTask>, open: int, people: seq<Person>, i: nat)
    requires i < |records|
    ensures var t, r := records[i], ConvertSheetTasks(records, open, people)[i];
            r.id == "sheet-task-" + NatToString(i) &&
            r.name == t.mainTask && r.subTasks == t.subTasks && r.orderIndex == t.displayOrder &&
            r.startDate == open - t.fromOpen && r.endDate - r.startDate + 1 == t.period &&
            r.progress == SubTaskProgress(t.subTasks) &&
            0 <= r.progress <= 100 &&
            (t.subTasks == [] ==> r.progress == 0) &&
            (t.subTasks != [] ==>
               var c, n := CompletedCount(t.subTasks), |t.subTasks|;
               2 * n * r.progress <= 200 * c + n < 2 * n * (r.progress + 1)) &&
            (CompletedCount(t.subTasks) == |t.subTasks| > 0 ==> r.progress == 100) &&
            (CompletedCount(t.subTasks) == 0 ==> r.progress == 0)
  {
    var subs := records[i].subTasks;
    PercentBounds(CompletedCount(subs), |subs|);
    if subs != [] {
      PercentIsNearest(CompletedCount(subs), |subs|);
    }
  }

  /** Fewer than 200 sub-tasks: a converted task shows 100 only when all of them are done. */
  lemma ConvertedFullOnlyWhenDone(records: seq<SheetTask>, open: int, people: seq<Person>, i: nat)
    requires i < |records| && |records[i].subTasks| < 200
    requires ConvertSheetTasks(records, open, people)[i].progress == 100
    ensures records[i].subTasks != [] && CompletedCount(records[i].subTasks) == |records[i].subTasks|
  {
    var subs := records[i].subTasks;
    if CompletedCount(subs) < |subs| {
      PercentFullOnlyWhenAllDone(CompletedCount(subs), |subs|);
    }
  }

  /** The converted ids are pairwise distinct. */
  lemma ConvertedIdsDistinct(records: seq<SheetTask>, open: int, people: seq<Person>, i: nat, j: nat)
    requires i < |records| && j < |records| && i != j
    ensures ConvertSheetTasks(records, open, people)[i].id != ConvertSheetTasks(records, open, people)[j].id
  {
    var x, y := NatToString(i), NatToString(j);
    if ConvertedId(i) == ConvertedId(j) {
      PrefixCancel("sheet-task-", x, y);
      NatToStringInjective(i, j);
    }
  }

  /** The assignee of task `i`: nobody when there are no people, else person `i mod |people|`. */
  lemma AssigneeOf(records: seq<SheetTask>, open: int, people: seq<Person>, i: nat)
    requires i < |records|
    ensures var a := ConvertSheetTasks(records, open, people)[i].assignedPerson;
            (people == [] ==> a == None) && (people != [] ==> a == Some(people[i % |people|]))
  {
  }

  /**
   * Round-robin assignment: the first `|people|` tasks go to the people in
   * list order, and each later task to the same person as the task
   * `|people|` places before it.
   */
  lemma RoundRobin(records: seq<SheetTask>, open: int, people: seq<Person>, i: nat)
    requires i < |records|
    ensures i < |people| ==> ConvertSheetTasks(records, open, people)[i].assignedPerson == Some(people[i])
    ensures i >= |people| > 0 ==>
              ConvertSheetTasks(records, open, people)[i].assignedPerson ==
              ConvertSheetTasks(records, open, people)[i - |people|].assignedPerson
  {
    var n := |people|;
    AssigneeOf(records, open, people, i);
    if i < n {
      ModuloUnique(i, n, 0, i);
    } else if n > 0 {
      AssigneeOf(records, open, people, i - n);
      ModuloShift(i - n, n);
    }
  }

  lemma ModuloShift(i: nat, n: nat)
    requires n > 0
    ensures (i + n) % n == i % n
  {
    var q, r := i / n, i % n;
    assert i == q * n + r;
    assert i + n == (q + 1) * n + r;
    ModuloUnique(i + n, n, q + 1, r);
  }

  /** `a % n` is the remainder of any division of `a` by `n` with a remainder in `0..n`. */
  lemma ModuloUnique(a: int, n: int, q: int, r: int)
    requires n > 0 && a == q * n + r && 0 <= r < n
    ensures a % n == r
  {
    var q', r' := a / n, a % n;
    assert a == q' * n + r';
    assert (q - q') * n == r' - r;
    if q > q' {
      MulAtLeast(q - q', n);
    } else if q < q' {
      MulAtLeast(q' - q, n);
    }
  }

  lemma MulAtLeast(k: int, n: int)
    requires k >= 1 && n > 0
    ensures k * n >= n
  {
  }

  // ---------------------------------------------------------------------------
  // The category filter

  /** The keys of the filter's category map; the promotional one has a middle dot. */
  const FilterKeys: seq<string> :=
    ["連絡系", "販促物・備品系", "通信系", "プロモーション系", "求人系", "研修系", "その他"]

  /**
   * `filterTasksByCategory`: the map sends each of its keys to itself and
   * has nothing of its own under any other name (an inherited property is
   * never equal to the name), so every task survives or none does.
   */
  function FilterTasksByCategory(tasks: seq<Task>, category: string): (r: seq<Task>)
    ensures r == tasks || r == []
  {
    if category in FilterKeys then tasks else []
  }

  /** The filter keeps the tasks exactly for the seven map keys. */
  lemma FilterKeepsIff(tasks: seq<Task>, category: string)
    requires tasks != []
    ensures FilterTasksByCategory(tasks, category) == tasks <==> category in FilterKeys
  {
  }

  /** The promotional category as the rest of the app spells it, without the dot, is filtered to nothing. */
  lemma UndottedPromotionFiltered(tasks: seq<Task>)
    ensures FilterTasksByCategory(tasks, Promotion) == []
    ensures |FilterKeys| == 7 && Promotion !in FilterKeys
  {
  }
}

=== FILE: store_calls.dfy ===
/**
 * What the hooks see of a call to the store: a call either succeeds or
 * throws, and a hook that catches the throw records a message taken from it.
 * Row keys come from a counter and are shown as decimal ids.
 */
module StoreCalls {
  import opened JsText

  /** What a failing call throws: an `Error` with a message, or any other value. */
  datatype Thrown = ErrorObject(message: string) | OtherValue

  /** `err instanceof Error ? err.message : fallback`. */
  function Message(t: Thrown, fallback: string): (m: string)
    ensures t.ErrorObject? ==> m == t.message
    ensures t.OtherValue? ==> m == fallback
  {
    match t
    case ErrorObject(m) => m
    case OtherValue => fallback
  }

  /** Which store call of one operation fails, counted from 0, and what it throws; or none. */
  datatype Fault = NoFault | FailAt(call: nat, thrown: Thrown)

  predicate Fails(f: Fault, call: nat) {
    f.FailAt? && f.call == call
  }

  /** What an operation's promise does: resolves to nothing, resolves to a row, or rejects. */
  datatype Outcome<T> = Skipped | Done(value: T) | Threw(thrown: Thrown)

  /** The id of the row with this key. */
  function RowId(key: nat): string {
    NatToString(key)
  }

  /** Different keys give different ids. */
  lemma RowIdInjective(a: nat, b: nat)
    ensures RowId(a) == RowId(b) ==> a == b
  {
    if RowId(a) == RowId(b) {
      NatToStringInjective(a, b);
    }
  }
}

=== FILE: task_store.dfy ===
/**
 * The live tasks of one project and category: the `tasks` and `subtasks`
 * tables of the store, held in memory, and the hook that reads and writes
 * them and keeps the formatted task list, a loading flag and an error message.
 *
 * Rows get their keys from a counter, so keys are fresh, increase in
 * insertion order (which is creation order) and are never reused. A row's id,
 * as the rest of the application sees it, is its key written in decimal. The
 * store refuses a sub-task whose task does not exist, and deleting a task
 * deletes its sub-tasks.
 *
 * Every store call may fail; a `Fault` says which one.
 */
module TaskStore {
  import opened JsText
  import opened Domain
  import opened Lists
  import opened OrderSort
  import opened StoreCalls

  datatype TaskRow = TaskRow(
    key: nat, projectId: string, name: string, startDate: int, endDate: int,
    progress: int, assignee: Option<string>, category: string, isLocal: bool)

  datatype SubTaskRow = SubTaskRow(key: nat, taskKey: nat, name: string, completed: bool, orderIndex: int)

  function KeysOf(rows: seq<TaskRow>): set<nat> {
    set r | r in rows :: r.key
  }

  /** Keys increase along each table and lie below the counter; every sub-task's task exists. */
  ghost predicate Tables(rows: seq<TaskRow>, subs: seq<SubTaskRow>, next: nat) {
    (forall i, j :: 0 <= i < j < |rows| ==> rows[i].key < rows[j].key) &&
    (forall i :: 0 <= i < |rows| ==> rows[i].key < next) &&
    (forall i, j :: 0 <= i < j < |subs| ==> subs[i].key < subs[j].key) &&
    (forall i :: 0 <= i < |subs| ==> subs[i].key < next) &&
    (forall i :: 0 <= i < |subs| ==> subs[i].taskKey in KeysOf(rows))
  }

  // ---------------------------------------------------------------------------
  // Reading

  function InCategory(project: string, category: string): TaskRow -> bool {
    (r: TaskRow) => r.projectId == project && r.category == category
  }

  function OfTask(taskId: string): SubTaskRow -> bool {
    (s: SubTaskRow) => RowId(s.taskKey) == taskId
  }

  function SubOrder(): SubTaskRow -> int {
    (s: SubTaskRow) => s.orderIndex
  }

  function ToSubTasks(rs: seq<SubTaskRow>): (r: seq<SubTask>)
    ensures |r| == |rs|
  {
    seq(|rs|, i requires 0 <= i < |rs| => SubTask(RowId(rs[i].key), rs[i].name, rs[i].completed))
  }

  /** One fetched row: its sub-tasks sorted by order index, its assignee looked up among `people`. */
  function FormatTask(row: TaskRow, subs: seq<SubTaskRow>, people: seq<Person>): Task {
    var own := SortByOrder(Filter(subs, OfTask(RowId(row.key))), SubOrder());
    Task(RowId(row.key), row.name, row.startDate, row.endDate, row.progress,
         FindPerson(people, row.assignee), ToSubTasks(own), None)
  }

  /** The formatted rows of this project and category, in creation order. */
  function Formatted(rows: seq<TaskRow>, subs: seq<SubTaskRow>, project: string, category: string,
                     people: seq<Person>): (r: seq<Task>)
    ensures |r| == |Filter(rows, InCategory(project, category))|
  {
    var mine := Filter(rows, InCategory(project, category));
    seq(|mine|, i requires 0 <= i < |mine| => FormatTask(mine[i], subs, people))
  }

  // ---------------------------------------------------------------------------
  // Writing

  /** A field of an update object: `undefined`, `null`, or a person. */
  datatype AssigneeUpdate = Absent | Null | Given(person: Person)

  /** The fields of `Partial<Task>` that `updateTask` looks at. */
  datatype TaskUpdate = TaskUpdate(name: Option<string>, progress: Option<int>, assignedPerson: AssigneeUpdate)

  /** `id || null`: an absent or empty id stores no assignee. */
  function OrNull(id: Option<string>): Option<string> {
    if id.Some? && id.value != "" then id else None
  }

  /** `updateData`: the name only when non-empty, progress when defined, the assignee when not `undefined`. */
  function ApplyTaskUpdate(r: TaskRow, u: TaskUpdate): TaskRow {
    r.(name := if u.name.Some? && u.name.value != "" then u.name.value else r.name,
       progress := if u.progress.Some? then u.progress.value else r.progress,
       assignee := match u.assignedPerson
                   case Absent => r.assignee
                   case Null => None
                   case Given(p) => OrNull(Some(p.id)))
  }

  /** `update(updateData).eq("id", id)`. */
  function UpdateRows(rows: seq<TaskRow>, id: string, u: TaskUpdate): (r: seq<TaskRow>)
    ensures |r| == |rows|
  {
    seq(|rows|, i requires 0 <= i < |rows| => if RowId(rows[i].key) == id then ApplyTaskUpdate(rows[i], u) else rows[i])
  }

  function SetProgress(rows: seq<TaskRow>, id: string, progress: int): seq<TaskRow> {
    UpdateRows(rows, id, TaskUpdate(None, Some(progress), Absent))
  }

  function NotTask(id: string): TaskRow -> bool {
    (r: TaskRow) => RowId(r.key) != id
  }

  function NotSubTask(id: string): SubTaskRow -> bool {
    (s: SubTaskRow) => RowId(s.key) != id
  }

  function NotOfTask(taskId: string): SubTaskRow -> bool {
    (s: SubTaskRow) => RowId(s.taskKey) != taskId
  }

  /** The largest order index among some sub-task rows. */
  function MaxOrder(rs: seq<SubTaskRow>): int
    requires rs != []
  {
    if |rs| == 1 then rs[0].orderIndex
    else
      var m := MaxOrder(rs[..|rs| - 1]);
      if rs[|rs| - 1].orderIndex > m then rs[|rs| - 1].orderIndex else m
  }

  /** The order index `addSubTask` gives: one past the largest, or 0 for the first. */
  function NextOrderIndex(rs: seq<SubTaskRow>): int {
    if rs == [] then 0 else MaxOrder(rs) + 1
  }

  /** The first task row with this id. */
  function FindTaskRow(rows: seq<TaskRow>, id: string): (r: Option<TaskRow>)
    ensures r.Some? ==> r.value in rows && RowId(r.value.key) == id
    ensures r.None? ==> forall i :: 0 <= i < |rows| ==> RowId(rows[i].key) != id
  {
    if rows == [] then None
    else if RowId(rows[0].key) == id then Some(rows[0])
    else FindTaskRow(rows[1..], id)
  }

  /** The first sub-task row with this id. */
  function FindSubRow(subs: seq<SubTaskRow>, id: string): (r: Option<SubTaskRow>)
    ensures r.Some? ==> r.value in subs && RowId(r.value.key) == id
    ensures r.None? ==> forall i :: 0 <= i < |subs| ==> RowId(subs[i].key) != id
  {
    if subs == [] then None
    else if RowId(subs[0].key) == id then Some(subs[0])
    else FindSubRow(subs[1..], id)
  }

  /** The spread `{ ...updates }`: each field present is written as given, an empty name included. */
  function ApplySubUpdate(s: SubTaskRow, name: Option<string>, completed: Option<bool>): SubTaskRow {
    s.(name := if name.Some? then name.value else s.name,
       completed := if completed.Some? then completed.value else s.completed)
  }

  function UpdateSubRows(subs: seq<SubTaskRow>, id: string, name: Option<string>, completed: Option<bool>)
      : (r: seq<SubTaskRow>)
    ensures |r| == |subs|
  {
    seq(|subs|, i requires 0 <= i < |subs| =>
      if RowId(subs[i].key) == id then ApplySubUpdate(subs[i], name, completed) else subs[i])
  }

  function CompletedRows(rs: seq<SubTaskRow>): (k: nat)
    ensures k <= |rs|
  {
    if rs == [] then 0
    else CompletedRows(rs[..|rs| - 1]) + (if rs[|rs| - 1].completed then 1 else 0)
  }

  /** The progress `updateSubTask` writes: the rounded share of completed sub-tasks, 0 with none. */
  function RowsProgress(rs: seq<SubTaskRow>): nat {
    Percent(CompletedRows(rs), |rs|)
  }

  /** The tasks table after the progress of the parent of sub-task `subId` is recomputed. */
  function Recompute(rows: seq<TaskRow>, subs: seq<SubTaskRow>, subId: string): seq<TaskRow> {
    match FindSubRow(subs, subId)
    case None => rows
    case Some(s) => SetProgress(rows, RowId(s.taskKey), RowsProgress(Filter(subs, OfTask(RowId(s.taskKey)))))
  }

  class RealtimeTasks {
    const projectId: Option<string>
    const category: string
    /** What the store throws when `.single()` finds no row or a foreign key is broken. */
    const storeError: Thrown
    var taskRows: seq<TaskRow>
    var subRows: seq<SubTaskRow>
    var nextKey: nat
    var tasks: seq<Task>
    var loading: bool
    var error: Option<string>

    ghost predicate Valid()
      reads this
    {
      Tables(taskRows, subRows, nextKey)
    }

    /** The hook mounted over a store holding these rows: no tasks yet, loading, no error. */
    constructor(projectId: Option<string>, category: string, storeError: Thrown,
                rows: seq<TaskRow>, subs: seq<SubTaskRow>, next: nat)
      requires Tables(rows, subs, next)
      ensures Valid()
      ensures this.projectId == projectId && this.category == category && this.storeError == storeError
      ensures taskRows == rows && subRows == subs && nextKey == next
      ensures tasks == [] && loading && error == None
    {
      this.projectId, this.category, this.storeError := projectId, category, storeError;
      taskRows, subRows, nextKey := rows, subs, next;
      tasks, loading, error := [], true, None;
    }

    /** `fetchTasks`: without a project nothing happens; a failure keeps the old list and records the error. */
    method FetchTasks(people: seq<Person>, fault: Fault)
      modifies this
      ensures taskRows == old(taskRows) && subRows == old(subRows) && nextKey == old(nextKey)
      ensures projectId.None? ==> tasks == old(tasks) && loading == old(loading) && error == old(error)
      ensures projectId.Some? && !Fails(fault, 0) ==>
                tasks == Formatted(taskRows, subRows, projectId.value, category, people) && error == old(error)
      ensures projectId.Some? && Fails(fault, 0) ==>
                tasks == old(tasks) && error == Some(Message(fault.thrown, "Unknown error"))
      ensures projectId.Some? ==> !loading
    {
      if projectId.None? {
        return;
      }
      loading := true;
      if Fails(fault, 0) {
        error := Some(Message(fault.thrown, "Unknown error"));
      } else {
        tasks := Formatted(taskRows, subRows, projectId.value, category, people);
      }
      loading := false;
    }

    /** `addTask`: a new row with progress 0, marked local, in this hook's category. */
    method AddTask(name: string, startDate: int, endDate: int, assignedPersonId: Option<string>, fault: Fault)
        returns (r: Outcome<TaskRow>)
      requires Valid()
      modifies this
      ensures Valid()
      ensures subRows == old(subRows) && tasks == old(tasks) && loading == old(loading)
      ensures projectId.None? ==> r.Skipped? && taskRows == old(taskRows) && nextKey == old(nextKey) && error == old(error)
      ensures projectId.Some? && Fails(fault, 0) ==>
                r == Threw(fault.thrown) && taskRows == old(taskRows) && nextKey == old(nextKey) &&
                error == Some(Message(fault.thrown, "Failed to add task"))
      ensures projectId.Some? && !Fails(fault, 0) ==>
                r.Done? && r.value.key == old(nextKey) && nextKey == old(nextKey) + 1 &&
                taskRows == old(taskRows) + [r.value] && error == old(error) &&
                r.value == TaskRow(old(nextKey), projectId.value, name, startDate, endDate, 0,
                                   OrNull(assignedPersonId), category, true)
    {
      if projectId.None? {
        return Skipped;
      }
      if Fails(fault, 0) {
        error := Some(Message(fault.thrown, "Failed to add task"));
        return Threw(fault.thrown);
      }
      var row := TaskRow(nextKey, projectId.value, name, startDate, endDate, 0, OrNull(assignedPersonId), category, true);
      taskRows := taskRows + [row];
      nextKey := nextKey + 1;
      r := Done(row);
    }

    /** `updateTask`: the fields `updateData` carries, on the row with this id. */
    method UpdateTask(taskId: string, updates: TaskUpdate, fault: Fault) returns (failure: Option<Thrown>)
      requires Valid()
      modifies this
      ensures Valid()
      ensures subRows == old(subRows) && nextKey == old(nextKey) && tasks == old(tasks) && loading == old(loading)
      ensures failure.None? <==> !Fails(fault, 0)
      ensures failure.None? ==> taskRows == UpdateRows(old(taskRows), taskId, updates) && error == old(error)
      ensures failure.Some? ==>
                failure.value == fault.thrown && taskRows == old(taskRows) &&
                error == Some(Message(failure.value, "Failed to update task"))
    {
      if Fails(fault, 0) {
        error := Some(Message(fault.thrown, "Failed to update task"));
        return Some(fault.thrown);
      }
      UpdateKeepsTables(taskRows, subRows, nextKey, taskId, updates);
      taskRows := UpdateRows(taskRows, taskId, updates);
      failure := None;
    }

    /** `deleteTask`: the row goes, and with it its sub-tasks; no progress is recomputed. */
    method DeleteTask(taskId: string, fault: Fault) returns (failure: Option<Thrown>)
      requires Valid()
      modifies this
      ensures Valid()
      ensures nextKey == old(nextKey) && tasks == old(tasks) && loading == old(loading)
      ensures failure.None? <==> !Fails(fault, 0)
      ensures failure.None? ==>
                taskRows == Filter(old(taskRows), NotTask(taskId)) &&
                subRows == Filter(old(subRows), NotOfTask(taskId)) && error == old(error)
      ensures failure.Some? ==>
                failure.value == fault.thrown && taskRows == old(taskRows) && subRows == old(subRows) &&
                error == Some(Message(failure.value, "Failed to delete task"))
    {
      if Fails(fault, 0) {
        error := Some(Message(fault.thrown, "Failed to delete task"));
        return Some(fault.thrown);
      }
      DeleteKeepsTables(taskRows, subRows, nextKey, taskId);
      taskRows := Filter(taskRows, NotTask(taskId));
      subRows := Filter(subRows, NotOfTask(taskId));
      failure := None;
    }

    /**
     * `addSubTask`: reads the largest order index of the task's sub-tasks
     * (call 0), then inserts the new one, open, one index past it (call 1).
     */
    method AddSubTask(taskId: string, name: string, fault: Fault) returns (r: Outcome<SubTaskRow>)
      requires Valid()
      modifies this
      ensures Valid()
      ensures tasks == old(tasks) && loading == old(loading) && taskRows == old(taskRows)
      ensures !r.Done? ==> subRows == old(subRows) && nextKey == old(nextKey)
      ensures r.Threw? ==> error == Some(Message(r.thrown, "Failed to add subtask"))
      ensures r.Done? <==> !Fails(fault, 0) && !Fails(fault, 1) && FindTaskRow(taskRows, taskId).Some?
      ensures r.Done? ==>
                r.value == SubTaskRow(old(nextKey), FindTaskRow(taskRows, taskId).value.key, name, false,
                                      NextOrderIndex(Filter(old(subRows), OfTask(taskId)))) &&
                subRows == old(subRows) + [r.value] && nextKey == old(nextKey) + 1 && error == old(error)
      ensures !r.Done? ==> r.Threw?
      ensures r.Threw? ==> r.thrown == if Fails(fault, 0) || Fails(fault, 1) then fault.thrown else storeError
    {
      if Fails(fault, 0) {
        r := Threw(fault.thrown);
      } else {
        var nextOrderIndex := NextOrderIndex(Filter(subRows, OfTask(taskId)));
        var parent := FindTaskRow(taskRows, taskId);
        if Fails(fault, 1) {
          r := Threw(fault.thrown);
        } else if parent.None? {
          r := Threw(storeError);
        } else {
          var row := SubTaskRow(nextKey, parent.value.key, name, false, nextOrderIndex);
          InsertSubRow(row);
          r := Done(row);
        }
      }
      if r.Threw? {
        error := Some(Message(r.thrown, "Failed to add subtask"));
      }
    }

    /** The insert itself: the row takes the next key and points at an existing task. */
    method InsertSubRow(row: SubTaskRow)
      requires Valid() && row.key == nextKey && row.taskKey in KeysOf(taskRows)
      modifies this
      ensures Valid()
      ensures subRows == old(subRows) + [row] && nextKey == old(nextKey) + 1
      ensures taskRows == old(taskRows) && tasks == old(tasks) && loading == old(loading) && error == old(error)
    {
      AddSubKeepsTables(taskRows, subRows, nextKey, row);
      subRows, nextKey := subRows + [row], nextKey + 1;
    }

    /**
     * `updateSubTask`: writes the given fields (call 0); when `completed` is
     * among them, finds the parent (call 1, failing when the row is gone),
     * reads all its sub-tasks (call 2) and writes the recomputed progress
     * (call 3). A failure after call 0 leaves the sub-task written.
     */
    method UpdateSubTask(subId: string, name: Option<string>, completed: Option<bool>, fault: Fault)
        returns (failure: Option<Thrown>)
      requires Valid()
      modifies this
      ensures Valid()
      ensures nextKey == old(nextKey) && tasks == old(tasks) && loading == old(loading)
      ensures Fails(fault, 0) ==> subRows == old(subRows)
      ensures !Fails(fault, 0) ==> subRows == UpdateSubRows(old(subRows), subId, name, completed)
      ensures failure.None? <==>
                !Fails(fault, 0) &&
                (completed.Some? ==> !Fails(fault, 1) && FindSubRow(subRows, subId).Some? &&
                                     !Fails(fault, 2) && !Fails(fault, 3))
      ensures failure.None? && completed.Some? ==> taskRows == Recompute(old(taskRows), subRows, subId)
      ensures failure.Some? || completed.None? ==> taskRows == old(taskRows)
      ensures failure.None? ==> error == old(error)
      ensures failure.Some? ==> error == Some(Message(failure.value, "Failed to update subtask"))
      ensures failure.Some? ==>
                failure.value == if !Fails(fault, 0) && !Fails(fault, 1) && FindSubRow(subRows, subId).None?
                                 then storeError else fault.thrown
    {
      var rows, subs := taskRows, subRows;
      failure := None;
      if Fails(fault, 0) {
        failure := Some(fault.thrown);
      } else {
        SubUpdateKeepsTables(rows, subs, nextKey, subId, name, completed);
        subs := UpdateSubRows(subs, subId, name, completed);
        if completed.Some? {
          var subtaskData := FindSubRow(subs, subId);
          if Fails(fault, 1) {
            failure := Some(fault.thrown);
          } else if subtaskData.None? {
            failure := Some(storeError);
          } else if Fails(fault, 2) || Fails(fault, 3) {
            failure := Some(fault.thrown);
          } else {
            RecomputeKeepsTables(rows, subs, nextKey, subId);
            rows := Recompute(rows, subs, subId);
          }
        }
      }
      taskRows, subRows := rows, subs;
      if failure.Some? {
        error := Some(Message(failure.value, "Failed to update subtask"));
      }
    }

    /** `deleteSubTask`: the row goes; the parent's progress is not recomputed. */
    method DeleteSubTask(subId: string, fault: Fault) returns (failure: Option<Thrown>)
      requires Valid()
      modifies this
      ensures Valid()
      ensures taskRows == old(taskRows) && nextKey == old(nextKey) && tasks == old(tasks) && loading == old(loading)
      ensures failure.None? <==> !Fails(fault, 0)
      ensures failure.None? ==> subRows == Filter(old(subRows), NotSubTask(subId)) && error == old(error)
      ensures failure.Some? ==>
                failure.value == fault.thrown && subRows == old(subRows) &&
                error == Some(Message(failure.value, "Failed to delete subtask"))
    {
      if Fails(fault, 0) {
        error := Some(Message(fault.thrown, "Failed to delete subtask"));
        return Some(fault.thrown);
      }
      SubDeleteKeepsTables(taskRows, subRows, nextKey, subId);
      subRows := Filter(subRows, NotSubTask(subId));
      failure := None;
    }
  }

  // ---------------------------------------------------------------------------
  // The tables stay well formed

  lemma UpdateKeepsTables(rows: seq<TaskRow>, subs: seq<SubTaskRow>, next: nat, id: string, u: TaskUpdate)
    requires Tables(rows, subs, next)
    ensures Tables(UpdateRows(rows, id, u), subs, next)
  {
    var r := UpdateRows(rows, id, u);
    assert forall i :: 0 <= i < |r| ==> r[i].key == rows[i].key;
    assert KeysOf(r) == KeysOf(rows) by {
      forall k | k in KeysOf(rows) ensures k in KeysOf(r) {
        var i :| 0 <= i < |rows| && rows[i].key == k;
        assert r[i] in r;
      }
      forall k | k in KeysOf(r) ensures k in KeysOf(rows) {
        var i :| 0 <= i < |r| && r[i].key == k;
        assert rows[i] in rows;
      }
    }
  }

  lemma AddSubKeepsTables(rows: seq<TaskRow>, subs: seq<SubTaskRow>, next: nat, row: SubTaskRow)
    requires Tables(rows, subs, next)
    requires row.key == next && row.taskKey in KeysOf(rows)
    ensures Tables(rows, subs + [row], next + 1)
  {
  }

  lemma RecomputeKeepsTables(rows: seq<TaskRow>, subs: seq<SubTaskRow>, next: nat, subId: string)
    requires Tables(rows, subs, next)
    ensures Tables(Recompute(rows, subs, subId), subs, next)
  {
    match FindSubRow(subs, subId)
    case None =>
    case Some(s) =>
      var parentId := RowId(s.taskKey);
      UpdateKeepsTables(rows, subs, next, parentId, TaskUpdate(None, Some(RowsProgress(Filter(subs, OfTask(parentId)))), Absent));
  }

  lemma SubUpdateKeepsTables(rows: seq<TaskRow>, subs: seq<SubTaskRow>, next: nat, id: string,
                             name: Option<string>, completed: Option<bool>)
    requires Tables(rows, subs, next)
    ensures Tables(rows, UpdateSubRows(subs, id, name, completed), next)
  {
    var s := UpdateSubRows(subs, id, name, completed);
    assert forall i :: 0 <= i < |s| ==> s[i].key == subs[i].key && s[i].taskKey == subs[i].taskKey;
  }

  lemma DeleteKeepsTables(rows: seq<TaskRow>, subs: seq<SubTaskRow>, next: nat, id: string)
    requires Tables(rows, subs, next)
    ensures Tables(Filter(rows, NotTask(id)), Filter(subs, NotOfTask(id)), next)
  {
    var rs, ss := Filter(rows, NotTask(id)), Filter(subs, NotOfTask(id));
    FilterSpec(rows, NotTask(id));
    FilterSpec(subs, NotOfTask(id));
    FilterIncreasing(rows, NotTask(id), (r: TaskRow) => r.key);
    FilterIncreasing(subs, NotOfTask(id), (s: SubTaskRow) => s.key);
    forall i | 0 <= i < |rs| ensures rs[i].key < next {
      assert rs[i] in rows;
    }
    forall i | 0 <= i < |ss| ensures ss[i].key < next && ss[i].taskKey in KeysOf(rs) {
      assert ss[i] in subs;
      var t :| t in rows && t.key == ss[i].taskKey;
      assert t in rs;
    }
  }

  lemma SubDeleteKeepsTables(rows: seq<TaskRow>, subs: seq<SubTaskRow>, next: nat, id: string)
    requires Tables(rows, subs, next)
    ensures Tables(rows, Filter(subs, NotSubTask(id)), next)
  {
    var ss := Filter(subs, NotSubTask(id));
    FilterSpec(subs, NotSubTask(id));
    FilterIncreasing(subs, NotSubTask(id), (s: SubTaskRow) => s.key);
    forall i | 0 <= i < |ss| ensures ss[i].key < next && ss[i].taskKey in KeysOf(rows) {
      assert ss[i] in subs;
    }
  }

  // ---------------------------------------------------------------------------
  // What a fetch shows

  /**
   * Fetched task `i` stands for a row of this project and category, with that
   * row's id, name, dates and progress; its sub-tasks are exactly that row's
   * sub-task rows, each once, ordered by order index, ties in creation order.
   */
  lemma FetchedTask(rows: seq<TaskRow>, subs: seq<SubTaskRow>, project: string, category: string,
                    people: seq<Person>, i: nat)
    requires i < |Formatted(rows, subs, project, category, people)|
    ensures var t := Formatted(rows, subs, project, category, people)[i];
            exists row :: row in rows && row.projectId == project && row.category == category &&
              t.id == RowId(row.key) && t.name == row.name && t.startDate == row.startDate &&
              t.endDate == row.endDate && t.progress == row.progress &&
              t.assignedPerson == FindPerson(people, row.assignee) &&
              var own := SortByOrder(Filter(subs, OfTask(t.id)), SubOrder());
              multiset(own) == multiset(Filter(subs, OfTask(t.id))) && SortedBy(own, SubOrder()) &&
              (forall k :: WithKey(own, k, SubOrder()) == WithKey(Filter(subs, OfTask(t.id)), k, SubOrder())) &&
              t.subTasks == ToSubTasks(own)
  {
    var mine := Filter(rows, InCategory(project, category));
    FilterSpec(rows, InCategory(project, category));
    var row := mine[i];
    assert row in mine;
    var own := Filter(subs, OfTask(RowId(row.key)));
    SortPermutes(own, SubOrder());
    SortSorted(own, SubOrder());
    forall k
      ensures WithKey(SortByOrder(own, SubOrder()), k, SubOrder()) == WithKey(own, k, SubOrder())
    {
      SortStable(own, k, SubOrder());
    }
  }

  /** Every row of this project and category is fetched, and in creation order. */
  lemma FetchedAll(rows: seq<TaskRow>, subs: seq<SubTaskRow>, next: nat, project: string, category: string,
                   people: seq<Person>)
    requires Tables(rows, subs, next)
    ensures var r := Formatted(rows, subs, project, category, people);
            forall row :: row in rows && row.projectId == project && row.category == category ==>
              exists i :: 0 <= i < |r| && r[i].id == RowId(row.key)
    ensures var mine := Filter(rows, InCategory(project, category));
            forall i, j :: 0 <= i < j < |mine| ==> mine[i].key < mine[j].key
  {
    var mine := Filter(rows, InCategory(project, category));
    var r := Formatted(rows, subs, project, category, people);
    FilterSpec(rows, InCategory(project, category));
    FilterIncreasing(rows, InCategory(project, category), (t: TaskRow) => t.key);
    forall row | row in rows && row.projectId == project && row.category == category
      ensures exists i :: 0 <= i < |r| && r[i].id == RowId(row.key)
    {
      assert InCategory(project, category)(row);
      assert row in mine;
      var i :| 0 <= i < |mine| && mine[i] == row;
      assert r[i].id == RowId(row.key);
    }
  }

  // ---------------------------------------------------------------------------
  // Updating a task

  /**
   * `updateTask` changes only the rows with that id, never a key, a project,
   * a category or a date; an empty or missing name, a missing progress and
   * an absent assignee leave those fields as they were.
   */
  lemma UpdateRowsFields(rows: seq<TaskRow>, id: string, u: TaskUpdate, i: nat)
    requires i < |rows|
    ensures var r, old_ := UpdateRows(rows, id, u)[i], rows[i];
            r.key == old_.key && r.projectId == old_.projectId && r.category == old_.category &&
            r.startDate == old_.startDate && r.endDate == old_.endDate && r.isLocal == old_.isLocal &&
            (RowId(old_.key) != id ==> r == old_) &&
            (RowId(old_.key) == id ==>
               (r.name == if u.name == Some([]) || u.name.None? then old_.name else u.name.value) &&
               (r.progress == if u.progress.Some? then u.progress.value else old_.progress) &&
               (u.assignedPerson.Absent? ==> r.assignee == old_.assignee) &&
               (u.assignedPerson.Null? ==> r.assignee == None) &&
               (u.assignedPerson.Given? ==> r.assignee == if u.assignedPerson.person.id == "" then None
                                                       else Some(u.assignedPerson.person.id)))
  {
  }

  /** Writing the same update twice is writing it once. */
  lemma UpdateIdempotent(rows: seq<TaskRow>, id: string, u: TaskUpdate)
    ensures UpdateRows(UpdateRows(rows, id, u), id, u) == UpdateRows(rows, id, u)
  {
  }

  /** Deleting a task leaves no row with its id and no sub-task of it; every other row stays. */
  lemma DeleteTaskGone(rows: seq<TaskRow>, subs: seq<SubTaskRow>, id: string)
    ensures forall r :: r in Filter(rows, NotTask(id)) <==> r in rows && RowId(r.key) != id
    ensures forall s :: s in Filter(subs, NotOfTask(id)) <==> s in subs && RowId(s.taskKey) != id
  {
    FilterSpec(rows, NotTask(id));
    FilterSpec(subs, NotOfTask(id));
  }

  /** A row id is a decimal numeral, so it never takes the `sheet-` prefix of template tasks. */
  lemma RowIdNotTemplate(key: nat)
    ensures !StartsWith(RowId(key), "sheet-")
  {
    var r := RowId(key);
    assert '0' <= r[0] <= '9';
  }

  // ---------------------------------------------------------------------------
  // Adding a sub-task

  /** The order index a new sub-task gets is above every existing one, and one past the largest. */
  lemma {:induction false} NextOrderIndexAbove(rs: seq<SubTaskRow>)
    ensures forall i :: 0 <= i < |rs| ==> rs[i].orderIndex < NextOrderIndex(rs)
    ensures rs != [] ==> exists i :: 0 <= i < |rs| && rs[i].orderIndex + 1 == NextOrderIndex(rs)
  {
    if |rs| > 1 {
      var init := rs[..|rs| - 1];
      NextOrderIndexAbove(init);
      forall i | 0 <= i < |rs| ensures rs[i].orderIndex < NextOrderIndex(rs) {
        if i < |rs| - 1 {
          assert rs[i] == init[i];
        }
      }
      if rs[|rs| - 1].orderIndex <= MaxOrder(init) {
        var i :| 0 <= i < |init| && init[i].orderIndex + 1 == NextOrderIndex(init);
        assert rs[i] == init[i];
      } else {
        assert rs[|rs| - 1].orderIndex + 1 == NextOrderIndex(rs);
      }
    } else if |rs| == 1 {
      assert rs[0].orderIndex + 1 == NextOrderIndex(rs);
    }
  }

  /** A row whose key is above every key of a sorted list is inserted at the end. */
  lemma SortAppendLargest(rs: seq<SubTaskRow>, x: SubTaskRow)
    requires forall i :: 0 <= i < |rs| ==> rs[i].orderIndex < x.orderIndex
    ensures SortByOrder(rs + [x], SubOrder()) == SortByOrder(rs, SubOrder()) + [x]
  {
    var sorted := SortByOrder(rs, SubOrder());
    assert (rs + [x])[..|rs|] == rs;
    SortPermutes(rs, SubOrder());
    if sorted != [] {
      var last := sorted[|sorted| - 1];
      assert last in multiset(rs);
    }
  }

  /**
   * A sub-task added to an existing task is shown last among that task's
   * sub-tasks, open, after all those shown before, which keep their order.
   */
  lemma AddedSubTaskShownLast(rows: seq<TaskRow>, subs: seq<SubTaskRow>, next: nat, taskId: string,
                              name: string, people: seq<Person>)
    requires Tables(rows, subs, next)
    requires FindTaskRow(rows, taskId).Some?
    ensures var parent := FindTaskRow(rows, taskId).value;
            var row := SubTaskRow(next, parent.key, name, false, NextOrderIndex(Filter(subs, OfTask(taskId))));
            FormatTask(parent, subs + [row], people).subTasks ==
              FormatTask(parent, subs, people).subTasks + [SubTask(RowId(next), name, false)]
  {
    var parent := FindTaskRow(rows, taskId).value;
    var own := Filter(subs, OfTask(taskId));
    var row := SubTaskRow(next, parent.key, name, false, NextOrderIndex(own));
    assert (subs + [row])[..|subs|] == subs;
    assert Filter(subs + [row], OfTask(taskId)) == own + [row];
    NextOrderIndexAbove(own);
    SortAppendLargest(own, row);
    var sorted := SortByOrder(own, SubOrder());
    assert ToSubTasks(sorted + [row]) == ToSubTasks(sorted) + [SubTask(RowId(next), name, false)];
  }

  // ---------------------------------------------------------------------------
  // Progress after a sub-task update

  lemma {:induction false} CompletedInsert(x: SubTaskRow, s: seq<SubTaskRow>)
    ensures CompletedRows(Insert(x, s, SubOrder())) == CompletedRows(s) + (if x.completed then 1 else 0)
    decreases |s|
  {
    if s == [] || SubOrder()(s[|s| - 1]) <= SubOrder()(x) {
      assert (s + [x])[..|s|] == s;
    } else {
      var init, last := s[..|s| - 1], s[|s| - 1];
      var t := Insert(x, init, SubOrder());
      CompletedInsert(x, init);
      assert (t + [last])[..|t|] == t;
    }
  }

  /** Sorting does not change how many sub-tasks are completed. */
  lemma {:induction false} CompletedSorted(s: seq<SubTaskRow>)
    ensures CompletedRows(SortByOrder(s, SubOrder())) == CompletedRows(s)
  {
    if s != [] {
      CompletedSorted(s[..|s| - 1]);
      CompletedInsert(s[|s| - 1], SortByOrder(s[..|s| - 1], SubOrder()));
    }
  }

  lemma {:induction false} CompletedShown(s: seq<SubTaskRow>)
    ensures CompletedCount(ToSubTasks(s)) == CompletedRows(s)
  {
    if s != [] {
      CompletedShown(s[..|s| - 1]);
      assert ToSubTasks(s)[..|s| - 1] == ToSubTasks(s[..|s| - 1]);
    }
  }

  /**
   * The progress `updateSubTask` writes for a task is the progress the chart
   * computes from that task's sub-tasks as a fetch shows them.
   */
  lemma WrittenProgressMatchesShown(row: TaskRow, subs: seq<SubTaskRow>, people: seq<Person>)
    ensures RowsProgress(Filter(subs, OfTask(RowId(row.key)))) == SubTaskProgress(FormatTask(row, subs, people).subTasks)
  {
    var own := Filter(subs, OfTask(RowId(row.key)));
    var sorted := SortByOrder(own, SubOrder());
    CompletedSorted(own);
    CompletedShown(sorted);
    SortPermutes(own, SubOrder());
    assert |sorted| == |own| by { assert |multiset(sorted)| == |multiset(own)|; }
  }

  /** Recomputing changes only the progress of the updated sub-task's parent. */
  lemma RecomputeOnlyParent(rows: seq<TaskRow>, subs: seq<SubTaskRow>, subId: string, i: nat)
    requires i < |rows|
    ensures |Recompute(rows, subs, subId)| == |rows|
    ensures var r := Recompute(rows, subs, subId);
            r[i] == rows[i].(progress := r[i].progress) &&
            (FindSubRow(subs, subId).Some? && RowId(rows[i].key) == RowId(FindSubRow(subs, subId).value.taskKey) ==>
               r[i].progress == RowsProgress(Filter(subs, OfTask(RowId(rows[i].key))))) &&
            (FindSubRow(subs, subId).None? || RowId(rows[i].key) != RowId(FindSubRow(subs, subId).value.taskKey) ==>
               r[i] == rows[i])
  {
  }
}
